=== FILE: README.md ===
# Deductia attendance rules in Dafny

Deductia is a class-attendance tracker. A lecturer (role `dosen`) opens a
15-minute check-in window for a weekly session. Students (role `mahasiswa`)
register and wait for activation. They log in on one device and check in with a
selfie and their GPS position, which a geofence around the campus checks. A
queued job later fills in the street address. A Next.js client shows a
dashboard and a searchable list of materials.

This project models the rules behind that behaviour as pure functions over
immutable data and proves properties about them:

- `attendance_session.dfy`: the window query.
- `session_resource.dfy`: the admin actions that open and close the window, and the session form.
- `attendance_store.dfy`: the `attendances` table with its constraints.
- `checkin.dfy`: the ordered check-in decision and the student's own history.
- `address_job.dfy`: the address back-fill job.
- `settings.dfy`: the key/value settings.
- `materials.dfy`: material classification and listing.
- `session_api.dfy`: the session endpoints.
- `accounts.dfy`: users and their scopes.
- `auth.dfy`: the register/login/logout state machine.
- `dashboard.dfy` and `materials_page.dfy`: the client-side derivations.
- `wrappers.dfy`, `seqs.dfy` and `text.dfy`: shared helpers for options, sequences, strings and numbers.

Conventions:

- **Time.** Whole minutes as integers. Dates are day numbers.
- **Coordinates.** Integers scaled by 10^8, the eight fractional digits of the decimal columns.
- **Tables.** Sequences in id order. Eloquent's `first()` is the first match in that order.
- **Outside the model.** Hashing, the e-mail format check, the PHP `(float)` cast, the haversine distance and the reverse geocoder are function parameters. The model assumes nothing about them.

## Model

| member | source | states |
|---|---|---|
| AttendanceSessions.IsOpen | backend/app/Models/AttendanceSession.php:43-53 | open exactly when an opening time exists and now lies between it and 15 minutes later, both ends included |
| AttendanceSessions.RemainingMinutes | backend/app/Models/AttendanceSession.php:56-67 | null exactly when never opened; never negative; 15 minus elapsed while open; 0 once expired |
| AttendanceSessions.NeverOpenedIsClosed | backend/app/Models/AttendanceSession.php:45-47 | a session with no opening time is closed at every time and reports no remaining minutes |
| AttendanceSessions.WindowBoundaries | backend/app/Models/AttendanceSession.php:50-52 | open at minute 0 and minute 15, closed at minute 16 and one minute before opening; 0 remaining at minute 15 |
| AttendanceSessions.FutureOpeningTime | backend/app/Models/AttendanceSession.php:52-66 | an opening time in the future means not open, yet more than 15 minutes are reported as remaining |
| AttendanceSessions.RemainingNonIncreasing | backend/app/Models/AttendanceSession.php:62-66 | with the opening time fixed, remaining minutes never increase as time advances |
| AttendanceSessions.RemainingWhileOpen | backend/app/Models/AttendanceSession.php:64-66 | while open, remaining minutes lie in 0..15 |
| SessionResource.FormErrors | backend/app/Filament/Resources/AttendanceSessionResource.php:30-44 | the week name fails exactly when blank or longer than 50 characters; the date fails exactly when absent; the material is optional |
| SessionResource.Create | backend/app/Filament/Resources/AttendanceSessionResource.php:30-44 | a form without errors yields a closed session carrying the form's name, date and material; otherwise the failing fields |
| SessionResource.Edit | backend/app/Filament/Resources/AttendanceSessionResource.php:30-44 | a valid edit replaces name, date and material and keeps the id and the opening time |
| SessionResource.Open | backend/app/Filament/Resources/AttendanceSessionResource.php:81-82 | after opening, the window is open for the next 15 minutes with 15 remaining; only the opening time changes |
| SessionResource.Close | backend/app/Filament/Resources/AttendanceSessionResource.php:96-101 | after closing, the window is closed and remaining is null at every time; only the opening time changes |
| SessionResource.CloseVisible | backend/app/Filament/Resources/AttendanceSessionResource.php:112 | the close action is visible exactly when the window is open |
| SessionResource.CloseIdempotent | backend/app/Filament/Resources/AttendanceSessionResource.php:101 | closing twice equals closing once |
| SessionResource.ReopenRestartsWindow | backend/app/Filament/Resources/AttendanceSessionResource.php:82 | reopening overwrites the opening time, so the 15 minutes restart from the new time |
| SessionResource.ExpiredHidesClose | backend/app/Filament/Resources/AttendanceSessionResource.php:112 | once expired the close action is hidden although the opening time is still set |
| SessionResource.OpenAfterClose | backend/app/Filament/Resources/AttendanceSessionResource.php:82-101 | a closed session reopened is open at once; closing after opening equals closing |
| Settings.Get | backend/app/Models/Setting.php:18-22 | the stored value, even a stored null, when the key exists; the default only when it is missing |
| Settings.Set | backend/app/Models/Setting.php:25-31 | upsert: the key maps to the new value and every other key keeps its value |
| Settings.FilterBool | backend/app/Models/Setting.php:40 | true exactly when the value, with leading and trailing space, tab, carriage return, vertical tab and newline removed (NUL is kept) and then lower-cased, is "1", "true", "on" or "yes"; equivalently, for any split of the value into whitespace, a word with non-whitespace ends, and whitespace, true exactly when the lower-cased word is one of those four |
| Settings.GetBool | backend/app/Models/Setting.php:34-41 | the default when the key is missing or null; otherwise FILTER_VALIDATE_BOOLEAN of the value |
| Settings.GetFloat | backend/app/Models/Setting.php:44-48 | the default when the key is missing or null; otherwise the float cast of the value |
| Settings.SetThenGet | backend/app/Models/Setting.php:18-31 | reading a key after writing it returns the written value, whether or not the key existed |
| Settings.SetFrame | backend/app/Models/Setting.php:25-31 | writing one key leaves the reading of every other key unchanged |
| Settings.StoredNullWins | backend/app/Models/Setting.php:18-22 | a stored null is returned as null, not replaced by the default |
| Settings.FilterBoolPlain | backend/app/Models/Setting.php:40 | for a value without edge whitespace or capitals, true exactly for the four true words |
| Settings.FilterBoolLowerWord | backend/app/Models/Setting.php:40 | a word of lower-case letters and digits is true exactly when it is one of the four true words |
| Settings.FilterBoolFaceLiterals | backend/app/Http/Controllers/Api/AttendanceController.php:54-58 | of the four accepted face_detected literals, "true" and "1" read as true, "false" and "0" as false |
| Settings.FilterBoolIgnoresCase | backend/app/Models/Setting.php:40 | a value without surrounding whitespace reads the same as its lower-cased form, so "TRUE" counts as "true" |
| Settings.FilterBoolIgnoresSpace | backend/app/Models/Setting.php:40 | space, tab, carriage return, vertical tab and newline around a value do not change how it reads |
| Settings.FilterBoolTrailingNul | backend/app/Models/Setting.php:40 | a value ending in NUL never reads as true, because the validator does not strip NUL |
| Text.TrimSurrounded | backend/app/Http/Controllers/Api/AuthController.php:50-53 | the `required` rule trims with PHP's `trim`, which removes exactly the whitespace run (space, tab, newline, carriage return, NUL, vertical tab) around a visible word |
| Settings.SeededGeofencingEnabled | backend/database/migrations/2024_12_25_000004_create_settings_table.php:21-26 | the four seeded rows switch geofencing on |
| AttendanceStore.Find | backend/app/Jobs/ProcessAttendanceAddress.php:28 | the position of the row with the given id, or none exactly when no row has it |
| AttendanceStore.Insert | backend/database/migrations/2024_12_25_000003_create_attendances_table.php:13-24 | rejects out-of-range coordinates and a duplicate (user, session) pair; otherwise appends one row with the next id and the given values, face_detected defaulting to true; the table constraints are kept |
| AttendanceStore.SetAddress | backend/app/Jobs/ProcessAttendanceAddress.php:34 | only the address of the chosen row changes; the constraints are kept |
| AttendanceStore.DeleteUser | backend/database/migrations/2024_12_25_000003_create_attendances_table.php:14 | exactly the user's rows are removed; the others stay and the constraints are kept |
| AttendanceStore.DeleteSession | backend/database/migrations/2024_12_25_000003_create_attendances_table.php:15 | exactly the session's rows are removed; the others stay and the constraints are kept |
| AttendanceStore.CascadeKeepsReferences | backend/database/migrations/2024_12_25_000003_create_attendances_table.php:14-15 | after a cascade delete no row points at the deleted user or session |
| AttendanceStore.InsertTwiceViolates | backend/database/migrations/2024_12_25_000003_create_attendances_table.php:24 | a second insert for the same (user, session) pair fails on the unique index |
| AttendanceStore.AtMostOnePerPair | backend/database/migrations/2024_12_25_000003_create_attendances_table.php:24 | in a valid table two distinct rows never share a (user, session) pair |
| AttendanceStore.CoordinateColumnBounds | backend/database/migrations/2024_12_25_000003_create_attendances_table.php:17-18 | latitude holds at most two integer digits and longitude at most three, with eight fractional digits |
| AddressJob.Handle | backend/app/Jobs/ProcessAttendanceAddress.php:26-37 | when the record exists and the resolved address is truthy, that record's address becomes the resolved address; nothing else changes; a missing record or a falsy address leaves the table unchanged |
| AddressJob.HandleUsesCapturedCoordinates | backend/app/Jobs/ProcessAttendanceAddress.php:18-31 | changing the stored coordinates does not change which address is written |
| AddressJob.HandleIdempotent | backend/app/Jobs/ProcessAttendanceAddress.php:26-37 | running the job twice equals running it once |
| CheckIn.PayloadErrors | backend/app/Http/Controllers/Api/AttendanceController.php:50-55 | each field is reported exactly when its rule fails: an image of at most 5120 KB, latitude within ±90, longitude within ±180, face_detected loosely equal to one of true/false/1/0, that is "true", "false" or any numeric string worth one or zero |
| CheckIn.FaceOkIsLooseIn | backend/app/Http/Controllers/Api/AttendanceController.php:54 | the face_detected rule accepts a value exactly when non-strict `in_array` with PHP 8's `==` finds it among "true", "false", "1" and "0" |
| CheckIn.FaceLiteralsParsed | backend/app/Http/Controllers/Api/AttendanceController.php:54 | of the rule's options, "true" and "false" are not numeric strings, while "1" and "0" are the numbers one and zero |
| CheckIn.LooseInFlags | backend/app/Http/Controllers/Api/AttendanceController.php:54 | loose membership among two non-numeric words, a numeric one and a numeric zero holds exactly for either word as written or a numeric string worth one or zero |
| CheckIn.FilterTrueNumber | backend/app/Http/Controllers/Api/AttendanceController.php:58 | a numeric string that `filter_var` reads as true is worth one |
| CheckIn.FaceReadAsTrue | backend/app/Http/Controllers/Api/AttendanceController.php:54-58 | an accepted face_detected value is stored as true only when it is "true" or a numeric string worth one |
| CheckIn.FaceLiteralsRead | backend/app/Http/Controllers/Api/AttendanceController.php:54-58 | the four options pass validation; "true" and "1" are stored as true, "false" and "0" as false |
| CheckIn.LeadingZerosOne | backend/app/Http/Controllers/Api/AttendanceController.php:54-58 | "01", "001" and every other zero-padded one pass validation yet are stored as false |
| CheckIn.PointZerosOne | backend/app/Http/Controllers/Api/AttendanceController.php:54-58 | "1.0", "1.00" and every one with a point and zeros pass validation yet are stored as false |
| PhpNumeric.LooseEquals | backend/app/Http/Controllers/Api/AttendanceController.php:54 | identical strings are equal; when either is not a numeric string they are equal exactly when identical; two numeric strings are equal exactly when their values are |
| PhpNumeric.LooseWord | backend/app/Http/Controllers/Api/AttendanceController.php:54 | against a non-numeric option, loose equality is string identity |
| PhpNumeric.LooseNumber | backend/app/Http/Controllers/Api/AttendanceController.php:54 | against a numeric option, loose equality holds exactly for numeric strings of the same value |
| PhpNumeric.LooseInFour | backend/app/Http/Controllers/Api/AttendanceController.php:54 | membership in a four-option list is loose equality with one of the four |
| PhpNumeric.WordsNotNumeric | backend/app/Http/Controllers/Api/AttendanceController.php:54 | "true" and "false" are not numeric strings |
| PhpNumeric.OtherStartNotNumeric | backend/app/Http/Controllers/Api/AttendanceController.php:54 | a string whose first non-whitespace character is not a digit, sign or point is not numeric |
| PhpNumeric.IntegerLiteral | backend/app/Http/Controllers/Api/AttendanceController.php:54 | a non-empty run of decimal digits is numeric and worth its decimal value |
| PhpNumeric.PaddedDigit | backend/app/Http/Controllers/Api/AttendanceController.php:54 | one digit with only whitespace around it is numeric and worth that digit |
| PhpNumeric.PointLiteral | backend/app/Http/Controllers/Api/AttendanceController.php:54 | digits, a point and digits are numeric and worth all the digits' value scaled down by the number of fraction digits |
| PhpNumeric.SameAsZero | backend/app/Http/Controllers/Api/AttendanceController.php:54 | a number equals zero exactly when its mantissa is zero, whatever its sign and exponent |
| CheckIn.OutsideFence | backend/app/Http/Controllers/Api/AttendanceController.php:61-73 | never outside when geofencing is off; otherwise outside exactly when the distance to the campus exceeds the radius |
| CheckIn.GeofenceSettings | backend/app/Http/Controllers/Api/AttendanceController.php:142-152 | geofencing is the boolean setting with default on; the radius and the campus are the float settings with defaults 100 m, 0 and 0; so with nothing stored the fence is on, 100 m around 0,0 |
| CheckIn.Attend | backend/app/Http/Controllers/Api/AttendanceController.php:22-114 | duplicate first, then not-opened or expired, then the validation errors, then out of range with the computed distance and the radius; an accepted check-in appends one record with the caller, the session, the coordinates, the pending address and now, its face flag being `filter_var`'s reading of the value (true only for "true" or a numeric string worth one), and dispatches the job with the record's id and the same coordinates |
| CheckIn.AttendAcceptsIff | backend/app/Http/Controllers/Api/AttendanceController.php:27-96 | accepted exactly when there is no earlier record, the window is open, the payload is valid and the point is not outside the fence (any point passes when geofencing is off); the insert itself never fails |
| CheckIn.ValidatedCoordinatesFit | backend/app/Http/Controllers/Api/AttendanceController.php:52-53 | coordinates that pass validation always fit their decimal columns |
| CheckIn.GeofenceOffNeverOutOfRange | backend/app/Http/Controllers/Api/AttendanceController.php:61 | with geofencing disabled no check-in is refused for its location |
| CheckIn.FenceBoundaryInside | backend/app/Http/Controllers/Api/AttendanceController.php:73 | a point exactly at the maximum distance is accepted |
| CheckIn.GeofenceDefaults | backend/app/Http/Controllers/Api/AttendanceController.php:61-64 | an empty settings table gives geofencing on with a 100 m radius |
| CheckIn.GeofenceUnrecognisedValueDisables | backend/app/Models/Setting.php:36-40 | a stored null reads as enabled, but a stored word outside the true set disables the fence |
| CheckIn.SecondAttemptRejected | backend/app/Http/Controllers/Api/AttendanceController.php:27-35 | after an accepted check-in, the same student's next attempt for that session is refused as already submitted |
| CheckIn.OwnRecords | backend/app/Http/Controllers/Api/AttendanceController.php:119-122 | exactly the caller's records, sorted by submission time, newest first |
| CheckIn.MyAttendances | backend/app/Http/Controllers/Api/AttendanceController.php:117-139 | one item per record of the caller, the ids being exactly the caller's record ids, newest submission first; each item carries its record's id, session id, submission time and address and the week name and date of that record's session (the first session row carrying its id) |
| CheckIn.SessionOfUnique | backend/app/Http/Controllers/Api/AttendanceController.php:117 | with session ids distinct, as the primary key makes them, the record's session is the one row carrying its id |
| Materials.Classify | backend/app/Http/Controllers/Api/SessionController.php:23-40 | "link" exactly when there is no truthy file and no truthy YouTube link; a file never gives "link"; without a file only "video" or "link" |
| Materials.FileDecidesType | backend/app/Http/Controllers/Api/SessionController.php:24-34 | with a file present, the link does not affect the type |
| Materials.ClassifyByExtension | backend/app/Http/Controllers/Api/SessionController.php:25-33 | a file named stem.ext is classified by ext alone: pdf, ppt/pptx, mp4/mkv/webm, else other |
| Materials.ExtensionType | backend/app/Http/Controllers/Api/SessionController.php:25-33 | pdf exactly for "pdf", ppt exactly for "ppt" and "pptx", video exactly for "mp4", "mkv" and "webm", in any letter case, and other for every other extension; never link |
| Text.BaseName | backend/app/Http/Controllers/Api/SessionController.php:25 | PHP's basename: the '/'-free run that ends where the trailing '/' begin and starts just after the '/' before it, or at the start |
| Text.Extension | backend/app/Http/Controllers/Api/SessionController.php:25 | `pathinfo`'s extension: free of '.' and '/', ending the base name right after a '.', so what follows the last '.'; "" when the base name has no '.' |
| Text.ExtensionOfDotted | backend/app/Http/Controllers/Api/SessionController.php:25 | a name stem.ext has extension ext for every ext without '.' or '/', whatever the stem holds |
| Text.NameIgnoresTrailingSlashes | backend/app/Http/Controllers/Api/SessionController.php:25 | trailing '/' change neither the base name nor the extension |
| Materials.ExtensionTypeIgnoresCase | backend/app/Http/Controllers/Api/SessionController.php:26-30 | upper- and lower-case extensions are classified alike |
| Materials.NoExtensionIsOther | backend/app/Http/Controllers/Api/SessionController.php:25-33 | a file whose name has no dot is of type other |
| Materials.ClassifyWithoutFile | backend/app/Http/Controllers/Api/SessionController.php:35-39 | without a file, a link containing youtube.com or youtu.be is a video and anything else is a link |
| Materials.FileUrl | backend/app/Http/Controllers/Api/SessionController.php:46 | null exactly when the file path is falsy; otherwise a URL ending in the path |
| Materials.NewestPublished | backend/app/Http/Controllers/Api/SessionController.php:15-19 | min(limit, number published) published materials, newest first, none repeated more often than it is stored; any published material left out is no newer than every one kept |
| Materials.MaterialsList | backend/app/Http/Controllers/Api/SessionController.php:13-57 | as many items as the newest-published selection, each the view of a published material, none repeated more often than its material is stored |
| Materials.MaterialsListNewestFirst | backend/app/Http/Controllers/Api/SessionController.php:17-19 | the list is newest first, and a published material not listed is no newer than any listed one |
| SessionApi.MaterialOf | backend/app/Http/Controllers/Api/SessionController.php:73 | the session's material when it still exists; none exactly when there is no material id or no material with that id |
| SessionApi.ViewWith | backend/app/Http/Controllers/Api/SessionController.php:69-80 | attendance_open and remaining_minutes agree with the window model; the material appears exactly when it exists, with that material's title, file URL and link |
| SessionApi.SessionsList | backend/app/Http/Controllers/Api/SessionController.php:60-87 | min(limit, count) sessions, latest date first, each a view of a stored session and none repeated more often than it is stored; a session left out is dated no later than every listed one |
| SessionApi.Show | backend/app/Http/Controllers/Api/SessionController.php:90-108 | the session's id, week name and date; attendance_open and remaining_minutes from the window model; a detailed material, description included, exactly when the session's material exists; the list's view with the description added |
| SessionApi.ListAndShowAgree | backend/app/Http/Controllers/Api/SessionController.php:79-80 | the list and the detail report the same window state and the same presence of the material |
| SessionApi.DeletedMaterialShowsNone | backend/app/Http/Controllers/Api/SessionController.php:97 | a session whose material was deleted is shown without one |
| Accounts.ActiveUsers | backend/app/Models/User.php:52-55 | exactly the active users |
| Accounts.PendingUsers | backend/app/Models/User.php:64-67 | exactly the inactive users |
| Accounts.MahasiswaUsers | backend/app/Models/User.php:58-61 | exactly the users with role mahasiswa |
| Accounts.ActivePendingPartition | backend/app/Models/User.php:52-67 | the active and pending scopes together hold every user exactly once |
| Accounts.Serialize | backend/app/Models/User.php:26-29 | every attribute except password and remember_token, with its stored value |
| Accounts.CanAccessPanel | backend/app/Models/User.php:40-43 | the admin panel is open exactly to the role dosen, so never to a mahasiswa |
| Auth.IntLiteralOfNat | backend/app/Http/Controllers/Api/AuthController.php:21 | a number's decimal spelling passes the integer rule exactly when it fits 64 bits |
| Auth.IntLiteralOfNegative | backend/app/Http/Controllers/Api/AuthController.php:21 | a minus sign and a decimal spelling pass exactly down to -2^63 |
| Auth.LeadingZeroNotInt | backend/app/Http/Controllers/Api/AuthController.php:21 | a zero-padded student number fails the integer rule, unsigned or after a '+' or '-' sign |
| Auth.IsIntLiteral | backend/app/Http/Controllers/Api/AuthController.php:21 | an accepted student number is an optional sign followed by digits, with no leading zero after the sign unless the number is a lone 0 |
| Auth.RegisterErrors | backend/app/Http/Controllers/Api/AuthController.php:18-23 | each field is reported exactly when its rules fail: name, email (format, length, unused), nim (integer, unused), password (length 6, confirmed) |
| Auth.Register | backend/app/Http/Controllers/Api/AuthController.php:16-43 | succeeds exactly when no field fails; then appends one inactive mahasiswa under the next id, with the request's fields and the hashed password, and leaves tokens alone |
| Auth.NewStudent | backend/app/Http/Controllers/Api/AuthController.php:25-32 | a registered user has role mahasiswa, is inactive and cannot enter the panel |
| Auth.RegisterKeepsInvariants | backend/app/Http/Controllers/Api/AuthController.php:20-21 | after registration ids stay distinct and no email or nim is shared |
| Auth.RegisterRejectsTaken | backend/app/Http/Controllers/Api/AuthController.php:20-21 | an email or nim already in use blocks registration |
| Auth.RegisterRejectsBadPassword | backend/app/Http/Controllers/Api/AuthController.php:22 | a password shorter than 6 or different from its confirmation blocks registration |
| Auth.Login | backend/app/Http/Controllers/Api/AuthController.php:48-89 | missing fields, then unknown nim or wrong password, then inactive account, all leaving the state unchanged; on success the user then holds exactly the one new token and other users' tokens are unchanged |
| Auth.IssueToken | backend/app/Http/Controllers/Api/AuthController.php:71-74 | after issuing, the user's tokens are exactly the new one and everyone else's are unchanged |
| Auth.IssueTokenKeepsValid | backend/app/Http/Controllers/Api/AuthController.php:71-74 | revoking the user's tokens and issuing one keeps user and token ids distinct and below the next id |
| Auth.LoginKeepsValid | backend/app/Http/Controllers/Api/AuthController.php:71-74 | login keeps user and token ids distinct and below the next id |
| Auth.FreshRegistrantNotActivated | backend/app/Http/Controllers/Api/AuthController.php:25-68 | a student who just registered gets the not-activated answer, even with the right password |
| Auth.Logout | backend/app/Http/Controllers/Api/AuthController.php:94-101 | the current token is gone and every token with another id is kept |
| Auth.LogoutRemovesOne | backend/app/Http/Controllers/Api/AuthController.php:96 | with distinct ids, logout removes exactly one token and keeps the state valid |
| Auth.Me | backend/app/Http/Controllers/Api/AuthController.php:106-119 | id, name, nim, role and is_active of the user |
| Auth.MeWithinSerialized | backend/app/Http/Controllers/Api/AuthController.php:108-118 | every value `me` reports equals the user's serialised attribute, so nothing hidden is exposed |
| Auth.FindByNim | backend/app/Http/Controllers/Api/AuthController.php:55 | a user with that nim, or none exactly when no user has it |
| Auth.LoginFieldErrors | backend/app/Http/Controllers/Api/AuthController.php:50-53 | nim and password are each reported exactly when missing or blank; no error exactly when both are present |
| Auth.CredentialsMatch | backend/app/Http/Controllers/Api/AuthController.php:55-57 | never true for an unknown nim; when true, a user with that nim has a password hash that checks against the given password; true whenever the first user with that nim has such a hash |
| Auth.FindByNimFirst | backend/app/Http/Controllers/Api/AuthController.php:55 | the lookup returns the first user with that nim in id order |
| Dashboard.WeekNumber | deductia-fe/app/page.tsx:159 | 0 for a week name without digits |
| Dashboard.WeekNumberAfterLabel | deductia-fe/app/page.tsx:159 | a digit-free label followed by a number parses back to that number |
| Dashboard.WeekNumberJoinsDigits | deductia-fe/app/page.tsx:159 | digits from anywhere in the name are concatenated |
| Dashboard.TitleRoundTrip | deductia-fe/app/page.tsx:159-162 | the forced title "Week n" parses back to n |
| Dashboard.ToCard | deductia-fe/app/page.tsx:158-178 | open for attendance and status ongoing both exactly when the API reports the window open |
| Dashboard.ActiveSession | deductia-fe/app/page.tsx:183 | the first open session in list order, or none exactly when none is open |
| Dashboard.ActiveSessionAppend | deductia-fe/app/page.tsx:183 | the active session of two lists joined is the first list's when it has one, otherwise the second list's |
| Dashboard.HasAttended | deductia-fe/app/page.tsx:186-190 | true exactly when logged in, a session is active and some attendance belongs to it |
| Dashboard.UpcomingSession | deductia-fe/app/page.tsx:193-197 | the first session that is not open and dated today or later, or none exactly when there is none |
| Dashboard.PastSessions | deductia-fe/app/page.tsx:200-201 | the number of sessions dated today or earlier when that number is not zero, otherwise 1 |
| Dashboard.RoundPercent | deductia-fe/app/page.tsx:208-209 | the percentage rounded to the nearest whole number, halves up |
| Dashboard.AttendanceRate | deductia-fe/app/page.tsx:208-209 | never above 100; exactly 100 when attended / past is at least 0.995; below that, attended / past * 100 rounded half up; a zero count of past sessions is read as 1 |
| Dashboard.RoundsToFull | deductia-fe/app/page.tsx:208-209 | the rounded percentage reaches 100 exactly when a / b is at least 0.995 |
| Dashboard.FullAttendance | deductia-fe/app/page.tsx:208-209 | attending at least as many sessions as have passed shows 100 |
| Dashboard.NoAttendance | deductia-fe/app/page.tsx:208-209 | a student with no attendances sees 0, whatever the number of past sessions |
| Dashboard.DisplayedRate | deductia-fe/app/page.tsx:204-209 | guests see 80; a student sees the rate of their own attendances |
| Dashboard.CurrentWeek | deductia-fe/app/page.tsx:212-213 | the active week, else the upcoming week, else 1, a week number of 0 counting as missing |
| Dashboard.ProgressPercent | deductia-fe/app/page.tsx:214-215 | between 0 and 100; exactly 100 from week 14 on; week/14*100 before |
| Dashboard.ProgressMonotone | deductia-fe/app/page.tsx:215 | progress never falls as the week grows |
| Dashboard.Build | deductia-fe/app/page.tsx:158-215 | the active card is open and ongoing and comes from an open session; attended implies logged in and active; upcoming is dated today or later; rate, week and progress are in range; each part is the first open card, the first upcoming card, the attended flag, the displayed rate, the current week and the progress of those same cards |
| MaterialsPage.Filtered | deductia-fe/app/materials/page.tsx:39-56 | an item is kept exactly when it passes both the search and the type tab |
| MaterialsPage.MatchesSearch | deductia-fe/app/materials/page.tsx:40-43 | matches exactly when the query occurs, ignoring case, in the title or in a non-empty session title |
| MaterialsPage.MatchesType | deductia-fe/app/materials/page.tsx:45-53 | the all tab keeps everything; the link tab exactly the items with a non-empty link; the pdf, ppt and video tabs exactly the items of that file type |
| MaterialsPage.FilteredKeepsOrder | deductia-fe/app/materials/page.tsx:39 | filtering a concatenation filters each part in turn, so order is kept |
| MaterialsPage.EmptyQueryMatchesAll | deductia-fe/app/materials/page.tsx:40-43 | an empty search matches every item |
| MaterialsPage.NoFilterKeepsAll | deductia-fe/app/materials/page.tsx:40-53 | an empty search on the all tab keeps the whole list |
| MaterialsPage.SearchIgnoresQueryCase | deductia-fe/app/materials/page.tsx:41-43 | the search ignores the case of the query |
| MaterialsPage.LinkTabIgnoresFileType | deductia-fe/app/materials/page.tsx:46-47 | the link tab looks only at the link, so a link-typed material without a link is not shown there |
| MaterialsPage.TypeTabsMatchFileType | deductia-fe/app/materials/page.tsx:48-53 | the pdf, ppt and video tabs keep exactly the items of that type |

Three behaviours of the code that the model keeps:

- `file_url` is null whenever the file path is PHP-falsy, which includes the path "0", not only when it is absent.
- A `geofencing_enabled` value that is neither null nor a true word, such as "enabled", switches the geofence off. It does not fall back to the safe default.
- A database error during the insert is not turned into an "already submitted" answer. The model reports it as `StorageFailure`. `CheckIn.AttendAcceptsIff` shows it never occurs when requests are handled one at a time, because the duplicate check and coordinate validation come first.

## Left out

- The haversine distance and the HTTP reverse geocoder are left out because they are floating point and network code. Both are function parameters.
- The PHP `(float)` cast of stored settings is left out because it is floating point. It is a parameter, and geofence comparisons are over reals.
- Carbon's fractional minutes are left out: elapsed time is a signed whole-minute difference, `opened - now`, as Carbon returns it.
- Storing the selfie and sniffing its image type are left out because they are file I/O. The upload is reduced to "is an image" and its size.
- Queue dispatch is not modelled. The job is a later, separate transition.
- The race between the duplicate check and the insert is left out because requests are modelled one at a time.
- Hashing and Sanctum token secrets are left out because they are library internals. Hashing is a parameter and tokens are (id, user) rows.
- The password reset controller and the `user.active` middleware are not part of this model.
- Laravel's TrimStrings middleware is assumed to have run, so FILTER_VALIDATE_INT sees an already trimmed student number.
- `CheckIn.FaceOk`: face_detected is taken as sent, without the TrimStrings middleware. Padded values are accepted and read as PHP reads them; unpadded values, which is what the middleware delivers, behave the same either way. A JSON boolean or number in place of the form string is not modelled.
- `PhpNumeric.LooseEquals`: numeric strings are compared by exact value. PHP compares them as doubles when either is fractional or beyond 64 bits, so strings of more than about 16 significant digits can compare equal in PHP and differ in the model. The four face_detected options are small integers, which both compare alike.
- Database collation is left out. Emails and student numbers compare by exact string equality.
- `limit` query parameters that are not non-negative integers are not modelled.
- `asset()`'s base URL is left out. File URLs are relative.
- Date formatting in responses is left out. Timestamps stay numbers.
- `Auth.NewStudent`: Laravel's automatic timestamps and `email_verified_at` are not modelled.
- The CSV export, the Filament tables and all React presentation are left out because they are UI.
- The demo data shown to guests is a parameter: the dashboard receives whichever session list was fetched.
- `Dashboard.PastSessions`, `Dashboard.UpcomingSession`: the browser parses a session date as UTC midnight but compares it with local time. The model compares day numbers and ignores the time-zone offset.
- `Dashboard.AttendanceRate`: JavaScript computes `a / p * 100` in floating point. The model rounds the exact rational, which can differ at .5 boundaries.
- `Dashboard.WeekNumber`: `parseInt` loses precision beyond 2^53. The model's number is exact.
- `MaterialsPage.MatchesSearch`: `toLowerCase` folds the case of all of Unicode. The model lower-cases ASCII letters only.
- `Materials.ExtensionType`: `strtolower` is modelled on ASCII letters only, as PHP 8 does.
- Coordinates with more than eight fractional digits pass validation. The address job receives them as sent, while the decimal columns round them. Scaled integers cannot express that difference, so the model does not show it.

=== FILE: accounts.dfy ===
/** Users: roles, the activation flag, the query scopes over them and the
    attributes hidden from serialised output. */
module Accounts {
  import opened Wrappers
  import Seqs

  const ROLE_DOSEN := "dosen"
  const ROLE_MAHASISWA := "mahasiswa"

  /** A row of `users`; `passwordHash` is the stored (hashed) password. */
  datatype User = User(
    id: nat,
    name: string,
    email: string,
    nim: string,
    passwordHash: string,
    role: string,
    isActive: bool,
    rememberToken: Option<string>)

  /** Only lecturers may enter the admin panel. */
  function CanAccessPanel(u: User): (b: bool)
    ensures b <==> u.role == ROLE_DOSEN
    ensures u.role == ROLE_MAHASISWA ==> !b
  {
    u.role == ROLE_DOSEN
  }

  predicate IsActive(u: User) {
    u.isActive
  }

  predicate IsPending(u: User) {
    !u.isActive
  }

  predicate IsMahasiswa(u: User) {
    u.role == ROLE_MAHASISWA
  }

  /** The `active` scope: exactly the activated users, in table order. */
  function ActiveUsers(us: seq<User>): (r: seq<User>)
    ensures forall i :: 0 <= i < |r| ==> r[i].isActive && r[i] in us
    ensures forall i :: 0 <= i < |us| ==> (us[i] in r <==> us[i].isActive)
  {
    Seqs.Filter(us, IsActive)
  }

  /** The `pending` scope: exactly the users awaiting activation. */
  function PendingUsers(us: seq<User>): (r: seq<User>)
    ensures forall i :: 0 <= i < |r| ==> !r[i].isActive && r[i] in us
    ensures forall i :: 0 <= i < |us| ==> (us[i] in r <==> !us[i].isActive)
  {
    Seqs.Filter(us, IsPending)
  }

  /** The `mahasiswa` scope: exactly the students. */
  function MahasiswaUsers(us: seq<User>): (r: seq<User>)
    ensures forall i :: 0 <= i < |r| ==> r[i].role == ROLE_MAHASISWA && r[i] in us
    ensures forall i :: 0 <= i < |us| ==> (us[i] in r <==> us[i].role == ROLE_MAHASISWA)
  {
    Seqs.Filter(us, IsMahasiswa)
  }

  /** Active and pending partition the users: each appears in exactly one. */
  lemma ActivePendingPartition(us: seq<User>)
    ensures multiset(ActiveUsers(us)) + multiset(PendingUsers(us)) == multiset(us)
    ensures |ActiveUsers(us)| + |PendingUsers(us)| == |us|
  {
    Seqs.FilterPartition(us, IsActive, IsPending);
  }

  /** A JSON value of a serialised attribute. */
  datatype Json = JNull | JBool(b: bool) | JInt(n: int) | JString(s: string)

  const HIDDEN: set<string> := {"password", "remember_token"}

  function OptionalString(v: Option<string>): Json {
    if v.None? then JNull else JString(v.value)
  }

  /** Every column of a user row. */
  function Attributes(u: User): (m: map<string, Json>)
    ensures "password" in m && "remember_token" in m
  {
    map[
      "id" := JInt(u.id),
      "name" := JString(u.name),
      "email" := JString(u.email),
      "nim" := JString(u.nim),
      "password" := JString(u.passwordHash),
      "role" := JString(u.role),
      "is_active" := JBool(u.isActive),
      "remember_token" := OptionalString(u.rememberToken)]
  }

  /** A user as serialised to JSON: every attribute except the hidden ones,
      with its stored value. */
  function Serialize(u: User): (m: map<string, Json>)
    ensures "password" !in m && "remember_token" !in m
    ensures m.Keys == Attributes(u).Keys - HIDDEN
    ensures forall k :: k in m ==> m[k] == Attributes(u)[k]
  {
    Attributes(u) - HIDDEN
  }
}

=== FILE: address_job.dfy ===
/** The queued job that back-fills a check-in's human-readable address. It
    carries the record id and the coordinates captured at dispatch; the reverse
    geocoder is an oracle that may return nothing. */
module AddressJob {
  import opened Wrappers
  import opened AttendanceStore
  import opened Text

  /** `ProcessAttendanceAddress` as constructed: id and coordinates. */
  datatype Job = Job(attendanceId: nat, latitude: int, longitude: int)

  /** `handle`: when the record still exists and the geocoder returns a truthy
      address, that record's address is replaced; nothing else changes. */
  function Handle(s: Store, job: Job, resolve: (int, int) -> Option<string>): (r: Store)
    ensures r.nextId == s.nextId && |r.rows| == |s.rows|
    ensures forall i :: 0 <= i < |s.rows| ==> r.rows[i] == s.rows[i].(address := r.rows[i].address)
    ensures forall i :: 0 <= i < |s.rows| && s.rows[i].id != job.attendanceId ==> r.rows[i] == s.rows[i]
    ensures forall i :: 0 <= i < |s.rows| && r.rows[i] != s.rows[i] ==> r.rows[i].address == resolve(job.latitude, job.longitude)
    ensures Find(s, job.attendanceId).None? ==> r == s
    ensures !PhpTruthy(resolve(job.latitude, job.longitude)) ==> r == s
    ensures Find(s, job.attendanceId).Some? && PhpTruthy(resolve(job.latitude, job.longitude)) ==>
      r.rows[Find(s, job.attendanceId).value].address == resolve(job.latitude, job.longitude)
    ensures Valid(s) ==> Valid(r)
  {
    match Find(s, job.attendanceId)
    case None => s
    case Some(i) =>
      var address := resolve(job.latitude, job.longitude);
      if PhpTruthy(address) then SetAddress(s, i, address) else s
  }

  /** The address looked up depends on the job's captured coordinates only:
      changing the coordinates stored in the row changes no resulting address. */
  lemma HandleUsesCapturedCoordinates(s: Store, job: Job, resolve: (int, int) -> Option<string>, i: nat, lat: int, lon: int)
    requires i < |s.rows|
    ensures var s' := s.(rows := s.rows[i := s.rows[i].(latitude := lat, longitude := lon)]);
      forall k :: 0 <= k < |s.rows| ==> Handle(s', job, resolve).rows[k].address == Handle(s, job, resolve).rows[k].address
  {
    var s' := s.(rows := s.rows[i := s.rows[i].(latitude := lat, longitude := lon)]);
    assert forall k :: 0 <= k < |s.rows| ==> s'.rows[k].id == s.rows[k].id && s'.rows[k].address == s.rows[k].address;
    FindSameIds(s, s', job.attendanceId);
  }

  /** Running the job twice has the effect of running it once. */
  lemma HandleIdempotent(s: Store, job: Job, resolve: (int, int) -> Option<string>)
    ensures Handle(Handle(s, job, resolve), job, resolve) == Handle(s, job, resolve)
  {
    var r := Handle(s, job, resolve);
    assert forall k :: 0 <= k < |s.rows| ==> r.rows[k].id == s.rows[k].id;
    FindSameIds(s, r, job.attendanceId);
  }
}

=== FILE: attendance_session.dfy ===
/** An attendance session and its check-in window. The window is not stored as
    a state: it is derived from one nullable timestamp, `attendance_open_at`,
    and the current time. Times are whole minutes. */
module AttendanceSessions {
  import opened Wrappers

  /** Length of the check-in window, in minutes. */
  const WINDOW_MINUTES: int := 15

  /** A row of `attendance_sessions`. `sessionDate` is a day number;
      `openedAt` is absent when the window was never opened or was closed. */
  datatype Session = Session(
    id: nat,
    weekName: string,
    sessionDate: int,
    materialId: Option<nat>,
    openedAt: Option<int>)

  /** Carbon's signed `now()->diffInMinutes(openedAt, false)`: the opening time
      minus the current time, so it is negative once the opening lies in the past. */
  function MinutesPassed(openedAt: int, now: int): int {
    openedAt - now
  }

  /** `isAttendanceOpen`: the window is open from the opening minute up to and
      including fifteen minutes later. */
  function IsOpen(s: Session, now: int): (open: bool)
    ensures open <==> s.openedAt.Some? && s.openedAt.value <= now <= s.openedAt.value + WINDOW_MINUTES
  {
    match s.openedAt
    case None => false
    case Some(t) =>
      var passed := MinutesPassed(t, now);
      passed >= -WINDOW_MINUTES && passed <= 0
  }

  /** `remaining_minutes`: absent when the window was never opened, otherwise the
      minutes left, floored at 0. */
  function RemainingMinutes(s: Session, now: int): (r: Option<int>)
    ensures r.None? <==> s.openedAt.None?
    ensures r.Some? ==> r.value >= 0
    ensures IsOpen(s, now) ==> r == Some(WINDOW_MINUTES - (now - s.openedAt.value))
    ensures s.openedAt.Some? && now > s.openedAt.value + WINDOW_MINUTES ==> r == Some(0)
  {
    match s.openedAt
    case None => None
    case Some(t) =>
      var remaining := WINDOW_MINUTES + MinutesPassed(t, now);
      Some(if remaining > 0 then remaining else 0)
  }

  /** A window that was opened and has run out still reports 0, never absence. */
  predicate IsExpired(s: Session, now: int) {
    s.openedAt.Some? && !IsOpen(s, now)
  }

  /** Never-opened sessions are closed at every time. */
  lemma NeverOpenedIsClosed(s: Session, now: int)
    requires s.openedAt.None?
    ensures !IsOpen(s, now) && RemainingMinutes(s, now).None?
  {
  }

  /** Both ends of the window are inclusive; one minute later it is shut. */
  lemma WindowBoundaries(s: Session)
    requires s.openedAt.Some?
    ensures IsOpen(s, s.openedAt.value)
    ensures IsOpen(s, s.openedAt.value + WINDOW_MINUTES)
    ensures !IsOpen(s, s.openedAt.value + WINDOW_MINUTES + 1)
    ensures !IsOpen(s, s.openedAt.value - 1)
    ensures RemainingMinutes(s, s.openedAt.value + WINDOW_MINUTES) == Some(0)
  {
  }

  /** An opening time in the future closes the window, yet reports more than the
      full window as remaining. */
  lemma FutureOpeningTime(s: Session, now: int)
    requires s.openedAt.Some? && s.openedAt.value > now
    ensures !IsOpen(s, now)
    ensures RemainingMinutes(s, now).Some? && RemainingMinutes(s, now).value > WINDOW_MINUTES
  {
  }

  /** As time advances with the opening fixed, the remaining minutes never grow. */
  lemma RemainingNonIncreasing(s: Session, t1: int, t2: int)
    requires s.openedAt.Some? && t1 <= t2
    ensures RemainingMinutes(s, t2).value <= RemainingMinutes(s, t1).value
  {
  }

  /** While the window is open the remaining minutes lie between 0 and 15. */
  lemma RemainingWhileOpen(s: Session, now: int)
    requires IsOpen(s, now)
    ensures 0 <= RemainingMinutes(s, now).value <= WINDOW_MINUTES
  {
  }
}

=== FILE: attendance_store.dfy ===
/** The `attendances` table: check-in records with a unique (user, session)
    pair, fixed-point coordinate columns, column defaults, and rows that
    disappear with the user or session they reference. */
module AttendanceStore {
  import opened Wrappers
  import Seqs
  import Text

  /** Coordinates are integers scaled by 10^8: eight fractional digits. */
  const COORD_SCALE: int := 100000000
  /** `decimal(10, 8)`: ten digits in all, so at most two before the point. */
  const LATITUDE_DIGITS: nat := 10
  /** `decimal(11, 8)`: eleven digits in all, so at most three before the point. */
  const LONGITUDE_DIGITS: nat := 11

  datatype Attendance = Attendance(
    id: nat,
    userId: nat,
    sessionId: nat,
    selfiePath: string,
    latitude: int,
    longitude: int,
    address: Option<string>,
    faceDetected: bool,
    submittedAt: int)

  /** The values an insert supplies; absent ones take the column default. */
  datatype NewAttendance = NewAttendance(
    userId: nat,
    sessionId: nat,
    selfiePath: string,
    latitude: int,
    longitude: int,
    address: Option<string>,
    faceDetected: Option<bool>,
    submittedAt: int)

  /** The rows in id order and the next auto-increment id. */
  datatype Store = Store(rows: seq<Attendance>, nextId: nat)

  datatype Column = LatitudeColumn | LongitudeColumn
  datatype InsertError = UniqueViolation | OutOfRangeValue(column: Column)

  datatype Inserted = Inserted(store: Store, row: Attendance)

  const EMPTY: Store := Store([], 1)

  /** A scaled value fits a decimal column with `digits` digits in all. */
  predicate FitsDecimal(v: int, digits: nat) {
    -(Text.Pow10(digits) as int) < v < Text.Pow10(digits)
  }

  /** Two rows differ in id and in their (user, session) pair. */
  predicate DistinctKeys(a: Attendance, b: Attendance) {
    a.id != b.id && (a.userId != b.userId || a.sessionId != b.sessionId)
  }

  predicate RowFits(a: Attendance) {
    FitsDecimal(a.latitude, LATITUDE_DIGITS) && FitsDecimal(a.longitude, LONGITUDE_DIGITS)
  }

  /** The table's constraints: primary key, the unique (user, session) index,
      ids below the auto-increment counter, coordinates within their columns. */
  ghost predicate Valid(s: Store) {
    && Seqs.Pairwise(s.rows, DistinctKeys)
    && (forall i :: 0 <= i < |s.rows| ==> s.rows[i].id < s.nextId)
    && (forall i :: 0 <= i < |s.rows| ==> RowFits(s.rows[i]))
  }

  predicate HasPair(s: Store, userId: nat, sessionId: nat) {
    exists i :: 0 <= i < |s.rows| && s.rows[i].userId == userId && s.rows[i].sessionId == sessionId
  }

  /** Position of the row with primary key `id` (Eloquent's `find`). */
  function Find(s: Store, id: nat): (r: Option<nat>)
    ensures r.Some? ==> r.value < |s.rows| && s.rows[r.value].id == id
    ensures r.None? <==> forall i :: 0 <= i < |s.rows| ==> s.rows[i].id != id
  {
    Seqs.FirstIndex(s.rows, (a: Attendance) => a.id == id)
  }

  /** `Attendance::create`: the coordinate columns reject values they cannot
      hold, the unique index rejects a second row for a pair, and otherwise the
      row is appended with the next id and the column defaults applied. */
  function Insert(s: Store, n: NewAttendance): (r: Result<Inserted, InsertError>)
    ensures r.Failure? && r.error == UniqueViolation <==>
      FitsDecimal(n.latitude, LATITUDE_DIGITS) && FitsDecimal(n.longitude, LONGITUDE_DIGITS) && HasPair(s, n.userId, n.sessionId)
    ensures r.Success? <==>
      FitsDecimal(n.latitude, LATITUDE_DIGITS) && FitsDecimal(n.longitude, LONGITUDE_DIGITS) && !HasPair(s, n.userId, n.sessionId)
    ensures r.Success? ==> r.value.store.rows == s.rows + [r.value.row] && r.value.store.nextId == s.nextId + 1
    ensures r.Success? ==> r.value.row.id == s.nextId
    ensures r.Success? ==> r.value.row.userId == n.userId && r.value.row.sessionId == n.sessionId
    ensures r.Success? ==> r.value.row.latitude == n.latitude && r.value.row.longitude == n.longitude
    ensures r.Success? ==> r.value.row.selfiePath == n.selfiePath && r.value.row.submittedAt == n.submittedAt
    ensures r.Success? ==> r.value.row.address == n.address
    ensures r.Success? ==> r.value.row.faceDetected == (n.faceDetected.None? || n.faceDetected.value)
    ensures r.Success? && Valid(s) ==> Valid(r.value.store)
  {
    if !FitsDecimal(n.latitude, LATITUDE_DIGITS) then Failure(OutOfRangeValue(LatitudeColumn))
    else if !FitsDecimal(n.longitude, LONGITUDE_DIGITS) then Failure(OutOfRangeValue(LongitudeColumn))
    else if HasPair(s, n.userId, n.sessionId) then Failure(UniqueViolation)
    else
      var row := Attendance(s.nextId, n.userId, n.sessionId, n.selfiePath, n.latitude, n.longitude,
                            n.address, n.faceDetected.GetOr(true), n.submittedAt);
      var s' := Store(s.rows + [row], s.nextId + 1);
      assert Valid(s) ==> Valid(s') by {
        if Valid(s) {
          forall i, j | 0 <= i < j < |s'.rows| ensures DistinctKeys(s'.rows[i], s'.rows[j]) {
            if j == |s.rows| {
              assert s'.rows[i] == s.rows[i];
            } else {
              assert s'.rows[i] == s.rows[i] && s'.rows[j] == s.rows[j];
            }
          }
        }
      }
      Success(Inserted(s', row))
  }

  /** Replaces the address of the row at position `i`; nothing else changes. */
  function SetAddress(s: Store, i: nat, address: Option<string>): (r: Store)
    requires i < |s.rows|
    ensures r.nextId == s.nextId && |r.rows| == |s.rows|
    ensures r.rows[i] == s.rows[i].(address := address)
    ensures forall k :: 0 <= k < |s.rows| && k != i ==> r.rows[k] == s.rows[k]
    ensures Valid(s) ==> Valid(r)
  {
    var r := s.(rows := s.rows[i := s.rows[i].(address := address)]);
    assert Valid(s) ==> Valid(r) by {
      if Valid(s) {
        forall a, b | 0 <= a < b < |r.rows| ensures DistinctKeys(r.rows[a], r.rows[b]) {
          assert DistinctKeys(s.rows[a], s.rows[b]);
        }
      }
    }
    r
  }

  /** Stores with the same ids in the same positions locate every id alike. */
  lemma FindSameIds(s: Store, t: Store, id: nat)
    requires |s.rows| == |t.rows|
    requires forall k :: 0 <= k < |s.rows| ==> s.rows[k].id == t.rows[k].id
    ensures Find(s, id) == Find(t, id)
  {
    Seqs.FirstIndexPointwise(s.rows, (a: Attendance) => a.id == id, t.rows, (a: Attendance) => a.id == id);
  }

  /** Every row references a known user and a known session. */
  ghost predicate References(s: Store, users: set<nat>, sessions: set<nat>) {
    forall i :: 0 <= i < |s.rows| ==> s.rows[i].userId in users && s.rows[i].sessionId in sessions
  }

  /** Cascade on deleting a user: that user's rows go, every other row stays. */
  function DeleteUser(s: Store, userId: nat): (r: Store)
    ensures forall i :: 0 <= i < |r.rows| ==> r.rows[i].userId != userId
    ensures forall i :: 0 <= i < |s.rows| ==> (s.rows[i] in r.rows <==> s.rows[i].userId != userId)
    ensures forall i :: 0 <= i < |r.rows| ==> r.rows[i] in s.rows
    ensures r.nextId == s.nextId
    ensures Valid(s) ==> Valid(r)
  {
    var p := (a: Attendance) => a.userId != userId;
    var r := Store(Seqs.Filter(s.rows, p), s.nextId);
    assert Valid(s) ==> Valid(r) by {
      if Valid(s) {
        Seqs.FilterPairwise(s.rows, p, DistinctKeys);
        forall i | 0 <= i < |r.rows| ensures r.rows[i].id < r.nextId && RowFits(r.rows[i]) {
          var k :| 0 <= k < |s.rows| && s.rows[k] == r.rows[i];
        }
      }
    }
    r
  }

  /** Cascade on deleting a session: its rows go, every other row stays. */
  function DeleteSession(s: Store, sessionId: nat): (r: Store)
    ensures forall i :: 0 <= i < |r.rows| ==> r.rows[i].sessionId != sessionId
    ensures forall i :: 0 <= i < |s.rows| ==> (s.rows[i] in r.rows <==> s.rows[i].sessionId != sessionId)
    ensures forall i :: 0 <= i < |r.rows| ==> r.rows[i] in s.rows
    ensures r.nextId == s.nextId
    ensures Valid(s) ==> Valid(r)
  {
    var p := (a: Attendance) => a.sessionId != sessionId;
    var r := Store(Seqs.Filter(s.rows, p), s.nextId);
    assert Valid(s) ==> Valid(r) by {
      if Valid(s) {
        Seqs.FilterPairwise(s.rows, p, DistinctKeys);
        forall i | 0 <= i < |r.rows| ensures r.rows[i].id < r.nextId && RowFits(r.rows[i]) {
          var k :| 0 <= k < |s.rows| && s.rows[k] == r.rows[i];
        }
      }
    }
    r
  }

  /** Deleting a user or a session leaves no row pointing at it. */
  lemma CascadeKeepsReferences(s: Store, users: set<nat>, sessions: set<nat>, u: nat, x: nat)
    requires References(s, users, sessions)
    ensures References(DeleteUser(s, u), users - {u}, sessions)
    ensures References(DeleteSession(s, x), users, sessions - {x})
  {
    var a := DeleteUser(s, u);
    forall i | 0 <= i < |a.rows| ensures a.rows[i].userId in users - {u} && a.rows[i].sessionId in sessions {
      assert a.rows[i] in s.rows;
    }
    var b := DeleteSession(s, x);
    forall i | 0 <= i < |b.rows| ensures b.rows[i].userId in users && b.rows[i].sessionId in sessions - {x} {
      assert b.rows[i] in s.rows;
    }
  }

  /** A second insert for the same pair is refused by the unique index. */
  lemma InsertTwiceViolates(s: Store, n: NewAttendance, m: NewAttendance)
    requires Insert(s, n).Success?
    requires m.userId == n.userId && m.sessionId == n.sessionId
    requires FitsDecimal(m.latitude, LATITUDE_DIGITS) && FitsDecimal(m.longitude, LONGITUDE_DIGITS)
    ensures Insert(Insert(s, n).value.store, m) == Failure(UniqueViolation)
  {
    var t := Insert(s, n).value.store;
    assert t.rows[|s.rows|].userId == m.userId && t.rows[|s.rows|].sessionId == m.sessionId;
  }

  /** In a valid store there is at most one row per (user, session) pair. */
  lemma AtMostOnePerPair(s: Store, i: nat, j: nat)
    requires Valid(s)
    requires i < |s.rows| && j < |s.rows| && i != j
    ensures s.rows[i].userId != s.rows[j].userId || s.rows[i].sessionId != s.rows[j].sessionId
  {
    if i < j {
      assert DistinctKeys(s.rows[i], s.rows[j]);
    } else {
      assert DistinctKeys(s.rows[j], s.rows[i]);
    }
  }

  /** A latitude of at most two integer digits and a longitude of at most three,
      each with eight fractional digits, fit their columns; 100 and 1000 do not. */
  lemma CoordinateColumnBounds()
    ensures FitsDecimal(99 * COORD_SCALE + 99999999, LATITUDE_DIGITS)
    ensures !FitsDecimal(100 * COORD_SCALE, LATITUDE_DIGITS)
    ensures FitsDecimal(999 * COORD_SCALE + 99999999, LONGITUDE_DIGITS)
    ensures !FitsDecimal(1000 * COORD_SCALE, LONGITUDE_DIGITS)
  {
    assert Text.Pow10(8) == COORD_SCALE;
    assert Text.Pow10(10) == 100 * COORD_SCALE;
    assert Text.Pow10(11) == 1000 * COORD_SCALE;
  }
}

=== FILE: auth.dfy ===
/** The account API as a state machine over users and access tokens:
    registration of inactive students, login with the one-device rule,
    logout of the current token, and the current-user view. */
module Auth {
  import opened Wrappers
  import Seqs
  import opened Text
  import opened Accounts

  const NAME_MAX := 255
  const EMAIL_MAX := 255
  const PASSWORD_MIN := 6
  const INT64_MAX: nat := 0x7FFF_FFFF_FFFF_FFFF

  /** A row of `personal_access_tokens`; the secret itself is left out. */
  datatype Token = Token(id: nat, userId: nat)

  datatype AuthState = AuthState(users: seq<User>, nextUserId: nat, tokens: seq<Token>, nextTokenId: nat)

  /** Ids are distinct and below the next id to be issued. */
  ghost predicate Valid(st: AuthState) {
    && (forall i, j :: 0 <= i < j < |st.users| ==> st.users[i].id != st.users[j].id)
    && (forall i :: 0 <= i < |st.users| ==> st.users[i].id < st.nextUserId)
    && TokensValid(st.tokens, st.nextTokenId)
  }

  ghost predicate TokensValid(tokens: seq<Token>, nextTokenId: nat) {
    && (forall i, j :: 0 <= i < j < |tokens| ==> tokens[i].id != tokens[j].id)
    && (forall i :: 0 <= i < |tokens| ==> tokens[i].id < nextTokenId)
  }

  /** No two users share an email or a student number. */
  ghost predicate UniqueLogins(users: seq<User>) {
    forall i, j :: 0 <= i < j < |users| ==> users[i].email != users[j].email && users[i].nim != users[j].nim
  }

  /** Laravel's `required`: present and not blank after trimming. */
  predicate Required(v: Option<string>) {
    v.Some? && !Blank(v.value)
  }

  /** The digits after an optional sign. */
  function Unsigned(s: string): (r: string)
    ensures |r| <= |s|
  {
    if |s| > 0 && (s[0] == '+' || s[0] == '-') then s[1..] else s
  }

  /** PHP's FILTER_VALIDATE_INT on an already trimmed string: an optional
      sign, decimal digits without a leading zero, within the 64-bit range. */
  function IsIntLiteral(s: string): (b: bool)
    ensures b ==> |s| > 0 && (IsDigit(s[0]) || s[0] == '+' || s[0] == '-')
    ensures b ==> forall i :: 1 <= i < |s| ==> IsDigit(s[i])
    ensures b && |s| > 1 && IsDigit(s[0]) ==> s[0] != '0'
    ensures b && |s| > 2 && !IsDigit(s[0]) ==> s[1] != '0'
  {
    var u := Unsigned(s);
    && |u| > 0
    && (forall i :: 0 <= i < |u| ==> IsDigit(u[i]))
    && (u[0] != '0' || |u| == 1)
    && DecimalValue(u) <= (if s[0] == '-' then INT64_MAX + 1 else INT64_MAX)
  }

  /** A number's decimal spelling is an integer exactly when it fits 64 bits. */
  lemma IntLiteralOfNat(n: nat)
    ensures IsIntLiteral(NatToString(n)) <==> n <= INT64_MAX
  {
    var s := NatToString(n);
    assert Unsigned(s) == s;
    DecimalValueOfNatToString(n);
    NatToStringNoLeadingZero(n);
    if n >= 10 {
      assert |s| > 1 by {
        assert s == NatToString(n / 10) + [DigitChar(n % 10)];
      }
    }
  }

  /** A negative number's spelling is an integer down to -2^63. */
  lemma IntLiteralOfNegative(n: nat)
    ensures IsIntLiteral("-" + NatToString(n)) <==> n <= INT64_MAX + 1
  {
    var s := "-" + NatToString(n);
    assert Unsigned(s) == NatToString(n);
    IntLiteralOfNat(n);
    DecimalValueOfNatToString(n);
  }

  /** Zero-padded numbers are not integers, with or without a sign. */
  lemma LeadingZeroNotInt(sign: string, rest: string)
    requires sign == "" || sign == "+" || sign == "-"
    requires |rest| > 0
    ensures !IsIntLiteral(sign + "0" + rest)
  {
    assert Unsigned(sign + "0" + rest) == "0" + rest;
  }

  datatype RegisterRequest = RegisterRequest(
    name: Option<string>,
    email: Option<string>,
    nim: Option<string>,
    password: Option<string>,
    passwordConfirmation: Option<string>)

  datatype RegisterField = NameField | EmailField | NimField | PasswordField

  predicate EmailTaken(users: seq<User>, email: string) {
    exists i :: 0 <= i < |users| && users[i].email == email
  }

  predicate NimTaken(users: seq<User>, nim: string) {
    exists i :: 0 <= i < |users| && users[i].nim == nim
  }

  predicate NameOk(v: Option<string>) {
    Required(v) && |v.value| <= NAME_MAX
  }

  predicate EmailOk(users: seq<User>, v: Option<string>, isEmail: string -> bool) {
    Required(v) && isEmail(v.value) && |v.value| <= EMAIL_MAX && !EmailTaken(users, v.value)
  }

  predicate NimOk(users: seq<User>, v: Option<string>) {
    Required(v) && IsIntLiteral(v.value) && !NimTaken(users, v.value)
  }

  /** `confirmed` demands a `password_confirmation` identical to the password. */
  predicate PasswordOk(v: Option<string>, confirmation: Option<string>) {
    Required(v) && |v.value| >= PASSWORD_MIN && confirmation == v
  }

  /** Which fields, in rule order, a set of per-field verdicts rejects. */
  function Failing(nameOk: bool, emailOk: bool, nimOk: bool, passwordOk: bool): (errs: seq<RegisterField>)
    ensures NameField in errs <==> !nameOk
    ensures EmailField in errs <==> !emailOk
    ensures NimField in errs <==> !nimOk
    ensures PasswordField in errs <==> !passwordOk
    ensures |errs| == 0 <==> nameOk && emailOk && nimOk && passwordOk
  {
    (if nameOk then [] else [NameField])
    + (if emailOk then [] else [EmailField])
    + (if nimOk then [] else [NimField])
    + (if passwordOk then [] else [PasswordField])
  }

  /** The fields failing the registration rules, in rule order. */
  function RegisterErrors(users: seq<User>, req: RegisterRequest, isEmail: string -> bool): (errs: seq<RegisterField>)
    ensures NameField in errs <==> !NameOk(req.name)
    ensures EmailField in errs <==> !EmailOk(users, req.email, isEmail)
    ensures NimField in errs <==> !NimOk(users, req.nim)
    ensures PasswordField in errs <==> !PasswordOk(req.password, req.passwordConfirmation)
    ensures |errs| == 0 <==>
      NameOk(req.name) && EmailOk(users, req.email, isEmail) && NimOk(users, req.nim)
      && PasswordOk(req.password, req.passwordConfirmation)
  {
    Failing(NameOk(req.name), EmailOk(users, req.email, isEmail), NimOk(users, req.nim),
            PasswordOk(req.password, req.passwordConfirmation))
  }

  /** The row registration creates: a student awaiting activation. */
  function NewStudent(id: nat, name: string, email: string, nim: string, passwordHash: string): (u: User)
    ensures u.role == ROLE_MAHASISWA && !u.isActive && !CanAccessPanel(u)
    ensures u.id == id && u.name == name && u.email == email && u.nim == nim && u.passwordHash == passwordHash
  {
    User(id, name, email, nim, passwordHash, ROLE_MAHASISWA, false, None)
  }

  function AddUser(st: AuthState, u: User): (st': AuthState)
    ensures st'.users == st.users + [u] && st'.tokens == st.tokens
  {
    st.(users := st.users + [u], nextUserId := st.nextUserId + 1)
  }

  /** Adding a user under the next id keeps ids distinct and below the next id. */
  lemma AddUserKeepsValid(st: AuthState, u: User)
    requires Valid(st)
    requires u.id == st.nextUserId
    ensures Valid(AddUser(st, u))
  {
    var st' := AddUser(st, u);
    assert st'.users[|st.users|] == u;
  }

  /** Adding a user whose email and student number are free keeps them unique. */
  lemma AddUserKeepsLoginsUnique(users: seq<User>, u: User)
    requires UniqueLogins(users)
    requires !EmailTaken(users, u.email) && !NimTaken(users, u.nim)
    ensures UniqueLogins(users + [u])
  {
    var us := users + [u];
    forall i, j | 0 <= i < j < |us|
      ensures us[i].email != us[j].email && us[i].nim != us[j].nim
    {
      if j == |users| {
        assert us[i] == users[i];
      }
    }
  }

  /** Registration: on valid input a new inactive student is appended with
      the hashed password; otherwise nothing changes and the failing fields
      are reported. */
  function Register(st: AuthState, req: RegisterRequest, isEmail: string -> bool, hash: string -> string)
    : (r: Result<(AuthState, User), seq<RegisterField>>)
    ensures r.Success? <==> |RegisterErrors(st.users, req, isEmail)| == 0
    ensures r.Failure? ==> r.error == RegisterErrors(st.users, req, isEmail)
    ensures r.Success? ==>
      && r.value.0 == AddUser(st, r.value.1)
      && r.value.1 == NewStudent(st.nextUserId, req.name.value, req.email.value, req.nim.value, hash(req.password.value))
      && !EmailTaken(st.users, req.email.value) && !NimTaken(st.users, req.nim.value)
  {
    var errs := RegisterErrors(st.users, req, isEmail);
    if |errs| > 0 then Failure(errs)
    else
      var u := NewStudent(st.nextUserId, req.name.value, req.email.value, req.nim.value, hash(req.password.value));
      Success((AddUser(st, u), u))
  }

  /** A successful registration keeps the state valid and logins unique. */
  lemma RegisterKeepsInvariants(st: AuthState, req: RegisterRequest, isEmail: string -> bool, hash: string -> string)
    requires Valid(st) && UniqueLogins(st.users)
    requires Register(st, req, isEmail, hash).Success?
    ensures Valid(Register(st, req, isEmail, hash).value.0)
    ensures UniqueLogins(Register(st, req, isEmail, hash).value.0.users)
  {
    var (st', u) := Register(st, req, isEmail, hash).value;
    AddUserKeepsValid(st, u);
    AddUserKeepsLoginsUnique(st.users, u);
  }

  /** An email or student number already in use blocks registration. */
  lemma RegisterRejectsTaken(st: AuthState, req: RegisterRequest, isEmail: string -> bool, hash: string -> string)
    requires (req.email.Some? && EmailTaken(st.users, req.email.value)) || (req.nim.Some? && NimTaken(st.users, req.nim.value))
    ensures Register(st, req, isEmail, hash).Failure?
  {
  }

  /** A short or unconfirmed password blocks registration. */
  lemma RegisterRejectsBadPassword(st: AuthState, req: RegisterRequest, isEmail: string -> bool, hash: string -> string)
    requires req.password.Some?
    requires |req.password.value| < PASSWORD_MIN || req.passwordConfirmation != req.password
    ensures Register(st, req, isEmail, hash).Failure?
  {
    assert !PasswordOk(req.password, req.passwordConfirmation);
  }

  datatype LoginRequest = LoginRequest(nim: Option<string>, password: Option<string>)

  datatype LoginField = LoginNim | LoginPassword

  /** What `me` and a successful login return about a user. */
  datatype UserView = UserView(id: nat, name: string, nim: string, role: string, isActive: bool)

  datatype LoginOutcome =
    | InvalidRequest(fields: seq<LoginField>)
    | BadCredentials
    | NotActivated
    | LoggedIn(user: UserView, token: Token)

  function Me(u: User): (v: UserView)
    ensures v.id == u.id && v.name == u.name && v.nim == u.nim && v.role == u.role && v.isActive == u.isActive
  {
    UserView(u.id, u.name, u.nim, u.role, u.isActive)
  }

  /** Everything `me` reports is also in the user's serialised form, so it
      exposes no hidden attribute. */
  lemma MeWithinSerialized(u: User)
    ensures var m := Serialize(u);
      var v := Me(u);
      && m["id"] == JInt(v.id) && m["name"] == JString(v.name) && m["nim"] == JString(v.nim)
      && m["role"] == JString(v.role) && m["is_active"] == JBool(v.isActive)
  {
    var m := Serialize(u);
    assert "id" in m && "name" in m && "nim" in m && "role" in m && "is_active" in m;
  }

  /** The first user with the given student number (`where('nim', ..)->first()`). */
  function FindByNim(users: seq<User>, nim: string): (r: Option<User>)
    ensures r.Some? ==> r.value in users && r.value.nim == nim
    ensures r.None? <==> !NimTaken(users, nim)
  {
    Seqs.First(users, (u: User) => u.nim == nim)
  }

  /** The lookup returns the user whose number matches with no earlier match. */
  lemma FindByNimFirst(users: seq<User>, nim: string)
    ensures forall i :: 0 <= i < |users| && users[i].nim == nim && (forall j :: 0 <= j < i ==> users[j].nim != nim) ==>
      FindByNim(users, nim) == Some(users[i])
  {
    forall i | 0 <= i < |users| && users[i].nim == nim && (forall j :: 0 <= j < i ==> users[j].nim != nim)
      ensures FindByNim(users, nim) == Some(users[i])
    {
      Seqs.FirstAt(users, (u: User) => u.nim == nim, i);
    }
  }

  predicate OwnedBy(userId: nat, t: Token) {
    t.userId == userId
  }

  function TokensOf(tokens: seq<Token>, userId: nat): (r: seq<Token>)
    ensures forall i :: 0 <= i < |r| ==> r[i].userId == userId && r[i] in tokens
    ensures forall i :: 0 <= i < |tokens| ==> (tokens[i] in r <==> tokens[i].userId == userId)
  {
    Seqs.Filter(tokens, (t: Token) => OwnedBy(userId, t))
  }

  function TokensNotOf(tokens: seq<Token>, userId: nat): (r: seq<Token>)
    ensures forall i :: 0 <= i < |r| ==> r[i].userId != userId && r[i] in tokens
    ensures forall i :: 0 <= i < |tokens| ==> (tokens[i] in r <==> tokens[i].userId != userId)
  {
    Seqs.Filter(tokens, (t: Token) => !OwnedBy(userId, t))
  }

  /** The one-device rule: revoke all of a user's tokens and issue one. */
  function IssueToken(st: AuthState, userId: nat): (r: (AuthState, Token))
    ensures r.1 == Token(st.nextTokenId, userId)
    ensures r.0.users == st.users && r.0.nextUserId == st.nextUserId
    ensures TokensOf(r.0.tokens, userId) == [r.1]
    ensures TokensNotOf(r.0.tokens, userId) == TokensNotOf(st.tokens, userId)
  {
    var token := Token(st.nextTokenId, userId);
    var rest := TokensNotOf(st.tokens, userId);
    Seqs.FilterAppend(rest, [token], (t: Token) => OwnedBy(userId, t));
    Seqs.FilterAppend(rest, [token], (t: Token) => !OwnedBy(userId, t));
    Seqs.FilterNone(rest, (t: Token) => OwnedBy(userId, t));
    Seqs.FilterAll(rest, (t: Token) => !OwnedBy(userId, t));
    (st.(tokens := rest + [token], nextTokenId := st.nextTokenId + 1), token)
  }

  /** Revoking a user's tokens and adding one under the next id keeps token
      ids distinct and below the next id. */
  lemma RevokeAndIssueKeepsValid(tokens: seq<Token>, next: nat, userId: nat)
    requires TokensValid(tokens, next)
    ensures TokensValid(TokensNotOf(tokens, userId) + [Token(next, userId)], next + 1)
  {
    var rest := TokensNotOf(tokens, userId);
    var ts := rest + [Token(next, userId)];
    Seqs.FilterPairwise(tokens, (t: Token) => !OwnedBy(userId, t), (a: Token, b: Token) => a.id != b.id);
    forall i | 0 <= i < |rest| ensures rest[i].id < next {
      var k :| 0 <= k < |tokens| && tokens[k] == rest[i];
    }
    forall i, j | 0 <= i < j < |ts| ensures ts[i].id != ts[j].id {
      if j == |rest| {
        assert ts[i] == rest[i];
      } else {
        assert ts[i] == rest[i] && ts[j] == rest[j];
      }
    }
  }

  lemma IssueTokenKeepsValid(st: AuthState, userId: nat)
    requires Valid(st)
    ensures Valid(IssueToken(st, userId).0)
  {
    IssueTokenState(st, userId);
    RevokeAndIssueKeepsValid(st.tokens, st.nextTokenId, userId);
    ValidWithTokens(st, IssueToken(st, userId).0);
  }

  lemma IssueTokenState(st: AuthState, userId: nat)
    ensures IssueToken(st, userId).0.tokens == TokensNotOf(st.tokens, userId) + [Token(st.nextTokenId, userId)]
    ensures IssueToken(st, userId).0.nextTokenId == st.nextTokenId + 1
  {
  }

  /** Validity of the users does not depend on the tokens. */
  lemma ValidWithTokens(st: AuthState, st': AuthState)
    requires Valid(st) && st'.users == st.users && st'.nextUserId == st.nextUserId
    requires TokensValid(st'.tokens, st'.nextTokenId)
    ensures Valid(st')
  {
  }

  function LoginFieldErrors(req: LoginRequest): (errs: seq<LoginField>)
    ensures LoginNim in errs <==> !Required(req.nim)
    ensures LoginPassword in errs <==> !Required(req.password)
    ensures |errs| == 0 <==> Required(req.nim) && Required(req.password)
  {
    (if Required(req.nim) then [] else [LoginNim]) + (if Required(req.password) then [] else [LoginPassword])
  }

  /** Whether the credentials name a user whose stored hash matches. */
  function CredentialsMatch(users: seq<User>, nim: string, password: string, check: (string, string) -> bool): (b: bool)
    ensures !NimTaken(users, nim) ==> !b
    ensures b ==> exists i :: 0 <= i < |users| && users[i].nim == nim && check(password, users[i].passwordHash)
    ensures (exists i :: && 0 <= i < |users| && users[i].nim == nim
                         && (forall j :: 0 <= j < i ==> users[j].nim != nim)
                         && check(password, users[i].passwordHash)) ==> b
  {
    FindByNimFirst(users, nim);
    var u := FindByNim(users, nim);
    u.Some? && check(password, u.value.passwordHash)
  }

  /** Login: credentials first, then activation; a successful login revokes
      every earlier token of the user and issues exactly one. */
  function Login(st: AuthState, req: LoginRequest, check: (string, string) -> bool): (r: (AuthState, LoginOutcome))
    ensures r.1.InvalidRequest? <==> |LoginFieldErrors(req)| > 0
    ensures !r.1.LoggedIn? ==> r.0 == st
    ensures r.1.BadCredentials? <==>
      |LoginFieldErrors(req)| == 0 && !CredentialsMatch(st.users, req.nim.value, req.password.value, check)
    ensures r.1.NotActivated? || r.1.LoggedIn? ==>
      && CredentialsMatch(st.users, req.nim.value, req.password.value, check)
      && (r.1.LoggedIn? <==> FindByNim(st.users, req.nim.value).value.isActive)
    ensures r.1.LoggedIn? ==>
      var u := FindByNim(st.users, req.nim.value).value;
      && r.1.user == Me(u)
      && r.0.users == st.users
      && TokensOf(r.0.tokens, u.id) == [r.1.token]
      && TokensNotOf(r.0.tokens, u.id) == TokensNotOf(st.tokens, u.id)
  {
    if |LoginFieldErrors(req)| > 0 then (st, InvalidRequest(LoginFieldErrors(req)))
    else if !CredentialsMatch(st.users, req.nim.value, req.password.value, check) then (st, BadCredentials)
    else
      var u := FindByNim(st.users, req.nim.value).value;
      if !u.isActive then (st, NotActivated)
      else
        var (st', token) := IssueToken(st, u.id);
        (st', LoggedIn(Me(u), token))
  }

  /** Login keeps ids distinct and below the next id. */
  lemma LoginKeepsValid(st: AuthState, req: LoginRequest, check: (string, string) -> bool)
    requires Valid(st)
    ensures Valid(Login(st, req, check).0)
  {
    if Login(st, req, check).1.LoggedIn? {
      IssueTokenKeepsValid(st, FindByNim(st.users, req.nim.value).value.id);
    }
  }

  predicate HasOtherId(id: nat, t: Token) {
    t.id != id
  }

  /** Logout: the current token is deleted and every other token is kept. */
  function Logout(st: AuthState, current: Token): (st': AuthState)
    requires current in st.tokens
    ensures current !in st'.tokens
    ensures forall i :: 0 <= i < |st.tokens| ==> (st.tokens[i] in st'.tokens <==> st.tokens[i].id != current.id)
    ensures st'.users == st.users
  {
    st.(tokens := Seqs.Filter(st.tokens, (t: Token) => HasOtherId(current.id, t)))
  }

  /** With distinct token ids, logout removes exactly one token and keeps
      the state valid. */
  lemma LogoutRemovesOne(st: AuthState, current: Token)
    requires Valid(st)
    requires current in st.tokens
    ensures Valid(Logout(st, current))
    ensures |Logout(st, current).tokens| == |st.tokens| - 1
  {
    var rest := Seqs.Filter(st.tokens, (t: Token) => HasOtherId(current.id, t));
    assert Logout(st, current) == st.(tokens := rest);
    RemoveKeepsTokensValid(st.tokens, st.nextTokenId, current.id);
    ValidWithTokens(st, Logout(st, current));
    var k :| 0 <= k < |st.tokens| && st.tokens[k] == current;
    OnlyOneWithId(st.tokens, k, current.id);
  }

  /** Deleting the tokens with one id keeps token ids distinct and below the next id. */
  lemma RemoveKeepsTokensValid(tokens: seq<Token>, next: nat, id: nat)
    requires TokensValid(tokens, next)
    ensures TokensValid(Seqs.Filter(tokens, (t: Token) => HasOtherId(id, t)), next)
  {
    var rest := Seqs.Filter(tokens, (t: Token) => HasOtherId(id, t));
    Seqs.FilterPairwise(tokens, (t: Token) => HasOtherId(id, t), (a: Token, b: Token) => a.id != b.id);
    forall i | 0 <= i < |rest| ensures rest[i].id < next {
      var k :| 0 <= k < |tokens| && tokens[k] == rest[i];
    }
  }

  lemma {:induction false} OnlyOneWithId(tokens: seq<Token>, k: nat, id: nat)
    requires k < |tokens| && tokens[k].id == id
    requires forall i, j :: 0 <= i < j < |tokens| ==> tokens[i].id != tokens[j].id
    ensures |Seqs.Filter(tokens, (t: Token) => HasOtherId(id, t))| == |tokens| - 1
  {
    assert tokens == [tokens[0]] + tokens[1..];
    if k == 0 {
      Seqs.FilterAll(tokens[1..], (t: Token) => HasOtherId(id, t));
    } else {
      OnlyOneWithId(tokens[1..], k - 1, id);
    }
  }

  /** A registered student cannot log in before a lecturer activates them,
      even with the right password. */
  lemma FreshRegistrantNotActivated(st: AuthState, req: RegisterRequest, isEmail: string -> bool,
                                    hash: string -> string, check: (string, string) -> bool)
    requires Register(st, req, isEmail, hash).Success?
    requires check(req.password.value, hash(req.password.value))
    ensures var st' := Register(st, req, isEmail, hash).value.0;
      Login(st', LoginRequest(req.nim, req.password), check).1.NotActivated?
  {
    var (st', u) := Register(st, req, isEmail, hash).value;
    FindAppended(st.users, u);
    assert |LoginFieldErrors(LoginRequest(req.nim, req.password))| == 0;
  }

  /** Looking up the student number of a newly appended user whose number
      was free finds that user. */
  lemma FindAppended(users: seq<User>, u: User)
    requires !NimTaken(users, u.nim)
    ensures FindByNim(users + [u], u.nim) == Some(u)
  {
    var us := users + [u];
    var p := (x: User) => x.nim == u.nim;
    assert p(us[|users|]);
    forall j | 0 <= j < |users| ensures !p(us[j]) {
      assert us[j] == users[j];
    }
    var i := Seqs.FirstIndex(us, p);
    assert i == Some(|users|);
  }
}

=== FILE: checkin.dfy ===
/** The student check-in endpoint and the student's own attendance list.
    A check-in is an ordered, short-circuiting decision: duplicate, window,
    payload, geofence; an accepted one appends a record with a placeholder
    address and yields the address back-fill job. */
module CheckIn {
  import opened Wrappers
  import Seqs
  import Settings
  import Text
  import PhpNumeric
  import opened AttendanceSessions
  import opened AttendanceStore
  import opened AddressJob

  /** The address a record carries until the back-fill job replaces it. */
  const PENDING_ADDRESS: string := "Menunggu verifikasi lokasi..."
  /** Largest accepted selfie, in kilobytes of 1024 bytes. */
  const MAX_SELFIE_KB: nat := 5120
  /** Geofence radius, in metres, when no setting is stored. */
  const DEFAULT_MAX_DISTANCE: real := 100.0

  /** An uploaded file as validation sees it: whether it is an image and its size. */
  datatype Upload = Upload(isImage: bool, sizeBytes: nat)

  /** The request body. Coordinates are scaled by 10^8; an absent coordinate is
      one that was missing or not numeric. */
  datatype Payload = Payload(
    selfie: Option<Upload>,
    latitude: Option<int>,
    longitude: Option<int>,
    faceDetected: Option<string>)

  datatype Field = Selfie | Latitude | Longitude | FaceDetected

  /** Why a check-in was refused. `StorageFailure` is a database error the
      endpoint does not catch. */
  datatype Rejection =
    | AlreadySubmitted
    | NotOpened
    | Expired
    | InvalidPayload(fields: seq<Field>)
    | OutOfRange(distance: real, maxDistance: real)
    | StorageFailure(error: InsertError)

  datatype GeofenceConfig = GeofenceConfig(enabled: bool, campusLatitude: real, campusLongitude: real, maxDistance: real)

  /** An accepted check-in: the new store, the record, and the dispatched job. */
  datatype CheckedIn = CheckedIn(store: Store, record: Attendance, job: Job)

  /** Great-circle distance in metres between two (latitude, longitude) points
      given in degrees; supplied by the caller. */
  type Distance = (real, real, real, real) -> real

  function Degrees(v: int): real {
    v as real / COORD_SCALE as real
  }

  predicate SelfieOk(u: Option<Upload>) {
    u.Some? && u.value.isImage && u.value.sizeBytes <= MAX_SELFIE_KB * 1024
  }

  predicate LatitudeOk(v: Option<int>) {
    v.Some? && -90 * COORD_SCALE <= v.value <= 90 * COORD_SCALE
  }

  predicate LongitudeOk(v: Option<int>) {
    v.Some? && -180 * COORD_SCALE <= v.value <= 180 * COORD_SCALE
  }

  /** The options of the `in` rule on `face_detected`. */
  const FACE_LITERALS: seq<string> := ["true", "false", "1", "0"]

  /** A numeric string whose value is zero or one. */
  predicate NumericFlag(v: string) {
    var n := PhpNumeric.ParseNumber(v);
    n.Some? && (PhpNumeric.IsZero(n.value) || PhpNumeric.IsOne(n.value))
  }

  /** `required|in:true,false,1,0`: the two words exactly as written, or any
      numeric string equal to one or zero ("01", "1.0", " 0", "0e5"), because
      the `in` rule compares with PHP's loose `==` (`FaceOkIsLooseIn`). A blank
      value equals none of the options, so `required` adds nothing. */
  predicate FaceOk(v: Option<string>) {
    v.Some? && (v.value == "true" || v.value == "false" || NumericFlag(v.value))
  }

  /** `FaceOk` is exactly membership by PHP's loose `==` in the rule's options. */
  lemma FaceOkIsLooseIn(v: string)
    ensures FaceOk(Some(v)) <==> PhpNumeric.LooseIn(v, FACE_LITERALS)
  {
    FaceLiteralsParsed();
    LooseInFlags(v, FACE_LITERALS);
  }

  /** How PHP reads the four options: two words, then one and zero. */
  lemma FaceLiteralsParsed()
    ensures PhpNumeric.ParseNumber(FACE_LITERALS[0]).None?
    ensures PhpNumeric.ParseNumber(FACE_LITERALS[1]).None?
    ensures PhpNumeric.ParseNumber(FACE_LITERALS[2]) == Some(PhpNumeric.Number(false, 1, 0))
    ensures PhpNumeric.ParseNumber(FACE_LITERALS[3]) == Some(PhpNumeric.Number(false, 0, 0))
  {
    FaceWordParsed(0);
    FaceWordParsed(1);
    FaceDigitParsed(2);
    FaceDigitParsed(3);
  }

  lemma FaceWordParsed(i: nat)
    requires i < 2
    ensures PhpNumeric.ParseNumber(FACE_LITERALS[i]).None?
  {
    PhpNumeric.WordsNotNumeric(FACE_LITERALS[i]);
  }

  lemma FaceDigitParsed(i: nat)
    requires 2 <= i < 4
    ensures PhpNumeric.ParseNumber(FACE_LITERALS[i]) == Some(PhpNumeric.Number(false, 3 - i, 0))
  {
    PhpNumeric.PaddedDigit(FACE_LITERALS[i], 0);
  }

  /** Loose membership in two words followed by a numeric one and a numeric zero. */
  lemma LooseInFlags(v: string, options: seq<string>)
    requires |options| == 4
    requires PhpNumeric.ParseNumber(options[0]).None? && PhpNumeric.ParseNumber(options[1]).None?
    requires PhpNumeric.ParseNumber(options[2]) == Some(PhpNumeric.Number(false, 1, 0))
    requires PhpNumeric.ParseNumber(options[3]) == Some(PhpNumeric.Number(false, 0, 0))
    ensures PhpNumeric.LooseIn(v, options) <==> v == options[0] || v == options[1] || NumericFlag(v)
  {
    PhpNumeric.LooseInFour(v, options);
    PhpNumeric.LooseWord(v, options[0]);
    PhpNumeric.LooseWord(v, options[1]);
    PhpNumeric.LooseNumber(v, options[2], PhpNumeric.Number(false, 1, 0));
    PhpNumeric.LooseNumber(v, options[3], PhpNumeric.Number(false, 0, 0));
    if PhpNumeric.ParseNumber(v).Some? {
      PhpNumeric.SameAsZero(PhpNumeric.ParseNumber(v).value);
    }
  }

  /** `filter_var` reads a numeric string as true only when it is one, written
      plainly as "1" between whitespace. */
  lemma FilterTrueNumber(v: string)
    ensures PhpNumeric.ParseNumber(v).Some? && Settings.FilterBool(v) ==> PhpNumeric.IsOne(PhpNumeric.ParseNumber(v).value)
  {
    if Settings.FilterBool(v) {
      var w := Text.Trim(v, Text.IsFilterSpace);
      var pre, post := Text.TrimSplit(v, Text.IsFilterSpace);
      FilterSpaceNumeric(pre);
      FilterSpaceNumeric(post);
      var l := Text.Lower(w);
      assert |l| > 0 && l[0] == Text.LowerChar(w[0]);
      if l == "1" {
        assert w[0] == '1' && |w| == 1;
        SurroundedOne(pre, w, post);
      } else {
        assert 'a' <= l[0] <= 'z';
        Seqs.Regroup(v, pre, w + post, w, post);
        SurroundedWord(pre, w + post);
      }
    }
  }

  /** Whitespace to `filter_var` is whitespace to PHP's numeric strings. */
  lemma FilterSpaceNumeric(s: string)
    requires forall i :: 0 <= i < |s| ==> Text.IsFilterSpace(s[i])
    ensures forall i :: 0 <= i < |s| ==> PhpNumeric.IsNumericSpace(s[i])
  {
  }

  /** "1" between whitespace is the number one. */
  lemma SurroundedOne(pre: string, w: string, post: string)
    requires forall i :: 0 <= i < |pre| ==> PhpNumeric.IsNumericSpace(pre[i])
    requires forall i :: 0 <= i < |post| ==> PhpNumeric.IsNumericSpace(post[i])
    requires |w| == 1 && w[0] == '1'
    ensures PhpNumeric.ParseNumber(pre + w + post) == Some(PhpNumeric.Number(false, 1, 0))
  {
    var v := pre + w + post;
    forall i | 0 <= i < |v| && i != |pre| ensures PhpNumeric.IsNumericSpace(v[i]) {
      if i < |pre| {
        assert v[i] == pre[i];
      } else {
        assert v[i] == post[i - |pre| - 1];
      }
    }
    assert v[|pre|] == '1';
    PhpNumeric.PaddedDigit(v, |pre|);
  }

  /** Whitespace then a letter is not numeric. */
  lemma SurroundedWord(pre: string, rest: string)
    requires forall i :: 0 <= i < |pre| ==> PhpNumeric.IsNumericSpace(pre[i])
    requires |rest| > 0 && ('a' <= Text.LowerChar(rest[0]) <= 'z')
    ensures PhpNumeric.ParseNumber(pre + rest).None?
  {
    var v := pre + rest;
    assert forall i :: 0 <= i < |pre| ==> v[i] == pre[i];
    assert v[|pre|] == rest[0];
    PhpNumeric.OtherStartNotNumeric(v, |pre|);
  }

  /** A value `face_detected` accepts is stored as true only when it is "true"
      or a numeric string equal to one; "1.0", "01" and " 1" are accepted but
      only the last is stored as true. */
  lemma FaceReadAsTrue(v: string)
    ensures FaceOk(Some(v)) && Settings.FilterBool(v) ==>
      v == "true" || (PhpNumeric.ParseNumber(v).Some? && PhpNumeric.IsOne(PhpNumeric.ParseNumber(v).value))
  {
    var f := "false";
    Settings.FilterBoolFaceLiterals(f);
    FilterTrueNumber(v);
  }

  /** The four literals themselves pass; "true" and "1" are stored as true,
      "false" and "0" as false. */
  lemma FaceLiteralsRead(i: nat)
    requires i < |FACE_LITERALS|
    ensures FaceOk(Some(FACE_LITERALS[i]))
    ensures Settings.FilterBool(FACE_LITERALS[i]) <==> i == 0 || i == 2
  {
    var v := FACE_LITERALS[i];
    if i < 2 {
      assert v == "true" || v == "false";
    } else {
      FaceDigitParsed(i);
      assert PhpNumeric.IsOne(PhpNumeric.Number(false, 1, 0));
    }
    Settings.FilterBoolFaceLiterals(v);
  }

  /** A one padded with leading zeros ("01", "001") passes validation, yet
      `filter_var` stores it as false. */
  lemma LeadingZerosOne(zeros: string)
    requires |zeros| > 0 && forall i :: 0 <= i < |zeros| ==> zeros[i] == '0'
    ensures FaceOk(Some(zeros + "1")) && !Settings.FilterBool(zeros + "1")
  {
    var v := zeros + "1";
    assert v[0] == '0' && |v| >= 2;
    assert forall i :: 0 <= i < |v| ==> 'a' <= v[i] <= 'z' || Text.IsDigit(v[i]);
    Settings.FilterBoolLowerWord(v);
    LeadingZerosParsed(zeros);
  }

  lemma LeadingZerosParsed(zeros: string)
    requires forall i :: 0 <= i < |zeros| ==> zeros[i] == '0'
    ensures PhpNumeric.ParseNumber(zeros + "1") == Some(PhpNumeric.Number(false, 1, 0))
  {
    var v := zeros + "1";
    var n := |zeros|;
    assert forall i :: 0 <= i < n ==> v[i] == '0';
    assert v[n] == '1';
    assert PhpNumeric.AllDigits(v);
    PhpNumeric.IntegerLiteral(v);
    PhpNumeric.DigitsZeros(v, 0, n, 0);
    PhpNumeric.DigitsSplit(v, 0, n, |v|, 0);
  }

  /** A one followed by a point and zeros ("1.0", "1.00") passes validation,
      yet `filter_var` stores it as false. */
  lemma PointZerosOne(v: string)
    requires |v| >= 3 && v[0] == '1' && v[1] == '.'
    requires forall i :: 2 <= i < |v| ==> v[i] == '0'
    ensures FaceOk(Some(v)) && !Settings.FilterBool(v)
  {
    PointZerosFlag(v);
    PointZerosStoredFalse(v);
  }

  lemma PointZerosFlag(v: string)
    requires |v| >= 3 && v[0] == '1' && v[1] == '.'
    requires forall i :: 2 <= i < |v| ==> v[i] == '0'
    ensures NumericFlag(v)
  {
    PointZerosParsed(v);
    PhpNumeric.PowerOfTenIsOne(|v| - 2);
  }

  lemma PointZerosStoredFalse(v: string)
    requires |v| >= 3 && v[0] == '1' && v[1] == '.'
    requires forall i :: 2 <= i < |v| ==> v[i] == '0'
    ensures !Settings.FilterBool(v)
  {
    assert !Text.IsFilterSpace(v[|v| - 1]);
    assert forall i :: 0 <= i < |v| ==> !Text.IsUpper(v[i]);
    Settings.FilterBoolPlain(v);
  }

  lemma PointZerosParsed(v: string)
    requires |v| >= 2 && v[0] == '1' && v[1] == '.'
    requires forall i :: 2 <= i < |v| ==> v[i] == '0'
    ensures PhpNumeric.ParseNumber(v) == Some(PhpNumeric.Number(false, Text.Pow10(|v| - 2), -(|v| - 2)))
  {
    PhpNumeric.DigitsZeros(v, 2, |v|, 1);
    PhpNumeric.PointLiteral(v, 1);
  }

  /** The fields failing validation, in rule order. */
  function PayloadErrors(p: Payload): (errs: seq<Field>)
    ensures Selfie in errs <==> !SelfieOk(p.selfie)
    ensures Latitude in errs <==> !LatitudeOk(p.latitude)
    ensures Longitude in errs <==> !LongitudeOk(p.longitude)
    ensures FaceDetected in errs <==> !FaceOk(p.faceDetected)
    ensures |errs| == 0 <==> SelfieOk(p.selfie) && LatitudeOk(p.latitude) && LongitudeOk(p.longitude) && FaceOk(p.faceDetected)
  {
    (if SelfieOk(p.selfie) then [] else [Selfie])
    + (if LatitudeOk(p.latitude) then [] else [Latitude])
    + (if LongitudeOk(p.longitude) then [] else [Longitude])
    + (if FaceOk(p.faceDetected) then [] else [FaceDetected])
  }

  /** The geofence settings as both the check-in and the settings endpoint read
      them: enabled unless a stored value says otherwise, campus at (0, 0) and a
      100 m radius when unset. */
  function GeofenceSettings(t: Settings.Table, toFloat: string -> real): (c: GeofenceConfig)
    ensures c.enabled == Settings.GetBool(t, Settings.GEOFENCING_ENABLED, true)
    ensures Settings.GEOFENCING_ENABLED !in t ==> c.enabled
    ensures Settings.MAX_DISTANCE_METERS !in t ==> c.maxDistance == DEFAULT_MAX_DISTANCE
    ensures Settings.CAMPUS_LATITUDE !in t ==> c.campusLatitude == 0.0
    ensures Settings.CAMPUS_LONGITUDE !in t ==> c.campusLongitude == 0.0
    ensures c.campusLatitude == Settings.GetFloat(t, Settings.CAMPUS_LATITUDE, 0.0, toFloat)
    ensures c.campusLongitude == Settings.GetFloat(t, Settings.CAMPUS_LONGITUDE, 0.0, toFloat)
    ensures c.maxDistance == Settings.GetFloat(t, Settings.MAX_DISTANCE_METERS, DEFAULT_MAX_DISTANCE, toFloat)
  {
    GeofenceConfig(
      Settings.GetBool(t, Settings.GEOFENCING_ENABLED, true),
      Settings.GetFloat(t, Settings.CAMPUS_LATITUDE, 0.0, toFloat),
      Settings.GetFloat(t, Settings.CAMPUS_LONGITUDE, 0.0, toFloat),
      Settings.GetFloat(t, Settings.MAX_DISTANCE_METERS, DEFAULT_MAX_DISTANCE, toFloat))
  }

  /** Distance from the submitted point to the configured campus. */
  function CampusDistance(p: Payload, c: GeofenceConfig, distance: Distance): real
    requires p.latitude.Some? && p.longitude.Some?
  {
    distance(Degrees(p.latitude.value), Degrees(p.longitude.value), c.campusLatitude, c.campusLongitude)
  }

  /** Whether the geofence refuses the submitted point. */
  function OutsideFence(p: Payload, c: GeofenceConfig, distance: Distance): (b: bool)
    requires p.latitude.Some? && p.longitude.Some?
    ensures !c.enabled ==> !b
    ensures c.enabled ==> (b <==> CampusDistance(p, c, distance) > c.maxDistance)
  {
    c.enabled && CampusDistance(p, c, distance) > c.maxDistance
  }

  /** `attend`: the check-in decision for `userId` on `session` at time `now`. */
  function Attend(store: Store, userId: nat, session: Session, p: Payload, now: int, selfiePath: string,
                  settings: Settings.Table, toFloat: string -> real, distance: Distance): (r: Result<CheckedIn, Rejection>)
    ensures HasPair(store, userId, session.id) ==> r == Failure(AlreadySubmitted)
    ensures !HasPair(store, userId, session.id) && !IsOpen(session, now) ==>
      r == Failure(if session.openedAt.None? then NotOpened else Expired)
    ensures !HasPair(store, userId, session.id) && IsOpen(session, now) && |PayloadErrors(p)| > 0 ==>
      r == Failure(InvalidPayload(PayloadErrors(p)))
    ensures (&& !HasPair(store, userId, session.id) && IsOpen(session, now) && |PayloadErrors(p)| == 0
             && OutsideFence(p, GeofenceSettings(settings, toFloat), distance)) ==>
      r == Failure(OutOfRange(CampusDistance(p, GeofenceSettings(settings, toFloat), distance),
                              GeofenceSettings(settings, toFloat).maxDistance))
    ensures r.Failure? && r.error.InvalidPayload? ==> IsOpen(session, now) && |r.error.fields| > 0
    ensures r.Failure? && r.error.OutOfRange? ==> |PayloadErrors(p)| == 0 && GeofenceSettings(settings, toFloat).enabled
    ensures r.Failure? && r.error.OutOfRange? ==> r.error.distance > r.error.maxDistance
    ensures r.Success? ==> !HasPair(store, userId, session.id) && IsOpen(session, now) && |PayloadErrors(p)| == 0
    ensures r.Success? ==> r.value.store.rows == store.rows + [r.value.record]
    ensures r.Success? ==> r.value.record.id == store.nextId
    ensures r.Success? ==> r.value.record.userId == userId && r.value.record.sessionId == session.id
    ensures r.Success? ==> r.value.record.latitude == p.latitude.value && r.value.record.longitude == p.longitude.value
    ensures r.Success? ==> r.value.record.address == Some(PENDING_ADDRESS) && r.value.record.submittedAt == now
    ensures r.Success? ==> (r.value.record.faceDetected <==> Settings.FilterBool(p.faceDetected.value))
    ensures r.Success? && r.value.record.faceDetected ==>
      || p.faceDetected.value == "true"
      || (PhpNumeric.ParseNumber(p.faceDetected.value).Some?
          && PhpNumeric.IsOne(PhpNumeric.ParseNumber(p.faceDetected.value).value))
    ensures r.Success? ==> r.value.job == Job(r.value.record.id, p.latitude.value, p.longitude.value)
    ensures r.Success? && Valid(store) ==> Valid(r.value.store)
  {
    if HasPair(store, userId, session.id) then Failure(AlreadySubmitted)
    else if !IsOpen(session, now) then Failure(if session.openedAt.None? then NotOpened else Expired)
    else
      var errs := PayloadErrors(p);
      if |errs| > 0 then Failure(InvalidPayload(errs))
      else
        var face := Settings.FilterBool(p.faceDetected.value);
        FaceReadAsTrue(p.faceDetected.value);
        var config := GeofenceSettings(settings, toFloat);
        var d := CampusDistance(p, config, distance);
        if config.enabled && d > config.maxDistance then Failure(OutOfRange(d, config.maxDistance))
        else
          var row := NewAttendance(userId, session.id, selfiePath, p.latitude.value, p.longitude.value,
                                   Some(PENDING_ADDRESS), Some(face), now);
          match Insert(store, row)
          case Failure(e) => Failure(StorageFailure(e))
          case Success(ins) => Success(CheckedIn(ins.store, ins.row, Job(ins.row.id, p.latitude.value, p.longitude.value)))
  }

  /** Validated coordinates always fit the decimal(10,8) and decimal(11,8) columns. */
  lemma ValidatedCoordinatesFit(lat: Option<int>, lon: Option<int>)
    requires LatitudeOk(lat) && LongitudeOk(lon)
    ensures FitsDecimal(lat.value, LATITUDE_DIGITS) && FitsDecimal(lon.value, LONGITUDE_DIGITS)
  {
    CoordinateColumnBounds();
  }

  /** Acceptance exactly when every check passes, in order; a valid store never
      reports a storage failure. */
  lemma AttendAcceptsIff(store: Store, userId: nat, session: Session, p: Payload, now: int, selfiePath: string,
                         settings: Settings.Table, toFloat: string -> real, distance: Distance)
    ensures var r := Attend(store, userId, session, p, now, selfiePath, settings, toFloat, distance);
      r.Success? <==>
        && !HasPair(store, userId, session.id)
        && IsOpen(session, now)
        && |PayloadErrors(p)| == 0
        && !OutsideFence(p, GeofenceSettings(settings, toFloat), distance)
    ensures !Attend(store, userId, session, p, now, selfiePath, settings, toFloat, distance).Failure?
      || !Attend(store, userId, session, p, now, selfiePath, settings, toFloat, distance).error.StorageFailure?
  {
    if !HasPair(store, userId, session.id) && IsOpen(session, now) && |PayloadErrors(p)| == 0 {
      ValidatedCoordinatesFit(p.latitude, p.longitude);
    }
  }

  /** With geofencing switched off no check-in is refused for its location. */
  lemma GeofenceOffNeverOutOfRange(store: Store, userId: nat, session: Session, p: Payload, now: int, selfiePath: string,
                                   settings: Settings.Table, toFloat: string -> real, distance: Distance)
    requires !GeofenceSettings(settings, toFloat).enabled
    ensures var r := Attend(store, userId, session, p, now, selfiePath, settings, toFloat, distance);
      !(r.Failure? && r.error.OutOfRange?)
  {
  }

  /** A point exactly at the maximum distance is inside the fence. */
  lemma FenceBoundaryInside(p: Payload, c: GeofenceConfig, distance: Distance)
    requires p.latitude.Some? && p.longitude.Some?
    requires CampusDistance(p, c, distance) == c.maxDistance
    ensures !OutsideFence(p, c, distance)
  {
  }

  /** With nothing stored, geofencing is on with a 100 m radius. */
  lemma GeofenceDefaults(toFloat: string -> real)
    ensures GeofenceSettings(map[], toFloat) == GeofenceConfig(true, 0.0, 0.0, DEFAULT_MAX_DISTANCE)
  {
  }

  /** A stored null also reads as enabled, but a stored word other than a true
      spelling switches geofencing off rather than failing safe. */
  lemma GeofenceUnrecognisedValueDisables(toFloat: string -> real)
    ensures GeofenceSettings(map[Settings.GEOFENCING_ENABLED := None], toFloat).enabled
    ensures !GeofenceSettings(map[Settings.GEOFENCING_ENABLED := Some("enabled")], toFloat).enabled
  {
    Settings.FilterBoolPlain("enabled");
  }

  /** Once a check-in is accepted, every later attempt by the same student for
      the same session is refused as a duplicate, whatever its payload. */
  lemma SecondAttemptRejected(store: Store, userId: nat, session: Session, p: Payload, now: int, selfiePath: string,
                              settings: Settings.Table, toFloat: string -> real, distance: Distance,
                              p2: Payload, later: int, selfiePath2: string)
    requires Attend(store, userId, session, p, now, selfiePath, settings, toFloat, distance).Success?
    ensures var s2 := Attend(store, userId, session, p, now, selfiePath, settings, toFloat, distance).value.store;
      Attend(s2, userId, session, p2, later, selfiePath2, settings, toFloat, distance) == Failure(AlreadySubmitted)
  {
    var s2 := Attend(store, userId, session, p, now, selfiePath, settings, toFloat, distance).value.store;
    assert s2.rows[|store.rows|].userId == userId && s2.rows[|store.rows|].sessionId == session.id;
  }

  /** One item of `myAttendances`: the record joined with its session. */
  datatype AttendanceView = AttendanceView(
    id: nat,
    sessionId: nat,
    weekName: string,
    sessionDate: int,
    submittedAt: int,
    address: Option<string>)

  /** Every record's session is in `sessions` (the foreign key). */
  ghost predicate SessionsKnown(store: Store, sessions: seq<Session>) {
    forall i :: 0 <= i < |store.rows| ==> exists k :: 0 <= k < |sessions| && sessions[k].id == store.rows[i].sessionId
  }

  function SubmittedAt(a: Attendance): int {
    a.submittedAt
  }

  /** The caller's records, newest submission first. */
  function OwnRecords(store: Store, userId: nat): (r: seq<Attendance>)
    ensures forall i :: 0 <= i < |r| ==> r[i].userId == userId && r[i] in store.rows
    ensures forall i :: 0 <= i < |store.rows| && store.rows[i].userId == userId ==> store.rows[i] in r
    ensures Seqs.SortedDesc(r, SubmittedAt)
    ensures |r| == Seqs.Count(store.rows, (a: Attendance) => a.userId == userId)
  {
    var own := Seqs.Filter(store.rows, (a: Attendance) => a.userId == userId);
    var r := Seqs.SortDesc(own, SubmittedAt);
    Seqs.SortDescMembers(own, SubmittedAt);
    forall i | 0 <= i < |r| ensures r[i].userId == userId && r[i] in store.rows {
      assert r[i] in own;
      var j :| 0 <= j < |own| && own[j] == r[i];
    }
    r
  }

  /** The session a record belongs to. */
  function SessionOf(a: Attendance, sessions: seq<Session>): (s: Session)
    requires exists k :: 0 <= k < |sessions| && sessions[k].id == a.sessionId
    ensures s in sessions && s.id == a.sessionId
  {
    Seqs.First(sessions, (x: Session) => x.id == a.sessionId).value
  }

  /** Every record in `own` has its session in `sessions`. */
  ghost predicate SessionsOf(own: seq<Attendance>, sessions: seq<Session>) {
    forall i :: 0 <= i < |own| ==> exists k :: 0 <= k < |sessions| && sessions[k].id == own[i].sessionId
  }

  /** `v` shows record `a`: its id, session, submission time and address,
      with the week name and date of the record's session. */
  ghost predicate Shows(v: AttendanceView, a: Attendance, sessions: seq<Session>) {
    && v.id == a.id && v.sessionId == a.sessionId
    && v.submittedAt == a.submittedAt && v.address == a.address
    && (exists k :: 0 <= k < |sessions| && sessions[k].id == a.sessionId)
    && v.weekName == SessionOf(a, sessions).weekName
    && v.sessionDate == SessionOf(a, sessions).sessionDate
  }

  /** Session ids are the table's primary key, so the record's session is
      the one row carrying its id. */
  lemma SessionOfUnique(a: Attendance, sessions: seq<Session>, k: nat)
    requires forall i, j :: 0 <= i < j < |sessions| ==> sessions[i].id != sessions[j].id
    requires k < |sessions| && sessions[k].id == a.sessionId
    ensures SessionOf(a, sessions) == sessions[k]
  {
    var s := SessionOf(a, sessions);
    var j :| 0 <= j < |sessions| && sessions[j] == s;
    if j != k {
      assert false;
    }
  }

  /** Each record joined with its session, in the same order. */
  function Views(own: seq<Attendance>, sessions: seq<Session>): (r: seq<AttendanceView>)
    requires SessionsOf(own, sessions)
    ensures |r| == |own|
    ensures forall i :: 0 <= i < |own| ==> r[i].id == own[i].id && r[i].submittedAt == own[i].submittedAt
    ensures forall i :: 0 <= i < |own| ==> Shows(r[i], own[i], sessions)
  {
    if |own| == 0 then []
    else
      var a := own[0];
      var s := SessionOf(a, sessions);
      var v := AttendanceView(a.id, a.sessionId, s.weekName, s.sessionDate, a.submittedAt, a.address);
      assert Shows(v, a, sessions);
      [v] + Views(own[1..], sessions)
  }

  /** The foreign key carries over to the caller's records. */
  lemma OwnSessionsKnown(store: Store, sessions: seq<Session>, userId: nat)
    requires SessionsKnown(store, sessions)
    ensures SessionsOf(OwnRecords(store, userId), sessions)
  {
    var own := OwnRecords(store, userId);
    forall i | 0 <= i < |own| ensures exists k :: 0 <= k < |sessions| && sessions[k].id == own[i].sessionId {
      var j :| 0 <= j < |store.rows| && store.rows[j] == own[i];
    }
  }

  /** Ids of the records `userId` submitted. */
  ghost function OwnIds(store: Store, userId: nat): set<nat> {
    set k | 0 <= k < |store.rows| && store.rows[k].userId == userId :: store.rows[k].id
  }

  ghost function ViewIds(r: seq<AttendanceView>): set<nat> {
    set i | 0 <= i < |r| :: r[i].id
  }

  /** `myAttendances`: exactly the caller's records, newest first, each with
      its session's name and date. */
  function MyAttendances(store: Store, sessions: seq<Session>, userId: nat): (r: seq<AttendanceView>)
    requires SessionsKnown(store, sessions)
    ensures |r| == Seqs.Count(store.rows, (a: Attendance) => a.userId == userId)
    ensures ViewIds(r) == OwnIds(store, userId)
    ensures forall i, j :: 0 <= i < j < |r| ==> r[i].submittedAt >= r[j].submittedAt
    ensures forall i :: 0 <= i < |r| ==>
      exists k :: 0 <= k < |store.rows| && store.rows[k].userId == userId && Shows(r[i], store.rows[k], sessions)
  {
    OwnSessionsKnown(store, sessions, userId);
    var r := Views(OwnRecords(store, userId), sessions);
    ViewsMatchOwn(store, sessions, userId, r);
    ViewsOrdered(store, sessions, userId, r);
    ViewsShowOwn(store, sessions, userId, r);
    r
  }

  lemma ViewsShowOwn(store: Store, sessions: seq<Session>, userId: nat, r: seq<AttendanceView>)
    requires SessionsOf(OwnRecords(store, userId), sessions)
    requires r == Views(OwnRecords(store, userId), sessions)
    ensures forall i :: 0 <= i < |r| ==>
      exists k :: 0 <= k < |store.rows| && store.rows[k].userId == userId && Shows(r[i], store.rows[k], sessions)
  {
    var own := OwnRecords(store, userId);
    forall i | 0 <= i < |r|
      ensures exists k :: 0 <= k < |store.rows| && store.rows[k].userId == userId && Shows(r[i], store.rows[k], sessions)
    {
      assert own[i] in store.rows;
      var k :| 0 <= k < |store.rows| && store.rows[k] == own[i];
      assert Shows(r[i], store.rows[k], sessions);
    }
  }

  lemma ViewsMatchOwn(store: Store, sessions: seq<Session>, userId: nat, r: seq<AttendanceView>)
    requires SessionsOf(OwnRecords(store, userId), sessions)
    requires r == Views(OwnRecords(store, userId), sessions)
    ensures ViewIds(r) == OwnIds(store, userId)
  {
    ViewIdsOwned(OwnRecords(store, userId), store, userId, r);
    OwnIdsViewed(OwnRecords(store, userId), store, userId, r);
  }

  lemma ViewIdsOwned(own: seq<Attendance>, store: Store, userId: nat, r: seq<AttendanceView>)
    requires |r| == |own|
    requires forall i :: 0 <= i < |own| ==> r[i].id == own[i].id
    requires forall i :: 0 <= i < |own| ==> own[i].userId == userId && own[i] in store.rows
    ensures ViewIds(r) <= OwnIds(store, userId)
  {
    forall id | id in ViewIds(r) ensures id in OwnIds(store, userId) {
      var i :| 0 <= i < |r| && r[i].id == id;
      var k :| 0 <= k < |store.rows| && store.rows[k] == own[i];
    }
  }

  lemma OwnIdsViewed(own: seq<Attendance>, store: Store, userId: nat, r: seq<AttendanceView>)
    requires |r| == |own|
    requires forall i :: 0 <= i < |own| ==> r[i].id == own[i].id
    requires forall k :: 0 <= k < |store.rows| && store.rows[k].userId == userId ==> store.rows[k] in own
    ensures OwnIds(store, userId) <= ViewIds(r)
  {
    forall id | id in OwnIds(store, userId) ensures id in ViewIds(r) {
      var k :| 0 <= k < |store.rows| && store.rows[k].userId == userId && store.rows[k].id == id;
      var i :| 0 <= i < |own| && own[i] == store.rows[k];
      assert r[i].id == id;
    }
  }

  lemma ViewsOrdered(store: Store, sessions: seq<Session>, userId: nat, r: seq<AttendanceView>)
    requires SessionsOf(OwnRecords(store, userId), sessions)
    requires r == Views(OwnRecords(store, userId), sessions)
    ensures forall i, j :: 0 <= i < j < |r| ==> r[i].submittedAt >= r[j].submittedAt
  {
    var own := OwnRecords(store, userId);
    assert Seqs.SortedDesc(own, SubmittedAt);
    forall i, j | 0 <= i < j < |r| ensures r[i].submittedAt >= r[j].submittedAt {
      assert SubmittedAt(own[i]) >= SubmittedAt(own[j]);
    }
  }
}

=== FILE: dashboard.dfy ===
/** The student dashboard's view model: session cards derived from the
    sessions endpoint, the active and next sessions, whether the student has
    checked in, the attendance rate and the semester progress. Dates are day
    numbers; `today` is the client's current day. */
module Dashboard {
  import opened Wrappers
  import Seqs
  import opened Text
  import SessionApi
  import CheckIn

  const TOTAL_WEEKS := 14
  /** Demo figures shown to guests. */
  const GUEST_PAST_SESSIONS: nat := 5
  const GUEST_ATTENDED: nat := 4

  datatype Status = Ongoing | Upcoming

  /** A session as the dashboard displays it. */
  datatype Card = Card(
    id: nat,
    title: string,
    sessionDate: int,
    isOpenForAttendance: bool,
    weekNumber: nat,
    status: Status)

  /** The integer spelled by all the digits of a week name, or 0 without
      digits (`parseInt(name.replace(/\D/g, "") || "0")`). */
  function WeekNumber(weekName: string): (n: nat)
    ensures |Digits(weekName)| == 0 ==> n == 0
  {
    DecimalValue(Digits(weekName))
  }

  /** A prefix without digits followed by a number gives back that number. */
  lemma WeekNumberAfterLabel(prefix: string, n: nat)
    requires forall i :: 0 <= i < |prefix| ==> !IsDigit(prefix[i])
    ensures WeekNumber(prefix + NatToString(n)) == n
  {
    Seqs.FilterAppend(prefix, NatToString(n), IsDigit);
    Seqs.FilterNone(prefix, IsDigit);
    Seqs.FilterAll(NatToString(n), IsDigit);
    assert Digits(prefix + NatToString(n)) == NatToString(n);
    DecimalValueOfNatToString(n);
  }

  /** Digits are concatenated wherever they appear: "Week 1 (part 2)" is week 12. */
  lemma WeekNumberJoinsDigits(a: string, b: string)
    ensures WeekNumber(a + b) == WeekNumber(a) * Pow10(|Digits(b)|) + WeekNumber(b)
  {
    Seqs.FilterAppend(a, b, IsDigit);
    DecimalValueAppend(Digits(a), Digits(b));
  }

  function Title(weekNumber: nat): string {
    "Week " + NatToString(weekNumber)
  }

  /** The forced English title carries the parsed week number back. */
  lemma TitleRoundTrip(weekName: string)
    ensures WeekNumber(Title(WeekNumber(weekName))) == WeekNumber(weekName)
  {
    var prefix := "Week ";
    assert forall i :: 0 <= i < |prefix| ==> !IsDigit(prefix[i]);
    WeekNumberAfterLabel(prefix, WeekNumber(weekName));
  }

  /** A card for one session: open for attendance and ongoing exactly when
      the API reports the window open. */
  function ToCard(s: SessionApi.SessionView): (c: Card)
    ensures c.id == s.id && c.sessionDate == s.sessionDate
    ensures c.isOpenForAttendance <==> s.attendanceOpen
    ensures c.status == Ongoing <==> s.attendanceOpen
    ensures c.weekNumber == WeekNumber(s.weekName) && c.title == Title(c.weekNumber)
  {
    var n := WeekNumber(s.weekName);
    Card(s.id, Title(n), s.sessionDate, s.attendanceOpen, n, if s.attendanceOpen then Ongoing else Upcoming)
  }

  function Cards(sessions: seq<SessionApi.SessionView>): (cs: seq<Card>)
    ensures |cs| == |sessions|
    ensures forall i :: 0 <= i < |cs| ==> cs[i] == ToCard(sessions[i])
  {
    seq(|sessions|, i requires 0 <= i < |sessions| => ToCard(sessions[i]))
  }

  predicate IsOpenCard(c: Card) {
    c.isOpenForAttendance
  }

  /** The first session, in list order, that is open for attendance. */
  function ActiveSession(cards: seq<Card>): (r: Option<Card>)
    ensures r.Some? ==> r.value in cards && r.value.isOpenForAttendance
    ensures r.Some? ==>
      exists i :: 0 <= i < |cards| && cards[i] == r.value && forall j :: 0 <= j < i ==> !cards[j].isOpenForAttendance
    ensures r.None? <==> forall i :: 0 <= i < |cards| ==> !cards[i].isOpenForAttendance
  {
    Seqs.First(cards, IsOpenCard)
  }

  /** Sessions listed after an open one never change which session is active;
      without an open one in front, the choice falls to the later sessions. */
  lemma ActiveSessionAppend(front: seq<Card>, back: seq<Card>)
    ensures ActiveSession(front + back) == if ActiveSession(front).Some? then ActiveSession(front) else ActiveSession(back)
  {
    Seqs.FirstAppend(front, back, IsOpenCard);
  }

  /** Whether the student has checked in to the active session; guests never have. */
  function HasAttended(loggedIn: bool, active: Option<Card>, attendances: seq<CheckIn.AttendanceView>): (b: bool)
    ensures b <==> loggedIn && active.Some? && exists i :: 0 <= i < |attendances| && attendances[i].sessionId == active.value.id
  {
    loggedIn && active.Some? && Seqs.Count(attendances, (a: CheckIn.AttendanceView) => a.sessionId == active.value.id) > 0
  }

  /** The first session that is not open and is dated today or later. */
  function UpcomingSession(cards: seq<Card>, today: int): (r: Option<Card>)
    ensures r.Some? ==> r.value in cards && !r.value.isOpenForAttendance && r.value.sessionDate >= today
    ensures r.Some? ==>
      exists i :: 0 <= i < |cards| && cards[i] == r.value
                  && forall j :: 0 <= j < i ==> cards[j].isOpenForAttendance || cards[j].sessionDate < today
    ensures r.None? <==> forall i :: 0 <= i < |cards| ==> cards[i].isOpenForAttendance || cards[i].sessionDate < today
  {
    Seqs.First(cards, (c: Card) => !c.isOpenForAttendance && c.sessionDate >= today)
  }

  /** Sessions dated today or earlier, counted as one when there are none. */
  function PastSessions(cards: seq<Card>, today: int): (n: nat)
    ensures n >= 1
    ensures n <= |cards| || n == 1
    ensures Seqs.Count(cards, (c: Card) => c.sessionDate <= today) > 0 ==> n == Seqs.Count(cards, (c: Card) => c.sessionDate <= today)
    ensures Seqs.Count(cards, (c: Card) => c.sessionDate <= today) == 0 ==> n == 1
  {
    var k := Seqs.Count(cards, (c: Card) => c.sessionDate <= today);
    if k == 0 then 1 else k
  }

  /** `Math.round(a / b * 100)` on non-negative values: halves round up. */
  function RoundPercent(a: nat, b: nat): (q: nat)
    requires b > 0
    ensures 2 * q * b <= 200 * a + b < 2 * q * b + 2 * b
  {
    (200 * a + b) / (2 * b)
  }

  /** The attendance rate in whole percent, capped at 100; a zero count of
      past sessions is treated as one. */
  function AttendanceRate(attended: nat, past: nat): (r: nat)
    ensures r <= 100
    ensures var p := if past == 0 then 1 else past;
      r == 100 <==> 200 * attended >= 199 * p
    ensures var p := if past == 0 then 1 else past;
      r < 100 ==> 2 * r * p <= 200 * attended + p < 2 * r * p + 2 * p
  {
    var p := if past == 0 then 1 else past;
    var q := RoundPercent(attended, p);
    RoundsToFull(attended, p);
    if q < 100 then q else 100
  }

  /** The rounded percentage reaches 100 exactly when `a / b >= 0.995`. */
  lemma RoundsToFull(a: nat, b: nat)
    requires b > 0
    ensures RoundPercent(a, b) >= 100 <==> 200 * a >= 199 * b
  {
    var q := RoundPercent(a, b);
    if 200 * a >= 199 * b {
      assert 200 * a + b >= 100 * (2 * b);
      AtLeastQuotient(200 * a + b, 2 * b, 100);
    }
    if q >= 100 {
      assert 200 * b <= 200 * a + b by {
        MulMonotone(100, q, 2 * b);
        assert 2 * q * b == q * (2 * b);
      }
    }
  }

  /** Having attended at least as many sessions as have passed shows 100%. */
  lemma FullAttendance(attended: nat, past: nat)
    requires past > 0 && attended >= past
    ensures AttendanceRate(attended, past) == 100
  {
    var x := 200 * attended + past;
    var d := 2 * past;
    assert x >= 100 * d;
    AtLeastQuotient(x, d, 100);
  }

  /** Euclidean division: a dividend of at least `k * d` has quotient at least `k`. */
  lemma AtLeastQuotient(x: nat, d: nat, k: nat)
    requires d > 0 && x >= k * d
    ensures x / d >= k
  {
    var q := x / d;
    var r := x % d;
    assert q * d + r == x && r < d;
    if q < k {
      MulMonotone(q + 1, k, d);
      assert false;
    }
  }

  lemma MulMonotone(a: nat, b: nat, d: nat)
    requires a <= b
    ensures a * d <= b * d
  {
    assert b * d == a * d + (b - a) * d;
  }

  /** Not having attended shows 0%. */
  lemma NoAttendance(past: nat)
    ensures AttendanceRate(0, past) == 0
  {
    var p := if past == 0 then 1 else past;
    var q := RoundPercent(0, p);
    if q > 0 {
      MulMonotone(1, q, 2 * p);
      assert false;
    }
  }

  /** The rate shown: the student's own figures, or the 80% demo for guests. */
  function DisplayedRate(loggedIn: bool, cards: seq<Card>, attendances: seq<CheckIn.AttendanceView>, today: int): (r: nat)
    ensures r <= 100
    ensures !loggedIn ==> r == 80
    ensures loggedIn ==> r == AttendanceRate(|attendances|, PastSessions(cards, today))
  {
    if loggedIn then AttendanceRate(|attendances|, PastSessions(cards, today))
    else AttendanceRate(GUEST_ATTENDED, GUEST_PAST_SESSIONS)
  }

  /** The week to show: the active session's, else the upcoming one's, else
      1; a week number of 0 counts as missing. */
  function CurrentWeek(active: Option<Card>, upcoming: Option<Card>): (w: nat)
    ensures w >= 1
    ensures active.Some? && active.value.weekNumber > 0 ==> w == active.value.weekNumber
    ensures (active.None? || active.value.weekNumber == 0) && upcoming.Some? && upcoming.value.weekNumber > 0 ==>
      w == upcoming.value.weekNumber
    ensures (active.None? || active.value.weekNumber == 0) && (upcoming.None? || upcoming.value.weekNumber == 0) ==>
      w == 1
  {
    if active.Some? && active.value.weekNumber != 0 then active.value.weekNumber
    else if upcoming.Some? && upcoming.value.weekNumber != 0 then upcoming.value.weekNumber
    else 1
  }

  /** Semester progress in percent, capped at 100. */
  function ProgressPercent(week: nat): (p: real)
    ensures 0.0 <= p <= 100.0
    ensures p == 100.0 <==> week >= TOTAL_WEEKS
    ensures week < TOTAL_WEEKS ==> p * (TOTAL_WEEKS as real) == (week as real) * 100.0
  {
    var raw := (week as real) / (TOTAL_WEEKS as real) * 100.0;
    if raw < 100.0 then raw else 100.0
  }

  /** Progress grows with the week. */
  lemma ProgressMonotone(w1: nat, w2: nat)
    requires w1 <= w2
    ensures ProgressPercent(w1) <= ProgressPercent(w2)
  {
  }

  datatype Model = Model(
    cards: seq<Card>,
    active: Option<Card>,
    hasAttended: bool,
    upcoming: Option<Card>,
    attendanceRate: nat,
    currentWeek: nat,
    progressPercent: real)

  /** The whole view model for a fetched session list (the demo list for
      guests) and the student's attendances. */
  function Build(loggedIn: bool, sessions: seq<SessionApi.SessionView>, attendances: seq<CheckIn.AttendanceView>, today: int): (m: Model)
    ensures |m.cards| == |sessions|
    ensures m.active.Some? ==> m.active.value.isOpenForAttendance && m.active.value.status == Ongoing
    ensures m.active.Some? ==> exists i :: 0 <= i < |sessions| && sessions[i].attendanceOpen && sessions[i].id == m.active.value.id
    ensures m.hasAttended ==> loggedIn && m.active.Some?
    ensures m.upcoming.Some? ==> m.upcoming.value.status == Upcoming && m.upcoming.value.sessionDate >= today
    ensures m.attendanceRate <= 100 && m.currentWeek >= 1 && m.progressPercent <= 100.0
    ensures m.cards == Cards(sessions)
    ensures m.active == ActiveSession(m.cards) && m.upcoming == UpcomingSession(m.cards, today)
    ensures m.hasAttended == HasAttended(loggedIn, m.active, attendances)
    ensures m.attendanceRate == DisplayedRate(loggedIn, m.cards, attendances, today)
    ensures m.currentWeek == CurrentWeek(m.active, m.upcoming)
    ensures m.progressPercent == ProgressPercent(m.currentWeek)
  {
    var cards := Cards(sessions);
    var active := ActiveSession(cards);
    var upcoming := UpcomingSession(cards, today);
    assert active.Some? ==> exists i :: 0 <= i < |sessions| && sessions[i].attendanceOpen && sessions[i].id == active.value.id by {
      if active.Some? {
        var i :| 0 <= i < |cards| && cards[i] == active.value;
        assert cards[i] == ToCard(sessions[i]);
      }
    }
    Model(cards, active, HasAttended(loggedIn, active, attendances), upcoming,
          DisplayedRate(loggedIn, cards, attendances, today), CurrentWeek(active, upcoming),
          ProgressPercent(CurrentWeek(active, upcoming)))
  }
}

=== FILE: materials.dfy ===
/** Learning materials as the student API lists them: published only, newest
    first, at most a requested number, each with a file type derived from its
    file extension or its link. */
module Materials {
  import opened Wrappers
  import Seqs
  import opened Text

  const DEFAULT_LIMIT: nat := 10

  /** A row of `materials`. */
  datatype Material = Material(
    id: nat,
    title: string,
    description: Option<string>,
    filePath: Option<string>,
    link: Option<string>,
    isPublished: bool,
    createdAt: int)

  datatype FileType = Pdf | Ppt | Video | Other | Link

  /** One item of the `materials` response. */
  datatype MaterialView = MaterialView(
    id: nat,
    title: string,
    description: Option<string>,
    fileUrl: Option<string>,
    link: Option<string>,
    createdAt: int,
    fileType: FileType)

  /** The type a file extension names, compared without regard to case. */
  function ExtensionType(ext: string): (t: FileType)
    ensures t == Pdf <==> Lower(ext) == "pdf"
    ensures t == Ppt <==> Lower(ext) in {"ppt", "pptx"}
    ensures t == Video <==> Lower(ext) in {"mp4", "mkv", "webm"}
    ensures t == Other <==> Lower(ext) !in {"pdf", "ppt", "pptx", "mp4", "mkv", "webm"}
    ensures t != Link
  {
    var e := Lower(ext);
    if e == "pdf" then Pdf
    else if e == "ppt" || e == "pptx" then Ppt
    else if e == "mp4" || e == "mkv" || e == "webm" then Video
    else Other
  }

  predicate IsYouTube(link: string) {
    Contains(link, "youtube.com") || Contains(link, "youtu.be")
  }

  /** The `file_type` of a material: a stored file decides by its extension;
      without one a YouTube link is a video and anything else is a link. */
  function Classify(filePath: Option<string>, link: Option<string>): (t: FileType)
    ensures t == Link <==> !PhpTruthy(filePath) && !(PhpTruthy(link) && IsYouTube(link.value))
    ensures PhpTruthy(filePath) ==> t != Link
    ensures !PhpTruthy(filePath) ==> t == Link || t == Video
  {
    if PhpTruthy(filePath) then ExtensionType(Extension(filePath.value))
    else if PhpTruthy(link) && IsYouTube(link.value) then Video
    else Link
  }

  /** With a file present the link is ignored. */
  lemma FileDecidesType(filePath: Option<string>, link1: Option<string>, link2: Option<string>)
    requires PhpTruthy(filePath)
    ensures Classify(filePath, link1) == Classify(filePath, link2)
  {
  }

  /** A file named `stem.ext` is classified by `ext` alone, whatever the stem
      and the link. */
  lemma ClassifyByExtension(stem: string, ext: string, link: Option<string>)
    requires forall i :: 0 <= i < |ext| ==> ext[i] != '.' && ext[i] != '/'
    ensures Classify(Some(stem + "." + ext), link) == ExtensionType(ext)
  {
    var path := stem + "." + ext;
    assert path[|stem|] == '.';
    assert path != "" && path != "0";
    ExtensionOfDotted(stem, ext);
  }

  /** Upper- and lower-case spellings of an extension give the same type. */
  lemma ExtensionTypeIgnoresCase(ext: string)
    ensures ExtensionType(ext) == ExtensionType(Lower(ext))
  {
    LowerIdempotent(ext);
  }

  /** A stored file whose name has no extension is of type other. */
  lemma NoExtensionIsOther(path: string, link: Option<string>)
    requires PhpTruthy(Some(path))
    requires forall i :: 0 <= i < |BaseName(path)| ==> BaseName(path)[i] != '.'
    ensures Classify(Some(path), link) == Other
  {
    var base := BaseName(path);
    forall i | BaseStart(path) <= i < BaseEnd(path) ensures path[i] != '.' {
      assert path[i] == base[i - BaseStart(path)];
    }
    assert Lower("") == "";
  }

  /** Without a file: YouTube links are videos, other links and no link are links. */
  lemma ClassifyWithoutFile(filePath: Option<string>, link: Option<string>)
    requires !PhpTruthy(filePath)
    ensures Classify(filePath, link) == (if PhpTruthy(link) && IsYouTube(link.value) then Video else Link)
  {
  }

  /** The public URL of a stored file, relative to the application's base URL. */
  function FileUrl(filePath: Option<string>): (u: Option<string>)
    ensures u.None? <==> !PhpTruthy(filePath)
    ensures u.Some? ==> |u.value| > |filePath.value| && u.value[|u.value| - |filePath.value|..] == filePath.value
  {
    if PhpTruthy(filePath) then Some("storage/" + filePath.value) else None
  }

  function View(m: Material): (v: MaterialView)
    ensures v.id == m.id && v.title == m.title && v.link == m.link && v.createdAt == m.createdAt
  {
    MaterialView(m.id, m.title, m.description, FileUrl(m.filePath), m.link, m.createdAt, Classify(m.filePath, m.link))
  }

  function CreatedAt(m: Material): int {
    m.createdAt
  }

  function IsPublished(m: Material): bool {
    m.isPublished
  }

  /** The `n` newest of the published materials. */
  function NewestPublished(ms: seq<Material>, n: nat): (r: seq<Material>)
    ensures |r| == if n < Seqs.Count(ms, IsPublished) then n else Seqs.Count(ms, IsPublished)
    ensures forall i :: 0 <= i < |r| ==> r[i].isPublished && r[i] in ms
    ensures Seqs.SortedDesc(r, CreatedAt)
    ensures multiset(r) <= multiset(Seqs.Filter(ms, IsPublished))
    ensures forall k :: 0 <= k < |ms| && ms[k].isPublished && ms[k] !in r ==>
      forall i :: 0 <= i < |r| ==> ms[k].createdAt <= r[i].createdAt
  {
    var published := Seqs.Filter(ms, IsPublished);
    var r := Seqs.TopByKey(published, CreatedAt, n);
    forall i | 0 <= i < |r| ensures r[i].isPublished && r[i] in ms {
      assert r[i] in published;
    }
    forall k | 0 <= k < |ms| && ms[k].isPublished && ms[k] !in r
      ensures forall i :: 0 <= i < |r| ==> ms[k].createdAt <= r[i].createdAt
    {
      assert ms[k] in published;
      var j :| 0 <= j < |published| && published[j] == ms[k];
    }
    r
  }

  function Views(ms: seq<Material>): (r: seq<MaterialView>)
    ensures |r| == |ms|
    ensures forall i :: 0 <= i < |r| ==> r[i] == View(ms[i])
  {
    Seqs.Map(ms, View)
  }

  /** Viewing keeps sub-multisets: no view repeats more often than its material. */
  lemma ViewsMultisetMono(a: seq<Material>, b: seq<Material>)
    requires multiset(a) <= multiset(b)
    ensures multiset(Views(a)) <= multiset(Views(b))
  {
    Seqs.MapMultisetMono(a, b, View);
  }

  lemma ViewsLeaveOutOlder(ms: seq<Material>, chosen: seq<Material>)
    requires forall k :: 0 <= k < |ms| && ms[k].isPublished && ms[k] !in chosen ==>
      forall i :: 0 <= i < |chosen| ==> ms[k].createdAt <= chosen[i].createdAt
    ensures forall k :: 0 <= k < |ms| && ms[k].isPublished && View(ms[k]) !in Views(chosen) ==>
      forall i :: 0 <= i < |chosen| ==> ms[k].createdAt <= Views(chosen)[i].createdAt
  {
    var r := Views(chosen);
    forall k | 0 <= k < |ms| && ms[k].isPublished && View(ms[k]) !in r
      ensures forall i :: 0 <= i < |chosen| ==> ms[k].createdAt <= r[i].createdAt
    {
      assert ms[k] !in chosen by {
        forall i | 0 <= i < |chosen| ensures chosen[i] != ms[k] {
          assert r[i] == View(chosen[i]);
        }
      }
    }
  }

  /** The `materials` endpoint: at most `limit` (10 when unspecified) of the
      published materials, each with its URL and type. */
  function MaterialsList(ms: seq<Material>, limit: Option<nat>): (r: seq<MaterialView>)
    ensures |r| == if limit.GetOr(DEFAULT_LIMIT) < Seqs.Count(ms, IsPublished) then limit.GetOr(DEFAULT_LIMIT) else Seqs.Count(ms, IsPublished)
    ensures forall i :: 0 <= i < |r| ==> exists k :: 0 <= k < |ms| && ms[k].isPublished && r[i] == View(ms[k])
    ensures multiset(r) <= multiset(Views(Seqs.Filter(ms, IsPublished)))
  {
    var chosen := NewestPublished(ms, limit.GetOr(DEFAULT_LIMIT));
    ViewsOfNewest(ms, limit.GetOr(DEFAULT_LIMIT));
    Views(chosen)
  }

  /** The views of the newest published materials: one per selected material,
      each the view of a published material, none repeated. */
  lemma ViewsOfNewest(ms: seq<Material>, n: nat)
    ensures var r := Views(NewestPublished(ms, n));
      |r| == if n < Seqs.Count(ms, IsPublished) then n else Seqs.Count(ms, IsPublished)
    ensures var r := Views(NewestPublished(ms, n));
      forall i :: 0 <= i < |r| ==> exists k :: 0 <= k < |ms| && ms[k].isPublished && r[i] == View(ms[k])
    ensures multiset(Views(NewestPublished(ms, n))) <= multiset(Views(Seqs.Filter(ms, IsPublished)))
  {
    var chosen := NewestPublished(ms, n);
    ViewsMultisetMono(chosen, Seqs.Filter(ms, IsPublished));
    ViewsOfPublished(ms, chosen);
    var r := Views(chosen);
    forall i | 0 <= i < |r|
      ensures exists k :: 0 <= k < |ms| && ms[k].isPublished && r[i] == View(ms[k])
    {
      assert r[i] in r;
    }
  }

  /** Views of published materials of `ms` are views of published materials of `ms`. */
  lemma ViewsOfPublished(ms: seq<Material>, chosen: seq<Material>)
    requires forall i :: 0 <= i < |chosen| ==> chosen[i].isPublished && chosen[i] in ms
    ensures forall v :: v in Views(chosen) ==> exists k :: 0 <= k < |ms| && ms[k].isPublished && v == View(ms[k])
  {
    forall v | v in Views(chosen)
      ensures exists k :: 0 <= k < |ms| && ms[k].isPublished && v == View(ms[k])
    {
      var i :| 0 <= i < |chosen| && Views(chosen)[i] == v;
      var k :| 0 <= k < |ms| && ms[k] == chosen[i];
      assert ms[k].isPublished && v == View(ms[k]);
    }
  }

  /** The list is newest first, and a published material left out is no
      newer than any listed one. */
  lemma MaterialsListNewestFirst(ms: seq<Material>, limit: Option<nat>)
    ensures var r := MaterialsList(ms, limit);
      forall i, j :: 0 <= i < j < |r| ==> r[i].createdAt >= r[j].createdAt
    ensures var r := MaterialsList(ms, limit);
      forall k :: 0 <= k < |ms| && ms[k].isPublished && View(ms[k]) !in r ==>
        forall i :: 0 <= i < |r| ==> ms[k].createdAt <= r[i].createdAt
  {
    var chosen := NewestPublished(ms, limit.GetOr(DEFAULT_LIMIT));
    var r := MaterialsList(ms, limit);
    assert r == Views(chosen);
    ViewsLeaveOutOlder(ms, chosen);
    forall i, j | 0 <= i < j < |r| ensures r[i].createdAt >= r[j].createdAt {
      assert CreatedAt(chosen[i]) >= CreatedAt(chosen[j]);
    }
  }
}

=== FILE: materials_page.dfy ===
/** The materials page's client-side filter: a case-insensitive search over
    title and session title combined with a type tab, keeping list order. */
module MaterialsPage {
  import opened Wrappers
  import Seqs
  import opened Text
  import opened Materials

  /** A material as the page receives it; `sessionTitle` is optional. */
  datatype Item = Item(title: string, sessionTitle: Option<string>, link: Option<string>, fileType: Option<FileType>)

  /** The type tabs. */
  datatype TypeTab = AllTypes | PdfTab | VideoTab | LinkTab | PptTab

  /** The page's view of an item of the materials endpoint. */
  function FromView(v: MaterialView): (it: Item)
    ensures it.title == v.title && it.link == v.link && it.fileType == Some(v.fileType)
    ensures it.sessionTitle.None?
  {
    Item(v.title, None, v.link, Some(v.fileType))
  }

  /** The query occurs, ignoring case, in the title or in a non-empty session title. */
  function MatchesSearch(it: Item, query: string): (b: bool)
    ensures Contains(Lower(it.title), Lower(query)) ==> b
    ensures JsTruthy(it.sessionTitle) && Contains(Lower(it.sessionTitle.value), Lower(query)) ==> b
    ensures !JsTruthy(it.sessionTitle) ==> (b <==> Contains(Lower(it.title), Lower(query)))
    ensures b ==> Contains(Lower(it.title), Lower(query))
                  || (it.sessionTitle.Some? && Contains(Lower(it.sessionTitle.value), Lower(query)))
  {
    Contains(Lower(it.title), Lower(query))
    || (JsTruthy(it.sessionTitle) && Contains(Lower(it.sessionTitle.value), Lower(query)))
  }

  /** The link tab wants a non-empty link; the others an equal file type. */
  function MatchesType(it: Item, tab: TypeTab): (b: bool)
    ensures tab == AllTypes ==> b
    ensures tab == LinkTab ==> (b <==> it.link.Some? && |it.link.value| > 0)
    ensures tab == PdfTab ==> (b <==> it.fileType == Some(Pdf))
    ensures tab == PptTab ==> (b <==> it.fileType == Some(Ppt))
    ensures tab == VideoTab ==> (b <==> it.fileType == Some(Video))
  {
    match tab
    case AllTypes => true
    case LinkTab => JsTruthy(it.link)
    case PptTab => it.fileType == Some(Ppt)
    case PdfTab => it.fileType == Some(Pdf)
    case VideoTab => it.fileType == Some(Video)
  }

  predicate Keep(query: string, tab: TypeTab, it: Item) {
    MatchesSearch(it, query) && MatchesType(it, tab)
  }

  /** `filteredMaterials`: the items passing both the search and the tab. */
  function Filtered(items: seq<Item>, query: string, tab: TypeTab): (r: seq<Item>)
    ensures forall i :: 0 <= i < |r| ==> r[i] in items && MatchesSearch(r[i], query) && MatchesType(r[i], tab)
    ensures forall i :: 0 <= i < |items| ==> (items[i] in r <==> MatchesSearch(items[i], query) && MatchesType(items[i], tab))
    ensures |r| <= |items|
  {
    Seqs.Filter(items, (it: Item) => Keep(query, tab, it))
  }

  /** Filtering a concatenation filters each part in turn, so the result
      keeps the items' order. */
  lemma FilteredKeepsOrder(a: seq<Item>, b: seq<Item>, query: string, tab: TypeTab)
    ensures Filtered(a + b, query, tab) == Filtered(a, query, tab) + Filtered(b, query, tab)
  {
    Seqs.FilterAppend(a, b, (it: Item) => Keep(query, tab, it));
  }

  /** An empty search box matches everything. */
  lemma EmptyQueryMatchesAll(it: Item)
    ensures MatchesSearch(it, "")
  {
    assert Lower("") == "";
    ContainsEmpty(Lower(it.title));
  }

  /** With an empty search on the all tab nothing is filtered out. */
  lemma NoFilterKeepsAll(items: seq<Item>)
    ensures Filtered(items, "", AllTypes) == items
  {
    forall i | 0 <= i < |items| ensures Keep("", AllTypes, items[i]) {
      EmptyQueryMatchesAll(items[i]);
    }
    Seqs.FilterAll(items, (it: Item) => Keep("", AllTypes, it));
  }

  /** Searching is insensitive to the case of the query. */
  lemma SearchIgnoresQueryCase(it: Item, query: string)
    ensures MatchesSearch(it, query) == MatchesSearch(it, Lower(query))
  {
    LowerIdempotent(query);
  }

  /** The link tab looks only at the link: a PDF with a link is listed, and a
      material the backend typed as a link but that has no link is not. */
  lemma LinkTabIgnoresFileType(it: Item, ft: Option<FileType>)
    ensures MatchesType(it, LinkTab) == MatchesType(it.(fileType := ft), LinkTab)
    ensures it.link.None? ==> !MatchesType(it.(fileType := Some(Link)), LinkTab)
  {
  }

  /** The other tabs keep exactly the items of their type. */
  lemma TypeTabsMatchFileType(it: Item)
    ensures MatchesType(it, PdfTab) <==> it.fileType == Some(Pdf)
    ensures MatchesType(it, PptTab) <==> it.fileType == Some(Ppt)
    ensures MatchesType(it, VideoTab) <==> it.fileType == Some(Video)
  {
  }
}

=== FILE: php_numeric.dfy ===
/** PHP 8's numeric strings and its loose comparison `==` of two strings: two
    numeric strings compare by value, any other pair character for character.
    Laravel's `in` rule compares with this `==`. */
module PhpNumeric {
  import opened Wrappers
  import opened Text

  /** The whitespace PHP allows before and after a numeric string. */
  predicate IsNumericSpace(c: char) {
    c == ' ' || c == '\t' || c == '\n' || c == '\r' || c == '\U{000B}' || c == '\U{000C}'
  }

  /** The value -1^negative * mantissa * 10^exponent. */
  datatype Number = Number(negative: bool, mantissa: nat, exponent: int)

  predicate AllDigits(s: string) {
    forall i :: 0 <= i < |s| ==> IsDigit(s[i])
  }

  /** The index just past the run of characters satisfying `p` that starts at `i`. */
  function Skip(s: string, i: nat, p: char -> bool): (j: nat)
    requires i <= |s|
    ensures i <= j <= |s|
    ensures forall k :: i <= k < j ==> p(s[k])
    ensures j < |s| ==> !p(s[j])
    decreases |s| - i
  {
    if i < |s| && p(s[i]) then Skip(s, i + 1, p) else i
  }

  /** The digits `s[i..j]` read left to right after the value `acc` already
      read, as a decimal scanner accumulates them. */
  function DigitsValue(s: string, i: nat, j: nat, acc: nat): nat
    requires i <= j <= |s|
    requires forall k :: i <= k < j ==> IsDigit(s[k])
    decreases j - i
  {
    if i == j then acc else DigitsValue(s, i + 1, j, 10 * acc + DigitValue(s[i]))
  }

  /** An exponent's value and the index just past it. */
  datatype Exponent = Exponent(value: int, end: nat)

  /** The exponent part at `i`: nothing, or `e` or `E`, an optional sign and at
      least one digit. An `e` without digits makes the string non-numeric. */
  function ParseExponent(s: string, i: nat): (r: Option<Exponent>)
    requires i <= |s|
    ensures r.Some? ==> i <= r.value.end <= |s|
    ensures r.Some? && r.value.end > i ==> s[i] == 'e' || s[i] == 'E'
  {
    if i == |s| || (s[i] != 'e' && s[i] != 'E') then Some(Exponent(0, i))
    else
      var signed := i + 1 < |s| && (s[i + 1] == '+' || s[i + 1] == '-');
      var d := if signed then i + 2 else i + 1;
      var e := Skip(s, d, IsDigit);
      if e == d then None
      else
        var n := DigitsValue(s, d, e, 0) as int;
        Some(Exponent(if signed && s[i + 1] == '-' then -n else n, e))
  }

  /** PHP's numeric-string test with the value; None for a non-numeric string.
      Leading whitespace, an optional sign, digits with at most one decimal
      point (at least one digit in all), an optional exponent, then nothing
      but whitespace. The mantissa is every digit with the point dropped. */
  function ParseNumber(s: string): Option<Number> {
    var i0 := Skip(s, 0, IsNumericSpace);
    var signed := i0 < |s| && (s[i0] == '+' || s[i0] == '-');
    var i1 := if signed then i0 + 1 else i0;
    var i2 := Skip(s, i1, IsDigit);
    var pointed := i2 < |s| && s[i2] == '.';
    var i3 := if pointed then i2 + 1 else i2;
    var i4 := Skip(s, i3, IsDigit);
    var e := ParseExponent(s, i4);
    if i1 == i2 && i3 == i4 then None
    else if e.None? || Skip(s, e.value.end, IsNumericSpace) < |s| then None
    else
      var whole := DigitsValue(s, i3, i4, DigitsValue(s, i1, i2, 0));
      Some(Number(signed && s[i0] == '-', whole, e.value.value - (i4 - i3)))
  }

  /** `x` as a whole multiple of 10^k, for `k` at most its exponent. */
  function Scaled(x: Number, k: int): int
    requires k <= x.exponent
  {
    var m := x.mantissa * Pow10(x.exponent - k);
    if x.negative then -m else m
  }

  /** Equal values, compared at the smaller of the two exponents. */
  predicate SameValue(x: Number, y: Number) {
    var k := if x.exponent < y.exponent then x.exponent else y.exponent;
    Scaled(x, k) == Scaled(y, k)
  }

  predicate IsZero(x: Number) {
    x.mantissa == 0
  }

  predicate IsOne(x: Number) {
    SameValue(x, Number(false, 1, 0))
  }

  /** PHP 8's `a == b` on two strings. */
  function LooseEquals(a: string, b: string): (r: bool)
    ensures a == b ==> r
    ensures ParseNumber(a).None? || ParseNumber(b).None? ==> (r <==> a == b)
    ensures ParseNumber(a).Some? && ParseNumber(b).Some? ==>
      (r <==> SameValue(ParseNumber(a).value, ParseNumber(b).value))
  {
    match (ParseNumber(a), ParseNumber(b))
    case (Some(x), Some(y)) => SameValue(x, y)
    case _ => a == b
  }

  /** PHP's non-strict `in_array` over strings. */
  predicate LooseIn(v: string, options: seq<string>) {
    exists i :: 0 <= i < |options| && LooseEquals(v, options[i])
  }

  /** Against a non-numeric option, loose equality is plain equality. */
  lemma LooseWord(v: string, w: string)
    requires ParseNumber(w).None?
    ensures LooseEquals(v, w) <==> v == w
  {
  }

  /** Against a numeric option, loose equality is equality of values. */
  lemma LooseNumber(v: string, w: string, y: Number)
    requires ParseNumber(w) == Some(y)
    ensures LooseEquals(v, w) <==> ParseNumber(v).Some? && SameValue(ParseNumber(v).value, y)
  {
  }

  /** Membership in a list of four options, spelled out. */
  lemma LooseInFour(v: string, options: seq<string>)
    requires |options| == 4
    ensures LooseIn(v, options) <==>
      LooseEquals(v, options[0]) || LooseEquals(v, options[1]) || LooseEquals(v, options[2]) || LooseEquals(v, options[3])
  {
    if LooseIn(v, options) {
      var i :| 0 <= i < |options| && LooseEquals(v, options[i]);
      assert i == 0 || i == 1 || i == 2 || i == 3;
    }
    var k := if LooseEquals(v, options[0]) then 0
      else if LooseEquals(v, options[1]) then 1
      else if LooseEquals(v, options[2]) then 2 else 3;
    if LooseEquals(v, options[k]) {
      assert 0 <= k < |options|;
    }
  }

  /** A scan stops exactly where the run of characters satisfying `p` ends. */
  lemma {:induction false} SkipStops(s: string, i: nat, j: nat, p: char -> bool)
    requires i <= j <= |s|
    requires forall k :: i <= k < j ==> p(s[k])
    requires j < |s| ==> !p(s[j])
    ensures Skip(s, i, p) == j
    decreases j - i
  {
    if i < j {
      SkipStops(s, i + 1, j, p);
    }
  }

  /** Zeros shift what was read before them one place each. */
  lemma {:induction false} DigitsZeros(s: string, i: nat, j: nat, acc: nat)
    requires i <= j <= |s|
    requires forall k :: i <= k < j ==> s[k] == '0'
    ensures forall k :: i <= k < j ==> IsDigit(s[k])
    ensures DigitsValue(s, i, j, acc) == acc * Pow10(j - i)
    decreases j - i
  {
    if i < j {
      DigitsZeros(s, i + 1, j, 10 * acc);
      assert Pow10(j - i) == 10 * Pow10(j - (i + 1));
    }
  }

  /** A string whose first character after the whitespace is neither a digit,
      a sign nor a point is not numeric. */
  lemma OtherStartNotNumeric(v: string, k: nat)
    requires k < |v| && forall i :: 0 <= i < k ==> IsNumericSpace(v[i])
    requires !IsNumericSpace(v[k]) && !IsDigit(v[k])
    requires v[k] != '+' && v[k] != '-' && v[k] != '.'
    ensures ParseNumber(v).None?
  {
    SkipStops(v, 0, k, IsNumericSpace);
  }

  /** "true" and "false" are not numeric, so they compare as plain strings. */
  lemma WordsNotNumeric(v: string)
    requires v == "true" || v == "false"
    ensures ParseNumber(v).None?
  {
    assert v[0] == 't' || v[0] == 'f';
    OtherStartNotNumeric(v, 0);
  }

  /** Digits without a sign, point or exponent read as their decimal value. */
  lemma IntegerLiteral(v: string)
    requires |v| > 0 && AllDigits(v)
    ensures ParseNumber(v) == Some(Number(false, DigitsValue(v, 0, |v|, 0), 0))
  {
    SkipStops(v, 0, 0, IsNumericSpace);
    SkipStops(v, 0, |v|, IsDigit);
  }

  /** One digit between whitespace reads as its value: "1" and " 1 " are one. */
  lemma PaddedDigit(v: string, k: nat)
    requires k < |v| && IsDigit(v[k])
    requires forall i :: 0 <= i < |v| && i != k ==> IsNumericSpace(v[i])
    ensures ParseNumber(v) == Some(Number(false, DigitValue(v[k]), 0))
  {
    SkipStops(v, 0, k, IsNumericSpace);
    SkipStops(v, k, k + 1, IsDigit);
    SkipStops(v, k + 1, |v|, IsNumericSpace);
    assert DigitsValue(v, k, k + 1, 0) == DigitValue(v[k]);
  }

  /** Reading digits in two stretches is reading them in one. */
  lemma {:induction false} DigitsSplit(s: string, i: nat, m: nat, j: nat, acc: nat)
    requires i <= m <= j <= |s|
    requires forall k :: i <= k < j ==> IsDigit(s[k])
    ensures DigitsValue(s, i, j, acc) == DigitsValue(s, m, j, DigitsValue(s, i, m, acc))
    decreases m - i
  {
    if i < m {
      DigitsSplit(s, i + 1, m, j, 10 * acc + DigitValue(s[i]));
    }
  }

  /** Digits, a point at `k` and digits read as all the digits' value over
      10^(digits after the point). */
  lemma PointLiteral(v: string, k: nat)
    requires 0 < k < |v| && v[k] == '.'
    requires forall i :: 0 <= i < |v| && i != k ==> IsDigit(v[i])
    ensures ParseNumber(v) ==
      Some(Number(false, DigitsValue(v, k + 1, |v|, DigitsValue(v, 0, k, 0)), -(|v| - k - 1)))
  {
    SkipStops(v, 0, 0, IsNumericSpace);
    SkipStops(v, 0, k, IsDigit);
    SkipStops(v, k + 1, |v|, IsDigit);
  }

  /** A number equals zero exactly when its mantissa is zero, whatever its sign. */
  lemma SameAsZero(x: Number)
    ensures SameValue(x, Number(false, 0, 0)) <==> IsZero(x)
  {
    var k := if x.exponent < 0 then x.exponent else 0;
    var p := Pow10(x.exponent - k);
    assert Scaled(Number(false, 0, 0), k) == 0;
    if x.mantissa > 0 {
      MulAtLeast(x.mantissa, p);
    }
  }

  lemma MulAtLeast(m: nat, p: nat)
    requires m >= 1 && p >= 1
    ensures m * p >= 1
  {
  }

  /** 10^k at exponent -k is one. */
  lemma PowerOfTenIsOne(k: nat)
    ensures IsOne(Number(false, Pow10(k), -(k as int)))
  {
    assert Scaled(Number(false, Pow10(k), -(k as int)), -(k as int)) == Pow10(k) * Pow10(0);
  }
}

=== FILE: seqs.dfy ===
/** Sequence combinators shared by the query layer: Eloquent's `where` (filter),
    `orderBy(..., 'desc')` (sort by a key, largest first), `first()` and `take`. */
module Seqs {
  import opened Wrappers

  /** `rel` holds of every ordered pair of positions `i < j`. */
  ghost predicate Pairwise<T>(s: seq<T>, rel: (T, T) -> bool) {
    forall i, j :: 0 <= i < j < |s| ==> rel(s[i], s[j])
  }

  /** Ordered by `key`, largest first (SQL `ORDER BY key DESC`). */
  ghost predicate SortedDesc<T>(s: seq<T>, key: T -> int) {
    forall i, j :: 0 <= i < j < |s| ==> key(s[i]) >= key(s[j])
  }

  /** The elements of `s` that satisfy `p`, in their original order. */
  function Filter<T>(s: seq<T>, p: T -> bool): (r: seq<T>)
    ensures |r| <= |s|
    ensures forall i :: 0 <= i < |r| ==> p(r[i])
    ensures forall i :: 0 <= i < |r| ==> r[i] in s
    ensures forall i :: 0 <= i < |s| ==> (s[i] in r <==> p(s[i]))
    ensures multiset(r) <= multiset(s)
  {
    if |s| == 0 then []
    else
      assert s == [s[0]] + s[1..];
      if p(s[0]) then [s[0]] + Filter(s[1..], p)
      else Filter(s[1..], p)
  }

  /** Filtering distributes over concatenation, so it keeps relative order. */
  lemma {:induction false} FilterAppend<T>(s: seq<T>, t: seq<T>, p: T -> bool)
    ensures Filter(s + t, p) == Filter(s, p) + Filter(t, p)
  {
    if |s| == 0 {
      assert s + t == t;
    } else {
      assert (s + t)[1..] == s[1..] + t;
      FilterAppend(s[1..], t, p);
    }
  }

  /** Filtering keeps every pairwise relation that held of the input. */
  lemma {:induction false} FilterPairwise<T>(s: seq<T>, p: T -> bool, rel: (T, T) -> bool)
    requires Pairwise(s, rel)
    ensures Pairwise(Filter(s, p), rel)
  {
    if |s| > 0 {
      var rest := Filter(s[1..], p);
      assert Pairwise(s[1..], rel) by {
        forall i, j | 0 <= i < j < |s[1..]| ensures rel(s[1..][i], s[1..][j]) {
          assert s[1..][i] == s[i + 1] && s[1..][j] == s[j + 1];
        }
      }
      FilterPairwise(s[1..], p, rel);
      if p(s[0]) {
        var r := [s[0]] + rest;
        forall i, j | 0 <= i < j < |r| ensures rel(r[i], r[j]) {
          if i == 0 {
            assert r[j] in s[1..];
            var k :| 0 <= k < |s[1..]| && s[1..][k] == r[j];
            assert s[k + 1] == r[j];
          } else {
            assert r[i] == rest[i - 1] && r[j] == rest[j - 1];
          }
        }
      }
    }
  }

  /** Filtering keeps a sequence whose every element qualifies. */
  lemma {:induction false} FilterAll<T>(s: seq<T>, p: T -> bool)
    requires forall i :: 0 <= i < |s| ==> p(s[i])
    ensures Filter(s, p) == s
  {
    if |s| > 0 {
      FilterAll(s[1..], p);
      assert s == [s[0]] + s[1..];
    }
  }

  /** Filtering empties a sequence none of whose elements qualifies. */
  lemma {:induction false} FilterNone<T>(s: seq<T>, p: T -> bool)
    requires forall i :: 0 <= i < |s| ==> !p(s[i])
    ensures Filter(s, p) == []
  {
    if |s| > 0 {
      FilterNone(s[1..], p);
    }
  }

  /** Filtering by a predicate and by its negation splits a sequence into
      two parts that together hold every element exactly once. */
  lemma {:induction false} FilterPartition<T>(s: seq<T>, p: T -> bool, q: T -> bool)
    requires forall i :: 0 <= i < |s| ==> q(s[i]) == !p(s[i])
    ensures multiset(Filter(s, p)) + multiset(Filter(s, q)) == multiset(s)
    ensures |Filter(s, p)| + |Filter(s, q)| == |s|
  {
    if |s| > 0 {
      assert s == [s[0]] + s[1..];
      FilterPartition(s[1..], p, q);
    }
    assert |multiset(Filter(s, p))| == |Filter(s, p)|;
    assert |multiset(Filter(s, q))| == |Filter(s, q)|;
  }

  /** Number of elements of `s` satisfying `p`. */
  function Count<T>(s: seq<T>, p: T -> bool): (n: nat)
    ensures n <= |s|
    ensures n == 0 <==> forall i :: 0 <= i < |s| ==> !p(s[i])
  {
    var r := Filter(s, p);
    assert n0: |r| == 0 <==> forall i :: 0 <= i < |s| ==> !p(s[i]) by {
      if |r| > 0 { assert r[0] in s; }
      if exists i :: 0 <= i < |s| && p(s[i]) {
        var i :| 0 <= i < |s| && p(s[i]);
        assert s[i] in r;
      }
    }
    |r|
  }

  /** Position of the first element satisfying `p` (Eloquent's `first()`,
      JavaScript's `Array.prototype.find`). */
  function FirstIndex<T>(s: seq<T>, p: T -> bool): (r: Option<nat>)
    ensures r.Some? ==> r.value < |s| && p(s[r.value])
    ensures r.Some? ==> forall j :: 0 <= j < r.value ==> !p(s[j])
    ensures r.None? <==> forall j :: 0 <= j < |s| ==> !p(s[j])
  {
    if |s| == 0 then None
    else if p(s[0]) then Some(0)
    else
      match FirstIndex(s[1..], p)
      case None => None
      case Some(k) => Some(k + 1)
  }

  /** Predicates that agree position by position find the same first position. */
  lemma {:induction false} FirstIndexPointwise<T, U>(s: seq<T>, p: T -> bool, t: seq<U>, q: U -> bool)
    requires |s| == |t|
    requires forall k :: 0 <= k < |s| ==> p(s[k]) == q(t[k])
    ensures FirstIndex(s, p) == FirstIndex(t, q)
  {
    if |s| > 0 {
      FirstIndexPointwise(s[1..], p, t[1..], q);
    }
  }

  /** The first element satisfying `p`, if any. */
  function First<T>(s: seq<T>, p: T -> bool): (r: Option<T>)
    ensures r.Some? ==> r.value in s && p(r.value)
    ensures r.Some? ==> exists i :: 0 <= i < |s| && s[i] == r.value && forall j :: 0 <= j < i ==> !p(s[j])
    ensures r.None? <==> forall j :: 0 <= j < |s| ==> !p(s[j])
  {
    match FirstIndex(s, p)
    case None => None
    case Some(i) => Some(s[i])
  }

  /** A match with no earlier match is what `First` returns. */
  lemma FirstAt<T>(s: seq<T>, p: T -> bool, i: nat)
    requires i < |s| && p(s[i])
    requires forall j :: 0 <= j < i ==> !p(s[j])
    ensures First(s, p) == Some(s[i])
  {
    var r := First(s, p);
    var k :| 0 <= k < |s| && s[k] == r.value && forall j :: 0 <= j < k ==> !p(s[j]);
    assert k == i;
  }

  /** The first match in `a + b` is the first in `a`, or else the first in `b`. */
  lemma FirstAppend<T>(a: seq<T>, b: seq<T>, p: T -> bool)
    ensures First(a + b, p) == if First(a, p).Some? then First(a, p) else First(b, p)
  {
    var fa := First(a, p);
    if fa.Some? {
      var i :| 0 <= i < |a| && a[i] == fa.value && forall j :: 0 <= j < i ==> !p(a[j]);
      assert forall j :: 0 <= j < i ==> (a + b)[j] == a[j];
      FirstAt(a + b, p, i);
    } else if First(b, p).Some? {
      var fb := First(b, p);
      var i :| 0 <= i < |b| && b[i] == fb.value && forall j :: 0 <= j < i ==> !p(b[j]);
      assert forall j :: 0 <= j < |a| + i ==> (a + b)[j] == if j < |a| then a[j] else b[j - |a|];
      FirstAt(a + b, p, |a| + i);
    } else {
      assert forall j :: 0 <= j < |a + b| ==> (a + b)[j] == if j < |a| then a[j] else b[j - |a|];
    }
  }

  /** `s` split as `a + t` with `t` split as `b + c` is `a + b + c`. */
  lemma Regroup<T>(s: seq<T>, a: seq<T>, t: seq<T>, b: seq<T>, c: seq<T>)
    requires s == a + t && t == b + c
    ensures s == a + b + c
  {
    assert a + (b + c) == a + b + c;
  }

  /** `f` applied to every element, in order. */
  function Map<T, U>(s: seq<T>, f: T -> U): (r: seq<U>)
    ensures |r| == |s|
    ensures forall i {:trigger r[i]} :: 0 <= i < |s| ==> r[i] == f(s[i])
  {
    seq(|s|, i requires 0 <= i < |s| => f(s[i]))
  }

  lemma MapAppend<T, U>(a: seq<T>, b: seq<T>, f: T -> U)
    ensures Map(a + b, f) == Map(a, f) + Map(b, f)
  {
    var l, r := Map(a + b, f), Map(a, f) + Map(b, f);
    forall i | 0 <= i < |l| ensures l[i] == r[i] {
      if i < |a| {
        assert (a + b)[i] == a[i];
      } else {
        assert (a + b)[i] == b[i - |a|];
      }
    }
  }

  /** Mapping keeps sub-multisets: no element can be mapped more often than it occurs. */
  lemma {:induction false} MapMultisetMono<T, U>(a: seq<T>, b: seq<T>, f: T -> U)
    requires multiset(a) <= multiset(b)
    ensures multiset(Map(a, f)) <= multiset(Map(b, f))
  {
    if |a| > 0 {
      var x := a[0];
      assert x in multiset(b);
      var k :| 0 <= k < |b| && b[k] == x;
      var rest := b[..k] + b[k + 1..];
      RemoveMatched(a, b, k);
      MapMultisetMono(a[1..], rest, f);
      MapRemove(b, k, f);
      assert Map(a, f) == [f(x)] + Map(a[1..], f);
      assert multiset(Map(a, f)) == multiset(Map(a[1..], f)) + multiset{f(x)};
      AddMono(multiset(Map(a[1..], f)), multiset(Map(rest, f)), multiset{f(x)});
    }
  }

  /** Adding the same elements to both sides keeps a sub-multiset. */
  lemma AddMono<T>(x: multiset<T>, y: multiset<T>, z: multiset<T>)
    requires x <= y
    ensures x + z <= y + z
  {
    forall e ensures (x + z)[e] <= (y + z)[e] {
      assert x[e] <= y[e];
    }
  }

  /** `s` is `s` without its `k`-th element plus that element. */
  lemma MultisetRemoveAt<T>(s: seq<T>, k: nat)
    requires k < |s|
    ensures multiset(s) == multiset(s[..k] + s[k + 1..]) + multiset{s[k]}
  {
    assert s == s[..k] + [s[k]] + s[k + 1..];
  }

  /** Matching the head of `a` with `b[k]` leaves a sub-multiset on both sides. */
  lemma RemoveMatched<T>(a: seq<T>, b: seq<T>, k: nat)
    requires multiset(a) <= multiset(b)
    requires |a| > 0 && k < |b| && b[k] == a[0]
    ensures multiset(a[1..]) <= multiset(b[..k] + b[k + 1..])
  {
    var rest := b[..k] + b[k + 1..];
    MultisetRemoveAt(b, k);
    assert a == [a[0]] + a[1..];
    assert multiset(a) == multiset{a[0]} + multiset(a[1..]);
    forall y ensures multiset(a[1..])[y] <= multiset(rest)[y] {
      assert multiset(a)[y] <= multiset(b)[y];
    }
  }

  /** Removing `b[k]` before mapping removes one `f(b[k])` after it. */
  lemma MapRemove<T, U>(b: seq<T>, k: nat, f: T -> U)
    requires k < |b|
    ensures multiset(Map(b, f)) == multiset(Map(b[..k] + b[k + 1..], f)) + multiset{f(b[k])}
  {
    MapSplitAt(b, k, f);
    MapAppend(b[..k], b[k + 1..], f);
    MultisetInsert(Map(b[..k], f), f(b[k]), Map(b[k + 1..], f));
  }

  /** Mapping a sequence maps the part before `b[k]`, `b[k]` and the part after it. */
  lemma MapSplitAt<T, U>(b: seq<T>, k: nat, f: T -> U)
    requires k < |b|
    ensures Map(b, f) == Map(b[..k], f) + [f(b[k])] + Map(b[k + 1..], f)
  {
    var pre, x, post := b[..k], [b[k]], b[k + 1..];
    assert b == pre + x + post;
    MapAppend(pre + x, post, f);
    MapAppend(pre, x, f);
  }

  /** One element inserted between two sequences adds one occurrence. */
  lemma MultisetInsert<T>(a: seq<T>, x: T, c: seq<T>)
    ensures multiset(a + [x] + c) == multiset(a + c) + multiset{x}
  {
    assert multiset(a + [x] + c) == multiset(a) + multiset([x]) + multiset(c);
  }

  /** At most the first `n` elements (Eloquent's `take`). */
  function Take<T>(s: seq<T>, n: nat): (r: seq<T>)
    ensures |r| == if n < |s| then n else |s|
    ensures forall i :: 0 <= i < |r| ==> r[i] == s[i]
  {
    if n < |s| then s[..n] else s
  }

  /** Inserts `x` into a list ordered by `key` (largest first). */
  function InsertDesc<T>(x: T, s: seq<T>, key: T -> int): (r: seq<T>)
    requires SortedDesc(s, key)
    ensures SortedDesc(r, key)
    ensures multiset(r) == multiset(s) + multiset{x}
    ensures |r| == |s| + 1
    ensures r[0] == x || (|s| > 0 && r[0] == s[0])
  {
    if |s| == 0 then [x]
    else if key(x) >= key(s[0]) then
      SortedCons(x, s, key);
      [x] + s
    else
      assert s == [s[0]] + s[1..];
      var rest := InsertDesc(x, s[1..], key);
      assert |s| > 1 ==> key(s[0]) >= key(s[1]);
      SortedCons(s[0], rest, key);
      [s[0]] + rest
  }

  /** Putting an element no smaller than the head in front keeps a list ordered. */
  lemma SortedCons<T>(h: T, t: seq<T>, key: T -> int)
    requires SortedDesc(t, key)
    requires |t| > 0 ==> key(h) >= key(t[0])
    ensures SortedDesc([h] + t, key)
  {
    var r := [h] + t;
    forall i, j | 0 <= i < j < |r| ensures key(r[i]) >= key(r[j]) {
      assert r[j] == t[j - 1];
      if i > 0 {
        assert r[i] == t[i - 1];
      } else if j > 1 {
        assert key(t[0]) >= key(t[j - 1]);
      }
    }
  }

  /** `s` reordered by `key`, largest first. */
  function SortDesc<T>(s: seq<T>, key: T -> int): (r: seq<T>)
    ensures SortedDesc(r, key)
    ensures multiset(r) == multiset(s)
    ensures |r| == |s|
  {
    if |s| == 0 then []
    else
      assert s == [s[0]] + s[1..];
      InsertDesc(s[0], SortDesc(s[1..], key), key)
  }

  /** Sorting keeps the same elements. */
  lemma SortDescMembers<T>(s: seq<T>, key: T -> int)
    ensures forall x :: x in SortDesc(s, key) <==> x in s
  {
    var r := SortDesc(s, key);
    forall x ensures x in r <==> x in s {
      assert x in r <==> x in multiset(r);
      assert x in s <==> x in multiset(s);
    }
  }

  /** The `n` elements of `s` with the greatest keys, greatest first
      (`orderBy(key, 'desc')->take(n)`): anything left out has a key no
      greater than any kept one. */
  function TopByKey<T>(s: seq<T>, key: T -> int, n: nat): (r: seq<T>)
    ensures |r| == if n < |s| then n else |s|
    ensures SortedDesc(r, key)
    ensures multiset(r) <= multiset(s)
    ensures forall i :: 0 <= i < |r| ==> r[i] in s
    ensures forall j :: 0 <= j < |s| && s[j] !in r ==>
      forall i :: 0 <= i < |r| ==> key(s[j]) <= key(r[i])
  {
    var sorted := SortDesc(s, key);
    var r := Take(sorted, n);
    assert r == sorted[..|r|];
    PrefixWithin(sorted, |r|, s);
    PrefixDominates(sorted, |r|, key);
    SortDescMembers(s, key);
    r
  }

  /** A prefix of a permutation of `s` is a sub-multiset of `s`. */
  lemma PrefixWithin<T>(sorted: seq<T>, m: nat, s: seq<T>)
    requires m <= |sorted| && multiset(sorted) == multiset(s)
    ensures multiset(sorted[..m]) <= multiset(s)
    ensures forall i :: 0 <= i < m ==> sorted[i] in s
  {
    assert sorted == sorted[..m] + sorted[m..];
    assert multiset(sorted) == multiset(sorted[..m]) + multiset(sorted[m..]);
    forall i | 0 <= i < m ensures sorted[i] in s {
      assert sorted[i] in multiset(s);
    }
  }

  /** In a list sorted largest first, an element outside the first `m` has a
      key no greater than any of them. */
  lemma PrefixDominates<T>(sorted: seq<T>, m: nat, key: T -> int)
    requires m <= |sorted| && SortedDesc(sorted, key)
    ensures forall x :: x in sorted && x !in sorted[..m] ==>
      forall i :: 0 <= i < m ==> key(x) <= key(sorted[i])
  {
    forall x | x in sorted && x !in sorted[..m]
      ensures forall i :: 0 <= i < m ==> key(x) <= key(sorted[i])
    {
      var k :| 0 <= k < |sorted| && sorted[k] == x;
      assert k >= m;
    }
  }
}

=== FILE: session_api.dfy ===
/** The student API's session endpoints: the newest sessions with their
    material and attendance window, and a single session in detail. */
module SessionApi {
  import opened Wrappers
  import Seqs
  import opened AttendanceSessions
  import opened Materials

  /** The material attached to a session as the responses embed it; the
      detailed form (single session) also carries the description. */
  datatype MaterialRef =
    | Brief(id: nat, title: string, fileUrl: Option<string>, link: Option<string>)
    | Detailed(id: nat, title: string, description: Option<string>, fileUrl: Option<string>, link: Option<string>)

  /** One session as the API returns it. */
  datatype SessionView = SessionView(
    id: nat,
    weekName: string,
    sessionDate: int,
    material: Option<MaterialRef>,
    attendanceOpen: bool,
    remainingMinutes: Option<int>)

  /** The material a session refers to, if it (still) exists. */
  function MaterialOf(s: Session, ms: seq<Material>): (r: Option<Material>)
    ensures r.Some? ==> s.materialId.Some? && r.value.id == s.materialId.value && r.value in ms
    ensures r.None? <==> s.materialId.None? || forall k :: 0 <= k < |ms| ==> ms[k].id != s.materialId.value
  {
    if s.materialId.None? then None
    else Seqs.First(ms, (m: Material) => m.id == s.materialId.value)
  }

  function BriefRef(m: Material): MaterialRef {
    Brief(m.id, m.title, FileUrl(m.filePath), m.link)
  }

  function DetailedRef(m: Material): MaterialRef {
    Detailed(m.id, m.title, m.description, FileUrl(m.filePath), m.link)
  }

  /** A session's view with the material in the given form. */
  function ViewWith(s: Session, ms: seq<Material>, now: int, detailed: bool): (v: SessionView)
    ensures v.id == s.id && v.weekName == s.weekName && v.sessionDate == s.sessionDate
    ensures v.attendanceOpen <==> s.openedAt.Some? && s.openedAt.value <= now <= s.openedAt.value + WINDOW_MINUTES
    ensures v.remainingMinutes.None? <==> s.openedAt.None?
    ensures v.attendanceOpen ==> v.remainingMinutes == Some(s.openedAt.value + WINDOW_MINUTES - now)
    ensures v.material.None? <==> MaterialOf(s, ms).None?
    ensures v.material.Some? ==> v.material.value.id == s.materialId.value
    ensures v.material.Some? ==> (v.material.value.Detailed? <==> detailed)
    ensures v.attendanceOpen == IsOpen(s, now) && v.remainingMinutes == RemainingMinutes(s, now)
    ensures MaterialOf(s, ms).Some? ==>
      var m := MaterialOf(s, ms).value;
      v.material.value.title == m.title && v.material.value.fileUrl == FileUrl(m.filePath) && v.material.value.link == m.link
  {
    var m := MaterialOf(s, ms);
    var ref := if m.None? then None else if detailed then Some(DetailedRef(m.value)) else Some(BriefRef(m.value));
    SessionView(s.id, s.weekName, s.sessionDate, ref, IsOpen(s, now), RemainingMinutes(s, now))
  }

  function SessionDate(s: Session): int {
    s.sessionDate
  }

  /** Each session's list view, in order. */
  function Briefs(sessions: seq<Session>, ms: seq<Material>, now: int): (r: seq<SessionView>)
    ensures |r| == |sessions|
    ensures forall i :: 0 <= i < |r| ==> r[i] == ViewWith(sessions[i], ms, now, false)
  {
    Seqs.Map(sessions, (x: Session) => ViewWith(x, ms, now, false))
  }

  /** The `sessions` endpoint: at most `limit` sessions (10 when unspecified),
      latest date first; every session that is left out is no later than
      every one returned. */
  function SessionsList(sessions: seq<Session>, ms: seq<Material>, limit: Option<nat>, now: int): (r: seq<SessionView>)
    ensures |r| == if limit.GetOr(DEFAULT_LIMIT) < |sessions| then limit.GetOr(DEFAULT_LIMIT) else |sessions|
    ensures forall i :: 0 <= i < |r| ==> exists k :: 0 <= k < |sessions| && r[i] == ViewWith(sessions[k], ms, now, false)
    ensures multiset(r) <= multiset(Briefs(sessions, ms, now))
    ensures forall i, j :: 0 <= i < j < |r| ==> r[i].sessionDate >= r[j].sessionDate
    ensures forall k :: 0 <= k < |sessions| && ViewWith(sessions[k], ms, now, false) !in r ==>
      forall i :: 0 <= i < |r| ==> sessions[k].sessionDate <= r[i].sessionDate
  {
    var n := limit.GetOr(DEFAULT_LIMIT);
    BriefsOfTop(sessions, ms, n, now);
    Briefs(Seqs.TopByKey(sessions, SessionDate, n), ms, now)
  }

  /** The list views of the `n` latest sessions: each the view of a stored
      session, none repeated, latest first, and anything left out no later. */
  lemma BriefsOfTop(sessions: seq<Session>, ms: seq<Material>, n: nat, now: int)
    ensures var r := Briefs(Seqs.TopByKey(sessions, SessionDate, n), ms, now);
      forall i :: 0 <= i < |r| ==> exists k :: 0 <= k < |sessions| && r[i] == ViewWith(sessions[k], ms, now, false)
    ensures multiset(Briefs(Seqs.TopByKey(sessions, SessionDate, n), ms, now)) <= multiset(Briefs(sessions, ms, now))
    ensures var r := Briefs(Seqs.TopByKey(sessions, SessionDate, n), ms, now);
      forall i, j :: 0 <= i < j < |r| ==> r[i].sessionDate >= r[j].sessionDate
    ensures var r := Briefs(Seqs.TopByKey(sessions, SessionDate, n), ms, now);
      forall k :: 0 <= k < |sessions| && ViewWith(sessions[k], ms, now, false) !in r ==>
        forall i :: 0 <= i < |r| ==> sessions[k].sessionDate <= r[i].sessionDate
  {
    var chosen := Seqs.TopByKey(sessions, SessionDate, n);
    var r := Briefs(chosen, ms, now);
    BriefsMultisetMono(chosen, sessions, ms, now);
    forall i | 0 <= i < |r| ensures exists k :: 0 <= k < |sessions| && r[i] == ViewWith(sessions[k], ms, now, false) {
      assert chosen[i] in sessions;
    }
    forall i, j | 0 <= i < j < |r| ensures r[i].sessionDate >= r[j].sessionDate {
      assert SessionDate(chosen[i]) >= SessionDate(chosen[j]);
    }
    forall k | 0 <= k < |sessions| && ViewWith(sessions[k], ms, now, false) !in r
      ensures forall i :: 0 <= i < |r| ==> sessions[k].sessionDate <= r[i].sessionDate
    {
      assert sessions[k] !in chosen by {
        forall i | 0 <= i < |chosen| ensures chosen[i] != sessions[k] {
          assert r[i] == ViewWith(chosen[i], ms, now, false);
        }
      }
    }
  }

  /** Listing keeps sub-multisets: no view repeats more often than its session. */
  lemma BriefsMultisetMono(a: seq<Session>, b: seq<Session>, ms: seq<Material>, now: int)
    requires multiset(a) <= multiset(b)
    ensures multiset(Briefs(a, ms, now)) <= multiset(Briefs(b, ms, now))
  {
    Seqs.MapMultisetMono(a, b, (x: Session) => ViewWith(x, ms, now, false));
    assert Briefs(a, ms, now) == Seqs.Map(a, (x: Session) => ViewWith(x, ms, now, false));
    assert Briefs(b, ms, now) == Seqs.Map(b, (x: Session) => ViewWith(x, ms, now, false));
  }

  /** The `show` endpoint: one session with its window state and, when it
      still exists, its material in detail. */
  function Show(s: Session, ms: seq<Material>, now: int): (v: SessionView)
    ensures v.id == s.id && v.weekName == s.weekName && v.sessionDate == s.sessionDate
    ensures v.attendanceOpen == IsOpen(s, now) && v.remainingMinutes == RemainingMinutes(s, now)
    ensures v.material.Some? <==> MaterialOf(s, ms).Some?
    ensures MaterialOf(s, ms).Some? ==>
      var m := MaterialOf(s, ms).value;
      v.material == Some(Detailed(m.id, m.title, m.description, FileUrl(m.filePath), m.link))
    ensures v == ViewWith(s, ms, now, true)
  {
    ViewWith(s, ms, now, true)
  }

  /** The list and the detail agree on everything but the material's form. */
  lemma ListAndShowAgree(s: Session, ms: seq<Material>, now: int)
    ensures var brief := ViewWith(s, ms, now, false);
      var full := Show(s, ms, now);
      && brief.attendanceOpen == full.attendanceOpen
      && brief.remainingMinutes == full.remainingMinutes
      && brief.material.None? == full.material.None?
  {
  }

  /** A session whose material has been deleted is shown without one. */
  lemma DeletedMaterialShowsNone(s: Session, ms: seq<Material>, now: int)
    requires s.materialId.Some?
    requires forall k :: 0 <= k < |ms| ==> ms[k].id != s.materialId.value
    ensures Show(s, ms, now).material.None?
  {
  }
}

=== FILE: session_resource.dfy ===
/** The staff-side actions on a session: the create/edit form and the
    "open attendance" / "close attendance" table actions. */
module SessionResource {
  import opened Wrappers
  import opened AttendanceSessions
  import Text

  const WEEK_NAME_MAX: nat := 50

  /** The form as submitted; absent fields were left empty. */
  datatype SessionForm = SessionForm(weekName: Option<string>, sessionDate: Option<int>, materialId: Option<nat>)

  datatype FormField = WeekName | SessionDate

  /** Laravel's `required` for a text input: present and not blank. */
  predicate Filled(v: Option<string>) {
    v.Some? && !Text.Blank(v.value)
  }

  /** The fields that fail validation, in form order: the name is required and
      at most 50 characters, the date is required, the material is optional. */
  function FormErrors(f: SessionForm): (errs: seq<FormField>)
    ensures WeekName in errs <==> !Filled(f.weekName) || |f.weekName.value| > WEEK_NAME_MAX
    ensures SessionDate in errs <==> f.sessionDate.None?
  {
    (if !Filled(f.weekName) || |f.weekName.value| > WEEK_NAME_MAX then [WeekName] else [])
    + (if f.sessionDate.None? then [SessionDate] else [])
  }

  /** Creating a session: a valid form gives a session whose window is closed. */
  function Create(f: SessionForm, id: nat): (r: Result<Session, seq<FormField>>)
    ensures r.Success? <==> |FormErrors(f)| == 0
    ensures r.Failure? ==> r.error == FormErrors(f) && |r.error| > 0
    ensures r.Success? ==> r.value.id == id && r.value.openedAt.None?
    ensures r.Success? ==> r.value.weekName == f.weekName.value && 0 < |r.value.weekName| <= WEEK_NAME_MAX
    ensures r.Success? ==> r.value.sessionDate == f.sessionDate.value && r.value.materialId == f.materialId
  {
    var errs := FormErrors(f);
    if |errs| > 0 then Failure(errs)
    else Success(Session(id, f.weekName.value, f.sessionDate.value, f.materialId, None))
  }

  /** Editing a session through the same form keeps its window untouched. */
  function Edit(s: Session, f: SessionForm): (r: Result<Session, seq<FormField>>)
    ensures r.Success? <==> |FormErrors(f)| == 0
    ensures r.Success? ==> r.value.id == s.id && r.value.openedAt == s.openedAt
    ensures r.Success? ==> r.value.weekName == f.weekName.value && r.value.sessionDate == f.sessionDate.value
    ensures r.Success? ==> r.value.materialId == f.materialId
  {
    var errs := FormErrors(f);
    if |errs| > 0 then Failure(errs)
    else Success(s.(weekName := f.weekName.value, sessionDate := f.sessionDate.value, materialId := f.materialId))
  }

  /** `open_attendance`: the opening time becomes now, whatever it was. */
  function Open(s: Session, now: int): (r: Session)
    ensures IsOpen(r, now)
    ensures forall t :: now <= t <= now + WINDOW_MINUTES ==> IsOpen(r, t)
    ensures RemainingMinutes(r, now) == Some(WINDOW_MINUTES)
    ensures r.id == s.id && r.weekName == s.weekName && r.sessionDate == s.sessionDate && r.materialId == s.materialId
  {
    s.(openedAt := Some(now))
  }

  /** `close_attendance`: the opening time is cleared. */
  function Close(s: Session): (r: Session)
    ensures forall t :: !IsOpen(r, t) && RemainingMinutes(r, t).None?
    ensures r.id == s.id && r.weekName == s.weekName && r.sessionDate == s.sessionDate && r.materialId == s.materialId
  {
    s.(openedAt := None)
  }

  /** The close action is shown only while the window is open. */
  function CloseVisible(s: Session, now: int): (visible: bool)
    ensures visible ==> s.openedAt.Some? && now - s.openedAt.value <= WINDOW_MINUTES
    ensures visible <==> IsOpen(s, now)
  {
    IsOpen(s, now)
  }

  /** Closing is idempotent. */
  lemma CloseIdempotent(s: Session)
    ensures Close(Close(s)) == Close(s)
  {
  }

  /** Re-opening an open or expired session restarts the window from the new time. */
  lemma ReopenRestartsWindow(s: Session, first: int, now: int)
    requires first < now
    ensures IsOpen(Open(Open(s, first), now), now + WINDOW_MINUTES)
    ensures RemainingMinutes(Open(Open(s, first), now), now) == Some(WINDOW_MINUTES)
  {
  }

  /** Once expired the close action is hidden, although the opening time is
      still recorded; closing is still possible and harmless. */
  lemma ExpiredHidesClose(s: Session, now: int)
    requires s.openedAt.Some? && now > s.openedAt.value + WINDOW_MINUTES
    ensures !CloseVisible(s, now) && s.openedAt.Some?
    ensures Close(s) == Close(Close(s))
  {
  }

  /** A closed session reopened is open again immediately. */
  lemma OpenAfterClose(s: Session, now: int)
    ensures IsOpen(Open(Close(s), now), now)
    ensures Close(Open(s, now)) == Close(s)
  {
  }
}

=== FILE: settings.dfy ===
/** The `settings` key/value table: one nullable text value per unique key,
    read through defaulting getters. */
module Settings {
  import opened Wrappers
  import Text

  /** Key to stored value; a present key may hold a null value. */
  type Table = map<string, Option<string>>

  const GEOFENCING_ENABLED: string := "geofencing_enabled"
  const CAMPUS_LATITUDE: string := "campus_latitude"
  const CAMPUS_LONGITUDE: string := "campus_longitude"
  const MAX_DISTANCE_METERS: string := "max_distance_meters"

  /** The four rows the settings migration inserts. */
  const SEEDED: Table := map[
    GEOFENCING_ENABLED := Some("true"),
    CAMPUS_LATITUDE := Some("-6.200000"),
    CAMPUS_LONGITUDE := Some("106.816666"),
    MAX_DISTANCE_METERS := Some("100")]

  /** `Setting::get`: the stored value when a row exists (even a null one),
      otherwise `default`. */
  function Get(t: Table, key: string, default: Option<string>): (r: Option<string>)
    ensures key in t ==> r == t[key]
    ensures key !in t ==> r == default
  {
    if key in t then t[key] else default
  }

  /** `Setting::set`: insert or overwrite the row for `key`. */
  function Set(t: Table, key: string, value: Option<string>): (r: Table)
    ensures r.Keys == t.Keys + {key}
    ensures r[key] == value
    ensures forall k :: k in t && k != key ==> r[k] == t[k]
  {
    t[key := value]
  }

  /** PHP's `filter_var($v, FILTER_VALIDATE_BOOLEAN)` without the null-on-failure
      flag: after trimming, "1", "true", "on" and "yes" in any letter case are
      true; everything else, including unrecognised text, is false. */
  function FilterBool(v: string): (b: bool)
    ensures b <==> Text.Lower(Text.Trim(v, Text.IsFilterSpace)) in {"1", "true", "on", "yes"}
    ensures forall pre: string, w: string, post: string {:trigger pre + w + post} ::
      && v == pre + w + post
      && (forall i :: 0 <= i < |pre| ==> Text.IsFilterSpace(pre[i]))
      && (forall i :: 0 <= i < |post| ==> Text.IsFilterSpace(post[i]))
      && |w| > 0 && !Text.IsFilterSpace(w[0]) && !Text.IsFilterSpace(w[|w| - 1])
      ==> (b <==> Text.Lower(w) in {"1", "true", "on", "yes"})
  {
    forall pre: string, w: string, post: string |
      && v == pre + w + post
      && (forall i :: 0 <= i < |pre| ==> Text.IsFilterSpace(pre[i]))
      && (forall i :: 0 <= i < |post| ==> Text.IsFilterSpace(post[i]))
      && |w| > 0 && !Text.IsFilterSpace(w[0]) && !Text.IsFilterSpace(w[|w| - 1])
      ensures Text.Trim(v, Text.IsFilterSpace) == w
    {
      Text.TrimSurrounded(pre, w, post, Text.IsFilterSpace);
    }
    var w := Text.Lower(Text.Trim(v, Text.IsFilterSpace));
    w == "1" || w == "true" || w == "on" || w == "yes"
  }

  /** `Setting::getBool`: the default when the key is missing or null. */
  function GetBool(t: Table, key: string, default: bool): (b: bool)
    ensures (key !in t || t[key].None?) ==> b == default
    ensures key in t && t[key].Some? ==> b == FilterBool(t[key].value)
  {
    match Get(t, key, None)
    case None => default
    case Some(v) => FilterBool(v)
  }

  /** `Setting::getFloat`: the default when the key is missing or null, otherwise
      the value converted by PHP's `(float)` cast, which is a parameter here. */
  function GetFloat(t: Table, key: string, default: real, toFloat: string -> real): (x: real)
    ensures (key !in t || t[key].None?) ==> x == default
    ensures key in t && t[key].Some? ==> x == toFloat(t[key].value)
  {
    match Get(t, key, None)
    case None => default
    case Some(v) => toFloat(v)
  }

  /** A read after a write returns what was written, new key or not. */
  lemma SetThenGet(t: Table, key: string, value: Option<string>, default: Option<string>)
    ensures Get(Set(t, key, value), key, default) == value
  {
  }

  /** A write leaves every other key's reading unchanged. */
  lemma SetFrame(t: Table, key: string, value: Option<string>, other: string, default: Option<string>)
    requires other != key
    ensures Get(Set(t, key, value), other, default) == Get(t, other, default)
  {
  }

  /** A stored null is returned as null, not replaced by the default. */
  lemma StoredNullWins(t: Table, key: string, default: Option<string>)
    requires key in t && t[key].None?
    ensures Get(t, key, default) == None
  {
  }

  /** A word that has no surrounding whitespace and no capitals is read as is. */
  lemma FilterBoolPlain(v: string)
    requires |v| > 0 ==> !Text.IsFilterSpace(v[0]) && !Text.IsFilterSpace(v[|v| - 1])
    requires forall i :: 0 <= i < |v| ==> !Text.IsUpper(v[i])
    ensures FilterBool(v) <==> v in {"1", "true", "on", "yes"}
  {
    Text.TrimUntrimmed(v, Text.IsFilterSpace);
    Text.LowerUncapitalised(v);
  }

  /** The four literals a check-in's `face_detected` may take are read as
      "true" and "1" meaning true, "false" and "0" meaning false. */
  lemma FilterBoolFaceLiterals(v: string)
    requires v in {"true", "false", "1", "0"}
    ensures FilterBool(v) <==> v == "true" || v == "1"
  {
    FilterBoolLowerWord(v);
  }

  /** A word made of lower-case letters and digits is read as is. */
  lemma FilterBoolLowerWord(v: string)
    requires forall i :: 0 <= i < |v| ==> 'a' <= v[i] <= 'z' || Text.IsDigit(v[i])
    ensures FilterBool(v) <==> v in {"1", "true", "on", "yes"}
  {
    FilterBoolPlain(v);
  }

  /** Letter case does not matter: a value without surrounding whitespace
      reads the same as its lower-cased form. */
  lemma FilterBoolIgnoresCase(v: string)
    requires |v| > 0 ==> !Text.IsFilterSpace(v[0]) && !Text.IsFilterSpace(v[|v| - 1])
    ensures FilterBool(v) == FilterBool(Text.Lower(v))
  {
    var l := Text.Lower(v);
    Text.TrimUntrimmed(v, Text.IsFilterSpace);
    Text.LowerKeepsEdges(v);
    Text.TrimUntrimmed(l, Text.IsFilterSpace);
    Text.LowerIdempotent(v);
  }

  /** Whitespace around a value does not matter. */
  lemma FilterBoolIgnoresSpace(pre: string, w: string, post: string)
    requires forall i :: 0 <= i < |pre| ==> Text.IsFilterSpace(pre[i])
    requires forall i :: 0 <= i < |post| ==> Text.IsFilterSpace(post[i])
    requires |w| > 0 && !Text.IsFilterSpace(w[0]) && !Text.IsFilterSpace(w[|w| - 1])
    ensures FilterBool(pre + w + post) == FilterBool(w)
  {
    Text.TrimSurrounded(pre, w, post, Text.IsFilterSpace);
    Text.TrimUntrimmed(w, Text.IsFilterSpace);
  }

  /** NUL is not whitespace to `filter_var`: a value ending in NUL never reads
      as true, although PHP's `trim` would strip it. */
  lemma FilterBoolTrailingNul(v: string)
    ensures !FilterBool(v + ['\0'])
  {
    var s := v + ['\0'];
    assert s[|s| - 1] == '\0';
    Text.TrimKeepsLast(s, Text.IsFilterSpace);
    var t := Text.Trim(s, Text.IsFilterSpace);
    var w := Text.Lower(t);
    assert w[|w| - 1] == Text.LowerChar(t[|t| - 1]) == '\0';
    NotTrueWord(w);
  }

  /** No spelling of true ends in NUL. */
  lemma NotTrueWord(w: string)
    requires |w| > 0 && w[|w| - 1] == '\0'
    ensures w !in {"1", "true", "on", "yes"}
  {
  }

  /** The seeded table has geofencing switched on. */
  lemma SeededGeofencingEnabled()
    ensures GetBool(SEEDED, GEOFENCING_ENABLED, false)
  {
    var v := SEEDED[GEOFENCING_ENABLED].value;
    assert v == "true";
    FilterBoolPlain(v);
  }
}

=== FILE: text.dfy ===
/** Character-level string helpers shared by the backend and the web client:
    ASCII case folding, substring search, digit extraction and decimal
    values, whitespace trimming and the extension part of a file path. */
module Text {
  import opened Wrappers
  import Seqs

  /** PHP truthiness of a nullable string: null, "" and "0" are false. */
  predicate PhpTruthy(v: Option<string>) {
    v.Some? && v.value != "" && v.value != "0"
  }

  /** JavaScript truthiness of an optional string: undefined and "" are false. */
  predicate JsTruthy(v: Option<string>) {
    v.Some? && v.value != ""
  }

  predicate IsDigit(c: char) {
    '0' <= c <= '9'
  }

  predicate IsUpper(c: char) {
    'A' <= c <= 'Z'
  }

  /** ASCII lower-casing of one character (PHP's `strtolower`). */
  function LowerChar(c: char): (r: char)
    ensures !IsUpper(r)
    ensures !IsUpper(c) ==> r == c
  {
    if IsUpper(c) then (c as int + 32) as char else c
  }

  function Lower(s: string): (r: string)
    ensures |r| == |s|
    ensures forall i :: 0 <= i < |s| ==> r[i] == LowerChar(s[i])
  {
    if |s| == 0 then "" else [LowerChar(s[0])] + Lower(s[1..])
  }

  /** Lower-casing twice is lower-casing once. */
  lemma LowerIdempotent(s: string)
    ensures Lower(Lower(s)) == Lower(s)
  {
  }

  /** `sub` occurs in `s` at position `i`. */
  predicate OccursAt(s: string, sub: string, i: nat) {
    i + |sub| <= |s| && s[i..i + |sub|] == sub
  }

  /** Substring test (PHP's `str_contains`, JavaScript's `includes`). */
  function Contains(s: string, sub: string): (r: bool)
    ensures r <==> exists i: nat :: OccursAt(s, sub, i)
  {
    if |sub| <= |s| && s[..|sub|] == sub then
      assert OccursAt(s, sub, 0);
      true
    else if |s| == 0 then
      assert forall i: nat :: !OccursAt(s, sub, i);
      false
    else
      var r := Contains(s[1..], sub);
      assert r ==> exists i: nat :: OccursAt(s, sub, i) by {
        if r {
          var i: nat :| OccursAt(s[1..], sub, i);
          assert s[i + 1..i + 1 + |sub|] == s[1..][i..i + |sub|];
          assert OccursAt(s, sub, i + 1);
        }
      }
      assert (exists i: nat :: OccursAt(s, sub, i)) ==> r by {
        if exists i: nat :: OccursAt(s, sub, i) {
          var i: nat :| OccursAt(s, sub, i);
          assert i != 0;
          assert s[1..][i - 1..i - 1 + |sub|] == s[i..i + |sub|];
          assert OccursAt(s[1..], sub, i - 1);
        }
      }
      r
  }

  /** Every string contains the empty string. */
  lemma ContainsEmpty(s: string)
    ensures Contains(s, "")
  {
    assert OccursAt(s, "", 0);
  }

  /** The digits of `s`, in order (JavaScript's `s.replace(/\D/g, "")`). */
  function Digits(s: string): (r: string)
    ensures forall i :: 0 <= i < |r| ==> IsDigit(r[i])
    ensures |r| <= |s|
  {
    Seqs.Filter(s, IsDigit)
  }

  function DigitValue(c: char): (d: nat)
    requires IsDigit(c)
    ensures d < 10
  {
    c as int - '0' as int
  }

  function DigitChar(d: nat): (c: char)
    requires d < 10
    ensures IsDigit(c) && DigitValue(c) == d
  {
    ('0' as int + d) as char
  }

  /** Decimal value of a string of digits; 0 for the empty string. */
  function DecimalValue(ds: string): nat
    requires forall i :: 0 <= i < |ds| ==> IsDigit(ds[i])
  {
    if |ds| == 0 then 0
    else DecimalValue(ds[..|ds| - 1]) * 10 + DigitValue(ds[|ds| - 1])
  }

  /** A string of zeros is worth nothing. */
  lemma {:induction false} DecimalValueZeros(zeros: string)
    requires forall i :: 0 <= i < |zeros| ==> zeros[i] == '0'
    ensures forall i :: 0 <= i < |zeros| ==> IsDigit(zeros[i])
    ensures DecimalValue(zeros) == 0
  {
    if |zeros| > 0 {
      DecimalValueZeros(zeros[..|zeros| - 1]);
    }
  }

  function Pow10(n: nat): (p: nat)
    ensures p >= 1
  {
    if n == 0 then 1 else 10 * Pow10(n - 1)
  }

  lemma ShiftDigit(a: int, p: int, b: int, d: int)
    ensures (a * p + b) * 10 + d == a * (10 * p) + (b * 10 + d)
  {
  }

  /** Concatenating digit strings concatenates their decimal values. */
  lemma {:induction false} DecimalValueAppend(a: string, b: string)
    requires forall i :: 0 <= i < |a| ==> IsDigit(a[i])
    requires forall i :: 0 <= i < |b| ==> IsDigit(b[i])
    ensures forall i :: 0 <= i < |a + b| ==> IsDigit((a + b)[i])
    ensures DecimalValue(a + b) == DecimalValue(a) * Pow10(|b|) + DecimalValue(b)
  {
    if |b| == 0 {
      assert a + b == a;
    } else {
      var b' := b[..|b| - 1];
      assert (a + b)[..|a + b| - 1] == a + b';
      assert (a + b)[|a + b| - 1] == b[|b| - 1];
      DecimalValueAppend(a, b');
      var A, P, B, d := DecimalValue(a), Pow10(|b'|), DecimalValue(b'), DigitValue(b[|b| - 1]);
      assert DecimalValue(a + b) == DecimalValue(a + b') * 10 + d;
      assert DecimalValue(a + b') == A * P + B;
      assert Pow10(|b|) == 10 * P;
      assert b[..|b| - 1] == b';
      assert DecimalValue(b) == B * 10 + d;
      ShiftDigit(A, P, B, d);
    }
  }

  /** Decimal rendering of a natural number (JavaScript's template `${n}`). */
  function NatToString(n: nat): (s: string)
    ensures |s| >= 1
    ensures forall i :: 0 <= i < |s| ==> IsDigit(s[i])
  {
    if n < 10 then [DigitChar(n)] else NatToString(n / 10) + [DigitChar(n % 10)]
  }

  /** The decimal spelling of a number has no leading zero. */
  lemma {:induction false} NatToStringNoLeadingZero(n: nat)
    ensures NatToString(n)[0] == '0' <==> n == 0
  {
    if n >= 10 {
      NatToStringNoLeadingZero(n / 10);
    }
  }

  /** Reading back the rendering of `n` gives `n`. */
  lemma {:induction false} DecimalValueOfNatToString(n: nat)
    ensures DecimalValue(NatToString(n)) == n
  {
    var s := NatToString(n);
    if n >= 10 {
      assert s[..|s| - 1] == NatToString(n / 10);
      DecimalValueOfNatToString(n / 10);
    }
  }

  /** PHP's default `trim` character set. */
  predicate IsTrimmable(c: char) {
    c == ' ' || c == '\t' || c == '\n' || c == '\r' || c == '\0' || c == '\U{000B}'
  }

  /** The characters `filter_var` strips before validating (its own trim,
      which unlike `trim` keeps NUL). */
  predicate IsFilterSpace(c: char) {
    c == ' ' || c == '\t' || c == '\r' || c == '\U{000B}' || c == '\n'
  }

  /** How many of the leading characters of `s` are in the set `ws`. */
  function LeadingCount(s: string, ws: char -> bool): (n: nat)
    ensures n <= |s|
    ensures forall i :: 0 <= i < n ==> ws(s[i])
    ensures n < |s| ==> !ws(s[n])
  {
    if |s| > 0 && ws(s[0]) then 1 + LeadingCount(s[1..], ws) else 0
  }

  /** How many of the trailing characters of `s` are in the set `ws`. */
  function TrailingCount(s: string, ws: char -> bool): (n: nat)
    ensures n <= |s|
    ensures forall i :: |s| - n <= i < |s| ==> ws(s[i])
    ensures n < |s| ==> !ws(s[|s| - n - 1])
  {
    if |s| > 0 && ws(s[|s| - 1]) then 1 + TrailingCount(s[..|s| - 1], ws) else 0
  }

  /** `s` without its leading characters from the set `ws`. */
  function TrimStart(s: string, ws: char -> bool): (r: string)
    ensures |r| <= |s|
    ensures forall i :: 0 <= i < |s| - |r| ==> ws(s[i])
    ensures |r| > 0 ==> !ws(r[0])
  {
    s[LeadingCount(s, ws)..]
  }

  /** `s` without its trailing characters from the set `ws`. */
  function TrimEnd(s: string, ws: char -> bool): (r: string)
    ensures |r| <= |s| && s[..|r|] == r
    ensures forall i :: |r| <= i < |s| ==> ws(s[i])
    ensures |r| > 0 ==> !ws(r[|r| - 1])
  {
    s[..|s| - TrailingCount(s, ws)]
  }

  /** `s` with leading and trailing characters from `ws` removed: PHP's `trim`
      with `IsTrimmable`, `filter_var`'s trim with `IsFilterSpace`. */
  function Trim(s: string, ws: char -> bool): (r: string)
    ensures |r| <= |s|
    ensures |r| > 0 ==> !ws(r[0]) && !ws(r[|r| - 1])
  {
    var t := TrimStart(s, ws);
    var r := TrimEnd(t, ws);
    assert |t| > 0 ==> !ws(t[0]);
    assert |r| > 0 ==> r[0] == t[0];
    r
  }

  /** Trimming a string that neither starts nor ends with whitespace changes nothing. */
  lemma TrimUntrimmed(s: string, ws: char -> bool)
    requires |s| > 0 ==> !ws(s[0]) && !ws(s[|s| - 1])
    ensures Trim(s, ws) == s
  {
    assert TrimStart(s, ws) == s;
  }

  /** Trimming the start of a string that starts visibly changes nothing. */
  lemma TrimUntrimmedStart(s: string, ws: char -> bool)
    requires |s| > 0 ==> !ws(s[0])
    ensures TrimStart(s, ws) == s
  {
  }

  /** Lower-casing a string without capitals changes nothing. */
  lemma LowerUncapitalised(s: string)
    requires forall i :: 0 <= i < |s| ==> !IsUpper(s[i])
    ensures Lower(s) == s
  {
  }

  /** Leading whitespace before a visibly starting rest is all that `TrimStart` removes. */
  lemma {:induction false} TrimStartSkips(pre: string, rest: string, ws: char -> bool)
    requires forall i :: 0 <= i < |pre| ==> ws(pre[i])
    requires |rest| > 0 && !ws(rest[0])
    ensures TrimStart(pre + rest, ws) == rest
  {
    if |pre| == 0 {
      assert pre + rest == rest;
      TrimUntrimmedStart(rest, ws);
    } else {
      assert (pre + rest)[0] == pre[0];
      assert (pre + rest)[1..] == pre[1..] + rest;
      TrimStartSkips(pre[1..], rest, ws);
    }
  }

  /** Trailing whitespace after a visibly ending rest is all that `TrimEnd` removes. */
  lemma {:induction false} TrimEndSkips(rest: string, post: string, ws: char -> bool)
    requires forall i :: 0 <= i < |post| ==> ws(post[i])
    requires |rest| > 0 && !ws(rest[|rest| - 1])
    ensures TrimEnd(rest + post, ws) == rest
  {
    if |post| == 0 {
      assert rest + post == rest;
    } else {
      assert (rest + post)[|rest + post| - 1] == post[|post| - 1];
      assert (rest + post)[..|rest + post| - 1] == rest + post[..|post| - 1];
      TrimEndSkips(rest, post[..|post| - 1], ws);
    }
  }

  /** Trimming removes exactly the whitespace surrounding a visible word. */
  lemma TrimSurrounded(pre: string, w: string, post: string, ws: char -> bool)
    requires forall i :: 0 <= i < |pre| ==> ws(pre[i])
    requires forall i :: 0 <= i < |post| ==> ws(post[i])
    requires |w| > 0 && !ws(w[0]) && !ws(w[|w| - 1])
    ensures Trim(pre + w + post, ws) == w
  {
    assert pre + w + post == pre + (w + post);
    TrimStartSkips(pre, w + post, ws);
    TrimEndSkips(w, post, ws);
  }

  /** `s` is its trimmed core with the removed characters before and after it. */
  lemma TrimSplit(s: string, ws: char -> bool) returns (pre: string, post: string)
    ensures s == pre + Trim(s, ws) + post
    ensures forall i :: 0 <= i < |pre| ==> ws(pre[i])
    ensures forall i :: 0 <= i < |post| ==> ws(post[i])
  {
    var t := TrimStart(s, ws);
    var r := TrimEnd(t, ws);
    pre := TrimStartSplit(s, ws);
    post := TrimEndSplit(t, ws);
    Seqs.Regroup(s, pre, t, r, post);
    assert Trim(s, ws) == r;
  }

  /** `s` is the leading characters `TrimStart` removes followed by its result. */
  lemma TrimStartSplit(s: string, ws: char -> bool) returns (pre: string)
    ensures s == pre + TrimStart(s, ws)
    ensures forall i :: 0 <= i < |pre| ==> ws(pre[i])
  {
    var t := TrimStart(s, ws);
    pre := s[..|s| - |t|];
    assert t == s[|s| - |t|..];
    assert s == pre + s[|s| - |t|..];
  }

  /** `t` is the result of `TrimEnd` followed by the trailing characters it removes. */
  lemma TrimEndSplit(t: string, ws: char -> bool) returns (post: string)
    ensures t == TrimEnd(t, ws) + post
    ensures forall i :: 0 <= i < |post| ==> ws(post[i])
  {
    var r := TrimEnd(t, ws);
    post := t[|r|..];
    assert t == t[..|r|] + post;
  }

  /** Trimming keeps a last character that is not in `ws`. */
  lemma TrimKeepsLast(s: string, ws: char -> bool)
    requires |s| > 0 && !ws(s[|s| - 1])
    ensures var r := Trim(s, ws); |r| > 0 && r[|r| - 1] == s[|s| - 1]
  {
    var t := TrimStart(s, ws);
    var pre := TrimStartSplit(s, ws);
    assert !ws((pre + t)[|s| - 1]);
    assert |t| > 0 && t[|t| - 1] == s[|s| - 1];
    TrimEndUntrimmed(t, ws);
    assert Trim(s, ws) == TrimEnd(t, ws);
  }

  /** `TrimEnd` keeps a string whose last character is not in `ws`. */
  lemma TrimEndUntrimmed(t: string, ws: char -> bool)
    requires |t| > 0 && !ws(t[|t| - 1])
    ensures TrimEnd(t, ws) == t
  {
  }

  /** Lower-casing keeps a first and last character outside `filter_var`'s
      whitespace outside it. */
  lemma LowerKeepsEdges(s: string)
    requires |s| > 0 ==> !IsFilterSpace(s[0]) && !IsFilterSpace(s[|s| - 1])
    ensures var l := Lower(s); |l| > 0 ==> !IsFilterSpace(l[0]) && !IsFilterSpace(l[|l| - 1])
  {
    if |s| > 0 {
      var l := Lower(s);
      assert l[0] == LowerChar(s[0]);
      assert l[|l| - 1] == LowerChar(s[|s| - 1]);
    }
  }

  /** A string with no visible character: what Laravel's `required` rejects
      after PHP's `trim`. */
  predicate Blank(s: string) {
    |Trim(s, IsTrimmable)| == 0
  }

  predicate IsSlash(c: char) {
    c == '/'
  }

  /** The start of the run of `p`-characters that ends at `j`. */
  function SkipBack(s: string, j: nat, p: char -> bool): (k: nat)
    requires j <= |s|
    ensures k <= j
    ensures forall i :: k <= i < j ==> p(s[i])
    ensures k > 0 ==> !p(s[k - 1])
  {
    if j > 0 && p(s[j - 1]) then SkipBack(s, j - 1, p) else j
  }

  /** The last position in `[lo, hi)` holding `c`. */
  function LastIn(s: string, c: char, lo: nat, hi: nat): (r: Option<nat>)
    requires lo <= hi <= |s|
    ensures r.Some? ==> lo <= r.value < hi && s[r.value] == c
    ensures r.Some? ==> forall j :: r.value < j < hi ==> s[j] != c
    ensures r.None? <==> forall j :: lo <= j < hi ==> s[j] != c
    decreases hi - lo
  {
    if lo == hi then None
    else if s[hi - 1] == c then Some(hi - 1)
    else LastIn(s, c, lo, hi - 1)
  }

  /** Where the last path component ends: before the trailing '/'. */
  function BaseEnd(path: string): (e: nat)
    ensures e <= |path|
    ensures forall i :: e <= i < |path| ==> path[i] == '/'
    ensures e > 0 ==> path[e - 1] != '/'
  {
    SkipBack(path, |path|, IsSlash)
  }

  /** Where the last path component starts: after the last '/' before its end. */
  function BaseStart(path: string): (b: nat)
    ensures b <= BaseEnd(path)
    ensures forall i :: b <= i < BaseEnd(path) ==> path[i] != '/'
    ensures b > 0 ==> path[b - 1] == '/'
  {
    match LastIn(path, '/', 0, BaseEnd(path))
    case None => 0
    case Some(i) => i + 1
  }

  /** The last path component (PHP's `basename`): trailing '/' are dropped,
      then everything after the final '/' is kept. */
  function BaseName(path: string): (r: string)
    ensures forall i :: 0 <= i < |r| ==> r[i] != '/'
    ensures |r| == BaseEnd(path) - BaseStart(path)
    ensures forall i :: 0 <= i < |r| ==> r[i] == path[BaseStart(path) + i]
  {
    path[BaseStart(path)..BaseEnd(path)]
  }

  /** The extension of a file path (PHP's `pathinfo(p, PATHINFO_EXTENSION)`):
      the text after the last '.' of the base name, or "" when the base name
      has no '.'. */
  function Extension(path: string): (r: string)
    ensures forall i :: 0 <= i < |r| ==> r[i] != '.' && r[i] != '/'
    ensures |r| <= BaseEnd(path) - BaseStart(path)
    ensures forall i :: 0 <= i < |r| ==> r[i] == path[BaseEnd(path) - |r| + i]
    ensures (forall i :: BaseStart(path) <= i < BaseEnd(path) ==> path[i] != '.') ==> r == ""
    ensures |r| > 0 ==> |r| < BaseEnd(path) - BaseStart(path) && path[BaseEnd(path) - |r| - 1] == '.'
  {
    match LastIn(path, '.', BaseStart(path), BaseEnd(path))
    case None => ""
    case Some(d) => path[d + 1..BaseEnd(path)]
  }

  /** Trailing slashes do not move the last component. */
  lemma BaseIgnoresTrailingSlashes(path: string, slashes: string)
    requires forall i :: 0 <= i < |slashes| ==> slashes[i] == '/'
    ensures BaseEnd(path + slashes) == BaseEnd(path) && BaseStart(path + slashes) == BaseStart(path)
  {
    var u := path + slashes;
    SkipBackOver(u, |path|, |u|, IsSlash);
    LastInPrefix(path, slashes, '/', BaseEnd(path));
  }

  /** Skipping back over a run that is all `p` continues from its start. */
  lemma {:induction false} SkipBackOver(s: string, m: nat, j: nat, p: char -> bool)
    requires m <= j <= |s|
    requires forall i :: m <= i < j ==> p(s[i])
    ensures SkipBack(s, j, p) == SkipBack(s, m, p)
    decreases j
  {
    if j > m {
      SkipBackOver(s, m, j - 1, p);
    }
  }

  /** Scanning a prefix range of `a + b` is scanning `a`. */
  lemma {:induction false} LastInPrefix(a: string, b: string, c: char, hi: nat)
    requires hi <= |a|
    ensures LastIn(a + b, c, 0, hi) == LastIn(a, c, 0, hi)
    decreases hi
  {
    if hi > 0 {
      assert (a + b)[hi - 1] == a[hi - 1];
      LastInPrefix(a, b, c, hi - 1);
    }
  }

  /** Trailing slashes change neither the base name nor the extension. */
  lemma NameIgnoresTrailingSlashes(path: string, slashes: string)
    requires forall i :: 0 <= i < |slashes| ==> slashes[i] == '/'
    ensures BaseName(path + slashes) == BaseName(path)
    ensures Extension(path + slashes) == Extension(path)
  {
    BaseIgnoresTrailingSlashes(path, slashes);
    var b, e := BaseStart(path), BaseEnd(path);
    SliceOfPrefix(path, slashes, b, e);
    LastInRange(path, slashes, '.', b, e);
    var d := LastIn(path, '.', b, e);
    if d.Some? {
      SliceOfPrefix(path, slashes, d.value + 1, e);
    }
  }

  lemma SliceOfPrefix(a: string, b: string, i: nat, j: nat)
    requires i <= j <= |a|
    ensures (a + b)[i..j] == a[i..j]
  {
  }

  /** Scanning a range inside `a` of `a + b` is scanning `a`. */
  lemma {:induction false} LastInRange(a: string, b: string, c: char, lo: nat, hi: nat)
    requires lo <= hi <= |a|
    ensures LastIn(a + b, c, lo, hi) == LastIn(a, c, lo, hi)
    decreases hi - lo
  {
    if lo < hi {
      assert (a + b)[hi - 1] == a[hi - 1];
      LastInRange(a, b, c, lo, hi - 1);
    }
  }

  /** A name ending in "." followed by a dot- and slash-free `ext` has
      extension `ext`, whatever directories and dots precede it. */
  lemma ExtensionOfDotted(stem: string, ext: string)
    requires forall i :: 0 <= i < |ext| ==> ext[i] != '.' && ext[i] != '/'
    ensures Extension(stem + "." + ext) == ext
  {
    var path := stem + "." + ext;
    var n := |path|;
    assert path[n - |ext| - 1] == '.';
    forall i | n - |ext| <= i < n ensures path[i] != '/' && path[i] != '.' {
      assert path[i] == ext[i - (n - |ext|)];
    }
    assert BaseEnd(path) == n;
    assert BaseStart(path) <= n - |ext| - 1;
    var d := LastIn(path, '.', BaseStart(path), n);
    assert d == Some(n - |ext| - 1);
    assert path[n - |ext|..n] == ext;
  }
}

=== FILE: wrappers.dfy ===
/** Option and Result, the two failure-carrying shapes the rest of the model uses
    for nullable columns and for requests that either succeed or are rejected. */
module Wrappers {

  /** A value that may be absent: PHP's `null`, JavaScript's `undefined`. */
  datatype Option<+T> = None | Some(value: T) {

    /** The wrapped value, or `default` when absent. */
    function GetOr(default: T): T {
      match this
      case Some(v) => v
      case None => default
    }
  }

  /** The outcome of an operation that is either accepted or rejected with a reason. */
  datatype Result<+T, +E> = Success(value: T) | Failure(error: E)
}
